=== FILE: README.md ===
# DropSniper AI backend, modelled in Dafny

This project models the logic of the DropSniper AI backend, a FastAPI and
MongoDB service that finds trending dropshipping products. The model covers:

- the tier table that gates features and limits;
- the sample-data scanners and the OpenAI-backed scanner, with their merge of four sources;
- the competitor spy's store-change diff;
- the Google Trends classification;
- the CSV export;
- the product, user, admin, auth, payment and verification routes;
- the routes in `server.py` that hold logic of their own;
- the background scheduler with its scans, nightly archive and daily reports.

Every record is an immutable datatype and every route or job is a pure
function. The MongoDB collections are one `Db` value (module `Database`),
held as sequences in insertion order. A mutating route returns
`Routed(response, db)`: the HTTP answer (a value or an `HttpError` with
status and detail) and the next `Db`. `find_one` and `update_one` act on
the first matching document. A `$ne: None` query is modelled as a
`Some?` test.

The model takes what the code gets from outside as parameters:

- the clock: integer seconds and `%Y-%m-%d` date strings;
- random draws and generated ids, within the ranges `random` can produce;
- the OpenAI call and `json.loads`: an answer or a failure;
- the pytrends results, or the fact that a call raised;
- Stripe: whether it is configured, the ids it returns, whether a call raised, the webhook event after signature checking;
- the mail service's configuration and outcome;
- the Telegram delivery result;
- the password hash;
- float-to-text formatting of prices.

Modules follow the source files:

| module | file |
|---|---|
| `Common`, `Strings`, `Sorting` | shared: Option/Response/JSON values, Python string operations, a stable descending sort |
| `Models` | `backend/models.py` |
| `Database` | the MongoDB collections |
| `Tiers` | `backend/routes/tiers.py` |
| `CompetitorSpy` | `backend/services/competitor_spy.py` |
| `Scanners` | `backend/services/scanners.py` |
| `AiScanner` | `backend/services/ai_scanner.py` |
| `Scheduler` | `backend/services/scheduler.py` |
| `Server` | `backend/server.py` |
| `Trends`, `Export`, `Products`, `Users`, `Admin`, `Auth`, `Payments`, `Verification` | `backend/routes/*.py` |

Where files disagree with each other, the model keeps the disagreement as
the code has it and states its consequence as a lemma:

- the scheduler reads `"count"` from a full-scan result that carries `"total_products"` (`Scheduler.RecordedTotalIsZero`);
- the tier-status route passes a tier name where a user is expected (`Users.TierStatusAlwaysFails`);
- `server.py` imports a name `tiers.py` does not define (`Server.MissingImport`);
- the admin tier vocabulary differs from the tier table's (`Admin.AdminVocabularyMismatch`, `Admin.PredatorIsFree`).

The missing name is imported at module level in `server.py` (line 272),
before `app.include_router(api_router)` at line 766. The `ImportError`
therefore stops the whole application from loading, so no route is served,
including those of the included routers (auth, products, payments and the
rest). The model describes what every route would do once the module
loads. For the saturation routes and `add_competitor`, that means after
the feature check passes.

## Model

| member | source | states |
|---|---|---|
| Models.UserDefaults | backend/models.py:16-30 | a new user is on the free tier, not an admin, with no keys, no filters and null notification preferences |
| Models.NotificationDefaults | backend/models.py:32-36 | every notification preference defaults to on |
| Models.FilterSettingsDefaults | backend/models.py:204-211 | the default filter thresholds: cost 15, price 35, margin 60, 50 ads, 15 shipping days, no categories, trademark risk excluded |
| Models.ProductDefaults | backend/models.py:65-104 | no suppliers, no trademark risk, demo video possible, no platforms, empty image; the score fields are not range-checked |
| Models.KitAndBoardDefaults | backend/models.py:145-201 | a launch kit starts as a draft and a board with no products |
| Sorting.SortDesc | backend/services/scheduler.py:157 | the descending sort is ordered by the key and a permutation of its input |
| Sorting.TopK | backend/services/scheduler.py:157-158 | after the sort, the first k and the rest together are the input, and every kept element scores at least as high as every dropped one |
| Sorting.TopN | backend/services/scheduler.py:157-158 | the first n of the sort: min(n, size) elements, ordered, drawn from the input, none scoring below anything left out |
| Strings.Lower | backend/routes/auth.py:35 | the same length, each character lower-cased (ASCII letters) |
| Strings.Title | backend/services/scanners.py:147 | the same length; the first letter of each run of letters upper-cased, the others lower-cased, other characters kept |
| Tiers.TierLevel | backend/routes/tiers.py:40-41 | the level is the tier's position in free < sniper < elite < agency < enterprise; an unknown tier is level 0 |
| Tiers.HasFeatureAccess | backend/routes/tiers.py:43-48 | access holds exactly when the tier's level reaches that of the feature's required tier; a feature outside the table needs nothing |
| Tiers.AccessMonotone | backend/routes/tiers.py:40-48 | a tier at least as high as one with access also has access |
| Tiers.AccessIsSuffix | backend/routes/tiers.py:43-48 | the tiers with access to a feature are exactly those from its required tier upwards |
| Tiers.RequireFeature | backend/routes/tiers.py:50-66 | the gate lets the user through iff it has access, otherwise answers 403 naming the feature, its required tier and the current tier, whose level is below the required one |
| Tiers.GetTierLimits | backend/routes/tiers.py:68-70 | an unknown tier gets the free limits; every daily limit is positive or -1 for unlimited |
| Tiers.LimitsMonotone | backend/routes/tiers.py:32-38 | any usage a lower tier's limit admits is admitted by a higher tier's |
| Tiers.GetAllFeaturesStatus | backend/routes/tiers.py:72-80 | one entry per feature of the table, with its required tier and availability exactly when the user's level reaches it |
| Auth.CreateToken | backend/routes/auth.py:19-24 | the token's subject is the user id and it expires 24 hours after issue |
| Auth.NewUser | backend/routes/auth.py:35-42 | the stored hash is the password's hash, the admin flag is the case-insensitive admin-address test, the tier is free |
| Auth.Register | backend/routes/auth.py:26-57 | 400 "Email already registered" exactly when a user has the email, writing nothing; otherwise the new user is appended and its token returned |
| Auth.Login | backend/routes/auth.py:59-81 | fails with one 401 "Invalid credentials" exactly when no user has the email or the password's hash differs; else a token for the first such user, and the user fields (name, email, tier, admin flag, chat id) with its two key flags |
| Auth.RegisterThenLogin | backend/routes/auth.py:26-81 | after registering, logging in with the same password succeeds and the token names the new user |
| Auth.RegisterThenWrongPassword | backend/routes/auth.py:26-81 | after registering, a password of different hash is refused with 401 |
| Auth.RegisterTwiceRefused | backend/routes/auth.py:31-33 | a second registration of the same email is refused with 400 |
| Auth.AdminIgnoresCase | backend/routes/auth.py:35 | the admin test compares lower-cased addresses: "aD@X" is admin when "Ad@x" is configured |
| Users.Mask | backend/routes/users.py:24-25 | a mask exists iff the secret is non-empty and is the prefix followed by at most the last n characters of the secret |
| Users.GetKeys | backend/routes/users.py:17-26 | each has-flag agrees with the presence of its mask; the chat id is passed through |
| Users.MaskHidesPrefix | backend/routes/users.py:24 | two keys with the same last four characters get the same mask |
| Users.Cleared | backend/routes/users.py:34-39 | an empty string is stored as None, any other value as itself |
| Users.ApplyKeys | backend/routes/users.py:34-42 | only the three key fields of the user can change |
| Users.UpdatedFields | backend/routes/users.py:32-44 | a field name is reported iff that field was sent |
| Users.UpdateKeys | backend/routes/users.py:28-44 | reports the sent fields; writes nothing when none was sent, else updates the current user's document |
| Users.UpdateThenStatus | backend/routes/users.py:17-44 | after an update the key status shows a sent non-empty key masked from its last characters (four of the OpenAI key, six of the bot token), a sent empty key or chat id as absent, and an unsent field as before |
| Users.DeleteKey | backend/routes/users.py:46-55 | 400 exactly for a key name outside the three, writing nothing; otherwise that field of the user is set to None |
| Users.DeleteThenStatus | backend/routes/users.py:46-55 | after deleting a key the status shows it absent and the other keys unchanged |
| Users.FeaturesFor | backend/routes/tiers.py:72-80 | a user argument yields the full feature table; a tier-name string raises as soon as one feature is checked |
| Users.StatusWith | backend/routes/users.py:57-65 | fails with 500 iff the feature table raises; else reports the tier's level and limits and the table |
| Users.GetTierStatus | backend/routes/users.py:57-65 | as written the route answers 500 for every user, because the tier name is handed where a user is expected |
| Users.TierStatusAlwaysFails | backend/routes/users.py:64 | as written, the tier status route answers 500 for every user |
| Users.GetTierStatusIntended | backend/routes/users.py:57-65 | passing the user itself, the route answers with the user's tier, its level and limits, and one entry per feature |
| Users.TierStatusIntendedAnswers | backend/routes/users.py:57-65 | passing the user, the route succeeds with one entry per feature, and an unknown tier reports level 0 and the free limits |
| Verification.GenerateCode | backend/routes/verification.py:23-25 | the code has six characters, each a decimal digit |
| Verification.CodeRecordsDraws | backend/routes/verification.py:23-25 | reading the code's digits back gives the six draws |
| Verification.CodeFor | backend/routes/verification.py:102 | the found code document has the email; none is found iff no document has it |
| Verification.UpsertCode | backend/routes/verification.py:45-55 | the email's document is replaced in place, or a new one appended when there is none |
| Verification.UpsertKeepsOnePerEmail | backend/routes/verification.py:45-55 | the upsert keeps at most one code per email |
| Verification.UpsertThenFind | backend/routes/verification.py:45-55 | after the upsert, the lookup for the email finds the new document |
| Verification.SendCode | backend/routes/verification.py:27-94 | 500 when the mail service is unconfigured, 400 for an email of a verified user, both writing nothing; otherwise the code is stored with a ten-minute expiry and the answer is success iff the mail went out, 500 otherwise |
| Verification.ResendCode | backend/routes/verification.py:128-131 | resending behaves as sending |
| Verification.DeleteCode | backend/routes/verification.py:124 | the first document of the email is removed, all others kept in order |
| Verification.MarkVerified | backend/routes/verification.py:117-121 | the upsert replaces the first pending record of the email with one marked verified at that time, or appends that record when the email has none; nothing else changes |
| Verification.CheckCode | backend/routes/verification.py:96-126 | fails, in order, for a missing code, an expired code (strictly after expiry) and a wrong code, each writing nothing; success marks the email verified and deletes its code |
| Verification.SentCodeChecks | backend/routes/verification.py:27-126 | a sent code passes a check with it from sending until its expiry inclusive and fails after |
| Verification.CodeIsSingleUse | backend/routes/verification.py:117-126 | with one code per email, repeating a successful check finds no code |
| Verification.CheckKeepsOnePerEmail | backend/routes/verification.py:96-126 | checking keeps at most one code per email |
| Admin.GetStats | backend/routes/admin.py:10-32 | the totals are the collection sizes; paid users are those not on the free tier; the key counts are the users whose key is set (not null) |
| Admin.PaidCountsNonFree | backend/routes/admin.py:14-15 | paid users and free-tier users together are all users |
| Admin.Listed | backend/routes/admin.py:38-41 | a listed user keeps its id, email and tier |
| Admin.ListingHidesHash | backend/routes/admin.py:40 | two users are listed alike exactly when they differ at most in the password hash |
| Admin.ListUsers | backend/routes/admin.py:34-45 | the page holds the users from position skip on, in order, at most limit of them and exactly limit when enough remain, with the total count |
| Admin.PagesTile | backend/routes/admin.py:38-41 | two consecutive pages make up the page of twice the size |
| Admin.UpdateUserTier | backend/routes/admin.py:47-61 | 400 for a tier outside free/scout/hunter/predator/agency and 404 for an unknown id, writing nothing; otherwise only that user's tier changes |
| Admin.AdminVocabularyMismatch | backend/routes/admin.py:51 | scout, hunter and predator are assignable but rank as free with free limits; sniper, elite and enterprise rank above free but cannot be assigned |
| Admin.PredatorIsFree | backend/routes/admin.py:51-56 | a user set to predator has exactly the feature access of a free user |
| CompetitorSpy.DetectStoreChanges | backend/services/competitor_spy.py:88-102 | a name is added iff it is new and not previous, removed iff previous and not new; the counts are the set sizes and there are changes iff either is positive |
| CompetitorSpy.ChangesDisjoint | backend/services/competitor_spy.py:93-94 | no name is both added and removed; added names are new ones, removed names previous ones |
| CompetitorSpy.CountsBounded | backend/services/competitor_spy.py:99-100 | the added count is at most the number of new names, the removed count at most the number of previous ones |
| CompetitorSpy.DuplicatesCollapse | backend/services/competitor_spy.py:90-91 | repeating names in either snapshot changes nothing |
| CompetitorSpy.DiffIdempotent | backend/services/competitor_spy.py:88-102 | comparing snapshots with the same names reports no change |
| CompetitorSpy.DiffExample | backend/services/competitor_spy.py:88-102 | previous {A, B} against new [A, C] reports C added and B removed |
| CompetitorSpy.MockStoreNameOfHost | backend/services/competitor_spy.py:53 | the store name of an https URL is the title-cased host part before its first dot |
| CompetitorSpy.TopCategory | backend/services/competitor_spy.py:81-82 | the top category is one of the sampled products' categories and none is more frequent |
| CompetitorSpy.Pick | backend/services/competitor_spy.py:56-72 | the sample holds the pool products at the drawn positions |
| CompetitorSpy.GenerateMockCompetitorData | backend/services/competitor_spy.py:50-85 | the store name comes from the URL, the products are the drawn pool entries in draw order with their count, and the top category is a most frequent one among them |
| CompetitorSpy.NamesOf | backend/services/competitor_spy.py:91 | the names of the items, in order |
| Scanners.TikTokScan | backend/services/scanners.py:21-50 | one "tiktok" item per sample with at least 10M views, in order, keeping its name, views and hashtag, with a growth rate between 50 and 400 |
| Scanners.TikTokSampleSize | backend/services/scanners.py:26-38 | every built-in TikTok sample has 10M+ views, so all eight are emitted |
| Scanners.AmazonScan | backend/services/scanners.py:61-88 | every sample without a category, otherwise exactly the samples of that category, in order, as "amazon" items |
| Scanners.AmazonSampleSize | backend/services/scanners.py:65-76 | without a category all seven built-in samples are emitted |
| Scanners.AliExpressScan | backend/services/scanners.py:94-122 | one "aliexpress" item per sample with its name and 30-day orders, and an order velocity of orders per day over 30 days |
| Scanners.GoogleTrendsScan | backend/services/scanners.py:128-157 | one "google_trends" item per term with growth of at least 50, named by the title-cased term, with its growth, volume and direction |
| Scanners.GoogleTrendsAllUp | backend/services/scanners.py:144-152 | every emitted term's direction is "up": the filter leaves the "down" branch unreachable |
| Scanners.GoogleSampleSize | backend/services/scanners.py:132-144 | seven of the eight built-in terms are rising and emitted |
| Scanners.ActiveAds | backend/services/scanners.py:171 | the active ads are seven tenths of the total rounded down, except at 90 where the float product falls one lower, to 62 |
| Scanners.Advertisers | backend/services/scanners.py:172-175 | one advertiser per count, named "Store_" and its index |
| Scanners.ScanProductAds | backend/services/scanners.py:163-184 | 5 to 100 ads, at most as many active; min(5, total//10+1) advertisers named Store_0 onwards with 1 to 10 ads each; a duration of 7 to 45 days |
| Scanners.AnalyzeProduct | backend/services/scanners.py:274-283 | the analysis names the product and recommends low competition exactly under 50 ads |
| Scanners.StoreProducts | backend/services/scanners.py:203-209 | one product per drawn name with its price, new exactly at the first two positions |
| Scanners.CountFirstTwoNew | backend/services/scanners.py:203-217 | when exactly the first two products are new the new count is 2 |
| Scanners.CountNoneNew | backend/services/scanners.py:217 | with no new product the new count is 0 |
| Scanners.ScanStore | backend/services/scanners.py:190-219 | 3 to 6 distinct sample names priced 19.99 to 79.99, their count, exactly the first two new and a new count of 2, and the store name from the URL |
| Scanners.StoreNames | backend/services/scanners.py:224 | the names of the scanned products, in order |
| Scanners.DetectNewProducts | backend/services/scanners.py:221-232 | exactly the scanned products whose name was not seen before |
| Scanners.NewProductsInScanOrder | backend/services/scanners.py:227-230 | the new products keep the scan's order and multiplicity: a split scan gives the concatenation of the parts' new products, and one product is new exactly when its name was not seen |
| Scanners.NewProductsAreAdded | backend/services/scanners.py:221-232 | the new products' names are exactly the names the store-change diff reports as added |
| Scanners.EngineFullScan | backend/services/scanners.py:246-272 | per source the count of its list, 0 for a source that raised; the total is the sum of the four counts |
| Scanners.EngineParts | backend/services/scanners.py:260-265 | each source contributes its list, or nothing when it raised |
| Scanners.EngineMergeOrder | backend/services/scanners.py:256-262 | the merged products are the four lists one after the other, in source order |
| AiScanner.LastIndexOf | backend/services/ai_scanner.py:39 | the last position holding the character, or None exactly when it does not occur |
| AiScanner.DelimitedSpan | backend/services/ai_scanner.py:39 | the greedy match runs from the first opening character to the last closing one after it; there is none exactly when no opening character precedes a closing one |
| AiScanner.ParseJsonResponse | backend/services/ai_scanner.py:35-44 | no bracket pair gives the empty list; a non-empty result is what parsing the matched text gives, and a successful parse is returned as is |
| AiScanner.StampProducts | backend/services/ai_scanner.py:93-95 | succeeds exactly when every parsed element is a dictionary, and then marks each one AI-generated with the scan time, keeping its other keys |
| AiScanner.Instructions | backend/services/ai_scanner.py:116-123 | one line per filter key given with a truthy value, in key order, showing its value; raises exactly when a joined value cannot be joined |
| AiScanner.FilterInstructions | backend/services/ai_scanner.py:50-59 | no filters give no lines; otherwise the lines of the given keys |
| AiScanner.InstructionIff | backend/services/ai_scanner.py:116-123 | a key gets a line exactly when it is present with a truthy value |
| AiScanner.SourceScanIgnoresExcluded | backend/services/ai_scanner.py:116-123 | a source scan never writes an excluded-terms line |
| AiScanner.ScanSource | backend/services/ai_scanner.py:106-162 | raises exactly when the filter lines raise; otherwise names its source, succeeds exactly when the call answered and every parsed item is a dictionary, and then carries the reply's parsed items stamped with the scan time and their count; a failed call reports its message with no products |
| AiScanner.NoBracketsIsEmptySuccess | backend/services/ai_scanner.py:35-44 | a reply without a bracket pair is a successful scan of zero products |
| AiScanner.ScanTrendingProducts | backend/services/ai_scanner.py:46-104 | raises exactly when the filter lines raise; succeeds exactly when the call answered and every parsed item is a dictionary, carrying the reply's parsed items stamped with the scan time and their count; failure carries none |
| AiScanner.AnalyzeProduct | backend/services/ai_scanner.py:164-202 | names the product; a failed call is a failure with its message; no brace pair gives the "Could not parse response" dictionary; otherwise success exactly when the braced text parses, carrying the parsed value, and a parse error is reported as a JSON decode error |
| AiScanner.Contributions | backend/services/ai_scanner.py:219-225 | each source contributes its products when it succeeded, nothing otherwise |
| AiScanner.MergeSourceResults | backend/services/ai_scanner.py:204-237 | raises exactly when two or more products are found and some two trend scores cannot be ordered, and never when all are numbers; otherwise success in "ai_powered" mode, per source the count of its products or 0, a total equal to their sum, and the found products permuted into trend-score order, highest first |
| AiScanner.MixedTrendScoresRaise | backend/services/ai_scanner.py:228 | a string trend score next to a numeric one makes the merge raise |
| AiScanner.RunFullScan | backend/services/ai_scanner.py:204-237 | raises exactly when the products found by the four source scans have trend scores that cannot be ordered; otherwise success, per source the count of products its own scan returned (0 when it failed or raised), and a total equal to the number of products |
| AiScanner.SourceOutcomes | backend/services/ai_scanner.py:207-213 | the four source scans with the same filters, in source order |
| AiScanner.AllSourcesFailed | backend/services/ai_scanner.py:219-237 | when every source fails the full scan still reports success, with no products |
| AiScanner.UnjoinableCategoriesFindNothing | backend/services/ai_scanner.py:122-123 | categories that cannot be joined make every source raise, and the full scan succeeds with nothing found |
| AiScanner.FullScanHasNoCount | backend/services/ai_scanner.py:230-237 | the full-scan answer has "total_products" and no "count" entry |
| Trends.LastSliceStart | backend/routes/trends.py:84 | the last-quarter slice starts inside the series |
| Trends.LastSliceIsCeiling | backend/routes/trends.py:84 | the slice `data[-len(data)//4:]` holds the last ceil(n/4) points, which is a quarter only when n is a multiple of 4 |
| Trends.TrendDirection | backend/routes/trends.py:81-92 | fewer than 4 points are stable; otherwise "up" exactly when the last-slice average exceeds 1.1 times the first-quarter average and "down" exactly when it is not up and is below 0.9 times it, both averages divided by n//4 |
| Trends.FlatFiveReadsUp | backend/routes/trends.py:84 | as written, the flat series 10,10,10,10,10 reads as rising |
| Trends.TrendDirectionIntended | backend/routes/trends.py:82-92 | the direction comparing the last n//4 points with the first n//4: "up" exactly when the last sum exceeds 1.1 times the first |
| Trends.FlatIsStableWhenIntended | backend/routes/trends.py:82-92 | with equal-sized quarters every flat series is stable |
| Trends.KeywordInterest | backend/routes/trends.py:49-108 | an exception gives the fallback, an empty frame gives no data; otherwise the data as fetched, the mean of its points and its direction |
| Trends.ChangePercent | backend/routes/trends.py:189-194 | 0 for fewer than 4 points or a first quarter not above 0; otherwise the change times the first-quarter sum equals 100 times the difference of the quarter sums |
| Trends.ChangeTrend | backend/routes/trends.py:201 | up above +10 percent, down below -10 percent, stable in between, inclusive |
| Trends.ClassificationsAgree | backend/routes/trends.py:82-92 | with a positive first quarter, the batch classification of a series agrees with the keyword route's direction |
| Trends.AnalyzeOne | backend/routes/trends.py:171-219 | each result names its product; an exception is "error", an empty frame "unknown", otherwise the current interest is the last point |
| Trends.AnalyzeProducts | backend/routes/trends.py:160-221 | one result per name among the first five, in order, each labelled up, down, stable, unknown or error |
| Trends.RisingQueries | backend/routes/trends.py:136-141 | the first ten rising rows in order, each keeping its query and with a "Breakout" value reported as 1000 |
| Trends.TopQueries | backend/routes/trends.py:143-148 | the top frame converts iff none of its first ten rows is a "Breakout", and then keeps at most ten rows |
| Trends.RelatedQueries | backend/routes/trends.py:110-158 | an exception gives the fallback; a keyword missing from the answer gives empty lists; without a top frame, the rising queries (none without a rising frame) and no top queries; with a top frame, the fallback exactly when its cast fails, otherwise the rising queries and the top queries; both lists hold at most ten queries |
| Trends.NoFramesNoQueries | backend/routes/trends.py:129-150 | a keyword whose two frames are both None gets two empty lists |
| Trends.BreakoutFallsBackOnlyInTop | backend/routes/trends.py:136-149 | with both frames read, the fallback happens exactly when a "Breakout" is among the top frame's first ten rows; one in the rising frame is answered as 1000 |
| Trends.RisingTrends | backend/routes/trends.py:17-47 | the fallback iff fetching raised; otherwise a prefix of at most twenty of the trending searches |
| Products.Matching | backend/routes/products.py:19-23 | a product is kept iff it has the category when one is given and scores at least min_score when that is neither None nor 0 |
| Products.ListProducts | backend/routes/products.py:11-26 | at most limit matching products, best score first, drawn from the matching ones, and none left out scores higher than one kept |
| Products.UnfilteredListsAll | backend/routes/products.py:20-23 | without a category or score floor (or with an empty category and 0) the listing takes min(limit, all) products |
| Products.TopProducts | backend/routes/products.py:28-32 | the top min(limit, all) products, best score first, drawn from the collection, and none left out scores higher than one kept |
| Products.TopIsUnfilteredListing | backend/routes/products.py:11-32 | the top route equals the listing with no category and no score floor |
| Products.GetProduct | backend/routes/products.py:34-40 | a product with the id from the collection, or 404 "Product not found" exactly when none has it |
| Products.GenericSupplier | backend/routes/products.py:50-53 | the stand-in supplier costs the product's source cost plus 2.50 shipping |
| Products.BestSupplier | backend/routes/products.py:50-53 | the first listed supplier, or the stand-in when there is none |
| Products.Brief | backend/routes/products.py:49-78 | the best supplier is the first listed or the generic one, and unit and shipping cost are its costs; total cost is unit plus shipping, margin is price minus total, net profit is margin minus the 8.0 ad cost; competition is acceptable iff under 50 active ads, the trend positive iff "up", the trademark clear iff no risk |
| Products.SuppliersSplit | backend/routes/products.py:50-64 | the best supplier followed by the alternatives is the product's supplier list |
| Products.GenericProfit | backend/routes/products.py:50-58 | without suppliers the net profit is price minus source cost minus 2.50 minus 8.0, with no alternatives |
| Products.GetProductBrief | backend/routes/products.py:42-78 | 404 exactly when the product is unknown, else the brief of the stored product |
| Payments.Purchasable | backend/routes/payments.py:42 | checkout sells exactly sniper, elite and agency |
| Payments.Params | backend/routes/payments.py:68-96 | the session carries the tier's price in cents, the tier and the user id, and a one-day trial exactly when the user has not had one |
| Payments.CreateCheckout | backend/routes/payments.py:33-103 | 500 without Stripe and 400 for an unsold tier, both writing nothing; 500 when the user's document is gone; the stored customer is reused without writing, otherwise the newly created customer is the session's and is stored first; a failed customer creation answers 400 writing nothing, a failed session answers 400 keeping the new customer; a session carries Stripe's url and id |
| Payments.ByCustomer | backend/routes/payments.py:143-144 | the user found holds the customer id |
| Payments.Webhook | backend/routes/payments.py:105-165 | 400 for an invalid payload or signature, writing nothing; otherwise "success", an unknown event writes nothing, a failed payment appends a payment event, and the subscription events change only user fields |
| Payments.CompletedSubscribes | backend/routes/payments.py:123-137 | a completed checkout sets the user's tier and subscription id and changes no other field but the update time |
| Payments.CompletedThenDeleted | backend/routes/payments.py:123-152 | completing a checkout and then deleting the subscription of that user's customer leaves the user free with no subscription |
| Payments.WebhookKeepsTrialFlags | backend/routes/payments.py:105-165 | no webhook event changes any user's trial flag |
| Payments.CheckoutKeepsTrialFlags | backend/routes/payments.py:33-103 | checkout changes no user's trial flag |
| Payments.TrialOfferedAgain | backend/routes/payments.py:65 | as written, after a completed checkout the user still has not had the trial |
| Payments.WebhookIntended | backend/routes/payments.py:105-165 | the webhook recording the trial on a completed checkout: success for every constructed event, failure writing nothing otherwise |
| Payments.TrialOnceWhenIntended | backend/routes/payments.py:64-96 | once a completed checkout records the trial, the user's next checkout carries none |
| Payments.GetSubscription | backend/routes/payments.py:167-178 | fails exactly when the user's document is gone, else reports its tier, customer, subscription and update time |
| Payments.CreatePortal | backend/routes/payments.py:180-196 | 400 "No subscription found" for a stored user without a customer id; a portal URL only for a stored customer id, the one Stripe returned for it |
| Export.Sku | backend/routes/export.py:54 | the SKU starts with "PS-" and is at most eleven characters long |
| Export.SkuCollides | backend/routes/export.py:54 | ids that agree on their first eight characters get the same SKU |
| Export.SkuCollisionExample | backend/routes/export.py:54 | two distinct ids, "12345678-a" and "12345678-b", share a SKU |
| Export.ShortDescription | backend/routes/export.py:125 | at most n characters, a prefix of the description, and empty without one |
| Export.ShopifyValues | backend/routes/export.py:43-72 | the handle is the product id, the SKU is "PS-" and the id's first eight characters, body and image are empty when switched off, the SEO description has at most 160 characters and is empty without a description |
| Export.ShopifyRow | backend/routes/export.py:43-72 | the row's keys are the 28 Shopify columns in order, each with its value |
| Export.WooValues | backend/routes/export.py:117-160 | the SKU is as for Shopify, the short description has at most 200 characters and is empty without a description, description and images are empty when switched off, and the last column is the product id |
| Export.WooRow | backend/routes/export.py:117-160 | the row's keys are the 42 WooCommerce columns in order, each with its value |
| Export.Matching | backend/routes/export.py:29-32 | the first 100 stored products with a requested id, in stored order, or all of them when fewer; none exactly when no stored product has one |
| Export.ExportTo | backend/routes/export.py:21-181 | 404 "No products found" exactly when nothing matches, writing nothing; otherwise one row per found product in order, the count, and one export log entry appended |
| Export.ReplaceQuotes | backend/routes/export.py:217 | each double quote becomes a single quote and every other character stays, so no double quote remains |
| Export.Fields | backend/routes/export.py:217 | one field per header: the row's text for it, empty when absent, with quotes replaced |
| Export.CsvLines | backend/routes/export.py:212-218 | a header line of the first row's keys, then one line per row under that header |
| Export.DownloadExport | backend/routes/export.py:194-228 | 400 "Invalid platform" for a platform other than shopify or woocommerce; otherwise the export's error, its result for "json", or its rows as CSV with their count |
| Export.ParseQuotedLine | backend/routes/export.py:214-218 | a line of double-quoted, comma-joined fields free of double quotes reads back as those fields |
| Export.JoinSplit | backend/routes/export.py:220 | joining lines free of the separator and splitting on it gives the lines back |
| Export.CsvRoundTrip | backend/routes/export.py:211-220 | when no text breaks a line and no header holds a quote, the CSV splits into a header and one line per row, and each line reads back as the header names or the row's fields |
| Export.FieldsQuoteFree | backend/routes/export.py:217 | no field written for a row holds a double quote |
| Scheduler.ScanFrequency | backend/services/scheduler.py:15-21 | 24, 12, 6, 4 and 2 hours for free, sniper, elite, agency and enterprise; 24 for any other tier |
| Scheduler.FrequencyMonotone | backend/services/scheduler.py:15-21 | a higher tier never waits longer between scans |
| Scheduler.DueAtThreshold | backend/services/scheduler.py:89-95 | a user is due exactly when the interval has elapsed, not one second earlier |
| Scheduler.DueStaysDue | backend/services/scheduler.py:87-95 | once due, a user stays due as time passes |
| Scheduler.AddJob | backend/services/scheduler.py:38-59 | with replace_existing, the new job is registered, jobs with other ids are kept, and no other job keeps its id |
| Scheduler.Start | backend/services/scheduler.py:32-63 | starting a running scheduler changes nothing; otherwise the report, scan and archive jobs are registered and it runs |
| Scheduler.Stop | backend/services/scheduler.py:65-69 | afterwards the scheduler is not running; stopping a stopped one changes nothing |
| Scheduler.StartStopIdempotent | backend/services/scheduler.py:32-69 | starting twice is starting once, and so is stopping |
| Scheduler.FreshStart | backend/services/scheduler.py:37-62 | a fresh start registers exactly three jobs with distinct ids, and the 6:55 archive precedes the 7:00 report |
| Scheduler.DailyRow | backend/services/scheduler.py:162-182 | the stored row has the fixed key set, is active, carries the user, date and id, keeps the product's score, and defaults the name to "Unknown" and the category to "General" |
| Scheduler.TopProducts | backend/services/scheduler.py:156-158 | for numeric scores, the ten best products by overall score (else trend score), best first, and none left out scores higher than one kept; the raising sort is stated by ProcessScanResults |
| Scheduler.Rows | backend/services/scheduler.py:161-183 | one row per kept product, in order, each with its own id |
| Scheduler.RowsSorted | backend/services/scheduler.py:156-168 | the stored rows keep the products' order by score |
| Scheduler.ProcessScanResults | backend/services/scheduler.py:148-183 | nothing for no products; raises exactly when two or more products have scores that cannot be ordered; otherwise at most ten rows, one per top product in score order |
| Scheduler.NullScoreRaises | backend/services/scheduler.py:157 | a null overall score next to a numeric one makes the sort raise |
| Scheduler.RecordedTotal | backend/services/scheduler.py:126 | the recorded total is 0, because the full scan answer has no "count" |
| Scheduler.RunUserScan | backend/services/scheduler.py:100-146 | without a key, or when the scan raises, nothing changes; otherwise a history record with total 0 is added and the user's last scan time set, and the top rows are stored unless their sort raises; nothing else changes |
| Scheduler.IncomparableScoresStoreNoRows | backend/services/scheduler.py:113-146 | when the scores cannot be ordered the history record and the scan time are still written but no daily rows |
| Scheduler.RecordedTotalIsZero | backend/services/scheduler.py:126 | a scan that found products is still recorded with total 0 |
| Scheduler.ScanCandidates | backend/services/scheduler.py:75-78 | at most 1000 stored users, each with a non-null key |
| Scheduler.ScanLoop | backend/services/scheduler.py:82-98 | the loop changes neither products, boards nor competitors, nor the number of users |
| Scheduler.RunScheduledScans | backend/services/scheduler.py:71-98 | one history record per candidate that is due and whose scan returns; the catalog is untouched |
| Scheduler.ScanLoopHistory | backend/services/scheduler.py:82-98 | each scanned candidate adds exactly one history record and nobody else adds any |
| Scheduler.ArchiveDailyProducts | backend/services/scheduler.py:185-193 | yesterday's active rows become inactive with an archive time, keeping their other fields; every other row is unchanged |
| Scheduler.ArchiveSettles | backend/services/scheduler.py:185-193 | afterwards no row of yesterday is active, and archiving again changes nothing |
| Scheduler.BestFive | backend/services/scheduler.py:233-249 | min(5, n) of the documents, best score first, and none left out scores higher than one kept |
| Scheduler.FewDocsAllReported | backend/services/scheduler.py:233-249 | five documents or fewer are all reported |
| Scheduler.CatalogDoc | backend/services/scheduler.py:247-249 | a catalog product sorts by its overall score |
| Scheduler.CatalogDocs | backend/services/scheduler.py:247-249 | one document per catalog product, in order |
| Scheduler.ReportProducts | backend/services/scheduler.py:232-249 | the best five of the user's active rows of the day when there are any, else the best five of the user's active rows of any day when there are any, else the best five of the catalog; empty exactly when the user has no active row and the catalog is empty |
| Scheduler.BuildReport | backend/services/scheduler.py:255-284 | the chosen products; the three pass counts equal their number; products scanned counts the user's rows of the day |
| Scheduler.SendUserReport | backend/services/scheduler.py:226-299 | nothing to report exactly when no products were chosen; delivered exactly when there are products and the bot reports success, with the built report |
| Scheduler.ReportRecipients | backend/services/scheduler.py:200-206 | at most 1000 stored users, each with a bot token and a chat id |
| Scheduler.ReportFor | backend/services/scheduler.py:211-222 | a user whose preferences are null raises; skipped exactly when daily_report is False; a user without preferences, or with preferences whose daily_report is anything but False, gets the report |
| Scheduler.Outcomes | backend/services/scheduler.py:211-222 | one outcome per user, in order |
| Scheduler.SendDailyReports | backend/services/scheduler.py:195-224 | one outcome per recipient; the sent count is the number delivered, at most the recipients |
| Scheduler.NullPreferencesNeverReported | backend/services/scheduler.py:214-215 | as written, when every user keeps the null preferences registration stores, no report is ever sent |
| Scheduler.ReportForIntended | backend/services/scheduler.py:211-222 | skipped exactly when daily_report is False, otherwise the user's report |
| Scheduler.SendDailyReportsIntended | backend/services/scheduler.py:195-224 | one intended outcome per recipient; the sent count is the number delivered |
| Scheduler.NullPreferencesReportedWhenIntended | backend/services/scheduler.py:214-218 | with null read as no preferences, such a user is handled exactly like one without preferences, and with a non-empty catalog a report is built and handed to the bot |
| Server.BoardIndex | backend/server.py:253-256 | the first board with both the id and the user, and None exactly when no board matches both |
| Server.AddToSet | backend/server.py:255 | the members afterwards are the old ones plus the product; a present product changes nothing; no duplicate is introduced |
| Server.Pull | backend/server.py:265 | the members afterwards are the old ones except the product |
| Server.AddProductToBoard | backend/server.py:251-259 | 404 "Board not found" exactly when no board of the user has the id, writing nothing; otherwise only that board's product set gains the product |
| Server.RemoveProductFromBoard | backend/server.py:261-269 | 404 "Board not found" exactly when no board of the user has the id, writing nothing; otherwise only that board loses the product |
| Server.BoardMembership | backend/server.py:251-269 | adding twice is adding once; after adding the product is on the board and after removing it is not |
| Server.PulledProducts | backend/server.py:443-452 | one stored product per pulled item, in order, with its name and price under the new store's id |
| Server.AddCompetitor | backend/server.py:414-458 | 403 exactly when a finite competitor limit is reached by the user's active stores; else 400 exactly when the user already monitors the URL; failures write nothing; success stores the store with the pulled names as snapshot and one product per pulled item |
| Server.IntToString | backend/server.py:423 | the limit is rendered as a non-empty string |
| Server.AddCompetitorKeepsLimit | backend/server.py:414-433 | an add raises the active count by one, never past a finite limit, and the same URL is refused afterwards |
| Server.CompetitorIndex | backend/server.py:467 | the first store with both the id and the user, and None exactly when none matches |
| Server.GetCompetitor | backend/server.py:465-472 | 404 "Competitor not found" exactly when the user has no store with the id; otherwise that store and the first 100 of its products in stored order, or all of them when fewer |
| Server.FewStoreProductsAllListed | backend/server.py:465-472 | a store with at most 100 products is shown with all of them |
| Server.ScanCompetitor | backend/server.py:474-509 | 404 without the store; otherwise the diff of the stored snapshot and the fresh pull; the first store with the id gets the new snapshot, scan time and added count; an alert with the added names is stored exactly when some were added; nothing else changes |
| Server.RescanSameCatalogIsQuiet | backend/server.py:474-509 | with unique store ids, scanning the same catalog a second time reports no change and stores no alert |
| Server.RemoveCompetitor | backend/server.py:511-519 | 404 exactly when the user has no store with the id; otherwise only that store becomes inactive |
| Server.MarkAlertRead | backend/server.py:526-534 | 404 "Alert not found" exactly when the user has no alert with the id, writing nothing; otherwise only that alert is marked read |
| Server.Entries | backend/server.py:544-551 | one entry per product, in order, with its id, name, ad and store counts and trend |
| Server.SaturationOverviewOf | backend/server.py:537-561 | over the first 100 products, 500 exactly when a level is not low, medium or high; otherwise each bucket holds that level's products in catalog order and the three counts sum to the products read |
| Server.BucketsPartition | backend/server.py:542-551 | with known levels the three buckets together hold every product once |
| Server.RoundHalfEven | backend/server.py:579-580 | Python's round of a quotient: within half a unit of the exact value |
| Server.Categories | backend/server.py:566-569 | each product category exactly once and no other |
| Server.NicheOf | backend/server.py:566-583 | the category's product count, its ad and store means rounded to within half a unit, and a score that is 100 exactly when the two means sum to at least 300, otherwise the floor of a third of their sum |
| Server.NicheList | backend/server.py:577-583 | one aggregate per category, in order |
| Server.NicheSaturation | backend/server.py:563-585 | over the first 100 products, one aggregate per category present, none for an absent one, each the category's own, and the counts sum to the products read |
| Server.TotalIsCounts | backend/server.py:571-572 | the aggregates' counts are the per-category counts |
| Server.HitsOnce | backend/server.py:568-569 | a category listed once contributes exactly one count |
| Server.CountsOverStep | backend/server.py:567-572 | the first product adds one to its own category's count |
| Server.NicheTotals | backend/server.py:566-585 | the per-category counts partition the products |
| Server.CountsCover | backend/server.py:566-572 | when every product's category is listed, the counts sum to the number of products |
| Server.CountsZero | backend/server.py:566-572 | no product, no count |
| Server.ScanSingleSource | backend/server.py:327-349 | 400 without a key or for a source outside the four; otherwise success exactly when the source scan succeeds, with the source's products and count; a failed scan is 500, and a scan that raises is 500 "Internal Server Error" |
| Server.FullScanRow | backend/server.py:301-307 | the row holds the product's keys plus user, date and active flag; the product's own values win |
| Server.FullScanRows | backend/server.py:300-308 | one row per scanned product, in order |
| Server.RunFullScanRoute | backend/server.py:274-325 | 400 without a key, writing nothing; a 500 writing nothing exactly when the full scan's sort raises; otherwise success with the full scan's answer, one history record with the product total and one row per product |
| Server.MissingImport | backend/server.py:272 | the module-level import of `server.py` names a function the tier module does not define, while the other name it imports is defined |

## Left out

- Sending e-mail and Telegram messages, the contact route, the HTML and message texts: this is I/O with no decisions in it. Delivery is a boolean parameter.
- The browser agent (`ai_browser_agent.py`) and the wording of the OpenAI prompts: these are prompts only. The model keeps which filter lines go into a prompt.
- JWT signing and decoding, the `deps.py` user lookup, and sha256: these are foreign. A token is modelled as its payload, and the hash is a function parameter.
- Stripe signature verification and the Stripe API: the webhook receives an already-parsed event, and the Stripe outcomes are parameters.
- `asyncio.gather` concurrency: each source is an independent outcome, merged in a fixed order.
- Floating point: prices are reals or integer cents, with no `round(x, 2)`. Float artefacts are left out, including:
  - the 1.1 and 0.9 factors of the trend test at the exact boundary;
  - the `:.2f` price formatting, which is a parameter;
  - `avg_price`;
  - `break_even_roas`.

  The one float artefact that decides a branch, `int(n * 0.7)` at 90 ads, is modelled explicitly.
- Timestamps are integer seconds. ISO strings, timezones and the cron expressions themselves are not modelled. The jobs `start` registers are modelled as a table.
- The md5 store ids are left out, because they are hashes: the one in `competitor_spy.py`, and the `store_id` that `scan_store` in `scanners.py` returns (`Scanners.ScanStore` has no such field).
- Ties in MongoDB `.sort()` are left out. The model's sort is stable.
- Admin.ListUsers: a `limit` of 0 returns no users, whereas MongoDB reads `limit(0)` as no limit; a negative skip or limit cannot be expressed, since both are natural numbers.
- Products.ListProducts: a `limit` of 0 returns no products, whereas MongoDB reads `limit(0)` as no limit; a negative limit cannot be expressed.
- Products.TopProducts: a `limit` of 0 returns no products, whereas MongoDB reads `limit(0)` as no limit; a negative limit cannot be expressed.
- AiScanner.MergeSourceResults: when every trend score is a string Python sorts them as strings, while the model's numeric key reads them all as 0 and keeps the found order.
- Scheduler.ProcessScanResults: when every score is a string Python sorts them as strings, while the model keeps the products' order; list-valued scores, which Python compares item by item, are counted as unorderable.
- Scheduler.TopProducts: its contract reads every score as a number; which score lists make the sort raise is stated by `Scheduler.ProcessScanResults`.
- Scores with a fractional part are not representable, because JSON numbers are integers in the model.
- `Strings.Lower` and `Strings.Title` change only ASCII letters. Python's Unicode case mapping is left out.
- Exception messages that Python itself writes are reduced to their status code, e.g. a `KeyError` detail.
- The other `server.py` routes are left out: launch kits, the daily report route, settings, board creation, Telegram routes, seeding, products today/history, and `get_me`, whose body is `pass`. They read or write documents with no logic beyond that.
- The export history route and the date in export file names are left out. They only read the log and format the clock.
- The admin activity route (`admin.py` from line 63) is left out: it reads the latest documents.
- The scanner routes' Telegram notice after a full scan is left out, and so are the unreachable statements after `return` in `scan_single_source`.
- Server.SaturationOverviewOf, Server.NicheSaturation, Server.AddCompetitor: the `check_feature_access` gate that precedes them is not modelled, because the name is undefined (see `Server.MissingImport`).
- Server.NicheOf: `round()` of the mean is stated only as being within half a unit of the exact mean. The ties-to-even choice is in the definition, not the contract.
- Payments.WebhookIntended: states the response and that a failed event writes nothing. The trial flag it writes is stated by `Payments.TrialOnceWhenIntended`.

## Findings

| source | as written | input that shows it | evidently intended | confidence | as-written member | corrected member |
|---|---|---|---|---|---|---|
| backend/services/scheduler.py:214-215 | `prefs = user.get("notification_preferences", {})` then `if prefs.get("daily_report") is False:`; registration stores the field as null, so `None.get` raises and the loop moves on | any user registered through `/auth/register` who has a bot token and chat id, with a non-empty catalog | a null preference means the defaults, i.e. send the report | not executed | Scheduler.NullPreferencesNeverReported | Scheduler.NullPreferencesReportedWhenIntended |
| backend/routes/trends.py:84 | `data[-len(data)//4:]` parses as `data[(-len(data))//4:]`, the last ceil(n/4) points, while both sums are divided by n//4 | five equal values [10,10,10,10,10]: the last slice sums to 20 against a first quarter of 10, read as "up" | the last n//4 points, so a flat series is "stable" | not executed | Trends.FlatFiveReadsUp | Trends.FlatIsStableWhenIntended |
| backend/routes/payments.py:65 | the one-day trial is offered when `had_trial` is not set, but nothing ever sets it | a user completes a checkout, cancels, and checks out again: the trial is offered again | a completed checkout records that the trial was used, so it is offered once | not executed | Payments.TrialOfferedAgain | Payments.TrialOnceWhenIntended |
| backend/routes/users.py:64 | `get_all_features_status(user.subscription_tier)` passes a string to a function that reads `.subscription_tier` off its argument | any authenticated user calling `GET /user/tier-status`: AttributeError, answered 500 | pass the user itself | not executed | Users.TierStatusAlwaysFails | Users.TierStatusIntendedAnswers |

=== FILE: admin.dfy ===
/** The admin routes (`backend/routes/admin.py`): platform counts, the
    paginated user listing without password hashes, and the tier update,
    whose tier vocabulary is not the one the tier table uses. */
module Admin {
  import opened Common
  import opened Models
  import opened Database
  import opened Tiers

  // ---------------------------------------------------------------- stats

  datatype Stats = Stats(
    totalUsers: nat,
    paidUsers: nat,
    usersWithOpenai: nat,
    usersWithTelegram: nat,
    totalProducts: nat,
    totalScans: nat,
    totalLaunchKits: nat,
    totalCompetitors: nat)

  /** `{"subscription_tier": {"$ne": "free"}}`. */
  predicate Paid(u: User) {
    u.subscriptionTier != "free"
  }

  /** `{"openai_api_key": {"$ne": None}}`: a missing or null key fails it. */
  predicate OpenaiKeySet(u: User) {
    u.openaiApiKey.Some?
  }

  /** `{"telegram_bot_token": {"$ne": None}}`. */
  predicate TelegramTokenSet(u: User) {
    u.telegramBotToken.Some?
  }

  /** `GET /admin/stats`: each count is the number of documents its filter
      matches. */
  function GetStats(db: Db): (s: Stats)
    ensures s.paidUsers <= s.totalUsers == |db.users|
    ensures s.usersWithOpenai <= s.totalUsers && s.usersWithTelegram <= s.totalUsers
    ensures s.paidUsers == |Filter(db.users, Paid)|
    ensures s.usersWithOpenai == |Filter(db.users, OpenaiKeySet)|
    ensures s.usersWithTelegram == |Filter(db.users, TelegramTokenSet)|
    ensures s.totalProducts == |db.products| && s.totalLaunchKits == |db.launchKits|
    ensures s.totalScans == |db.scanHistory| && s.totalCompetitors == |db.competitors|
  {
    Stats(|db.users|,
          CountIf(db.users, Paid),
          CountIf(db.users, OpenaiKeySet),
          CountIf(db.users, TelegramTokenSet),
          |db.products|, |db.scanHistory|, |db.launchKits|, |db.competitors|)
  }

  /** The paid count and the free-tier count partition the users. */
  lemma {:induction false} PaidCountsNonFree(users: seq<User>)
    ensures CountIf(users, Paid) + CountIf(users, (u: User) => u.subscriptionTier == "free") == |users|
  {
    if |users| > 0 {
      PaidCountsNonFree(users[1..]);
      assert users == [users[0]] + users[1..];
      FilterAppend([users[0]], users[1..], Paid);
      FilterAppend([users[0]], users[1..], (u: User) => u.subscriptionTier == "free");
    }
  }

  // -------------------------------------------------------------- listing

  /** A listed user: every stored field but the password hash. */
  datatype ListedUser = ListedUser(
    id: string,
    email: string,
    name: string,
    createdAt: int,
    subscriptionTier: string,
    isAdmin: bool,
    openaiApiKey: Option<string>,
    telegramBotToken: Option<string>,
    telegramChatId: Option<string>,
    filters: Option<map<string, Json>>,
    notificationPreferences: PrefsField,
    lastScanAt: Option<int>,
    stripeCustomerId: Option<string>,
    stripeSubscriptionId: Option<string>,
    subscriptionUpdatedAt: Option<int>,
    hadTrial: Option<bool>,
    emailVerified: Option<bool>)

  function Listed(u: User): (l: ListedUser)
    ensures l.id == u.id && l.email == u.email && l.subscriptionTier == u.subscriptionTier
  {
    ListedUser(u.id, u.email, u.name, u.createdAt, u.subscriptionTier, u.isAdmin, u.openaiApiKey,
               u.telegramBotToken, u.telegramChatId, u.filters, u.notificationPreferences, u.lastScanAt,
               u.stripeCustomerId, u.stripeSubscriptionId, u.subscriptionUpdatedAt, u.hadTrial, u.emailVerified)
  }

  /** The listing reveals nothing of the hash: users differing only in it
      are listed alike, and users listed alike differ at most in it. */
  lemma ListingHidesHash(a: User, b: User)
    ensures Listed(a) == Listed(b) <==> a.(passwordHash := b.passwordHash) == b
  {
  }

  datatype UserPage = UserPage(users: seq<ListedUser>, total: nat, skip: nat, limit: nat)

  /** `GET /admin/users`: the users after the first `skip`, at most `limit`
      of them, in stored order, and the total count. */
  function ListUsers(users: seq<User>, skip: nat, limit: nat): (p: UserPage)
    ensures p.total == |users| && p.skip == skip && p.limit == limit
    ensures |p.users| <= limit
    ensures skip >= |users| ==> |p.users| == 0
    ensures skip + limit <= |users| ==> |p.users| == limit
    ensures forall i :: 0 <= i < |p.users| ==> skip + i < |users| && p.users[i] == Listed(users[skip + i])
  {
    var rest := if skip <= |users| then users[skip..] else [];
    var page := Take(rest, limit);
    UserPage(seq(|page|, i requires 0 <= i < |page| => Listed(page[i])), |users|, skip, limit)
  }

  /** Consecutive pages cover the users without gap or overlap. */
  lemma PagesTile(users: seq<User>, skip: nat, limit: nat)
    requires skip + limit <= |users|
    ensures ListUsers(users, skip, limit).users + ListUsers(users, skip + limit, limit).users
            == ListUsers(users, skip, 2 * limit).users
  {
  }

  // ---------------------------------------------------------- tier update

  const AdminTiers: seq<string> := ["free", "scout", "hunter", "predator", "agency"]

  /** `PUT /admin/users/{user_id}/tier`: 400 for a tier outside the admin
      vocabulary, 404 when no user has the id; otherwise only that user's
      tier changes. */
  function UpdateUserTier(userId: string, tier: string, db: Db): (r: Routed<string>)
    ensures tier !in AdminTiers ==> r.response.Fail? && r.response.error.status == 400 && r.db == db
    ensures tier in AdminTiers && UserById(db.users, userId).None? ==> r == Routed(Err(404, "User not found"), db)
    ensures r.response.Ok? <==> tier in AdminTiers && UserById(db.users, userId).Some?
    ensures r.response.Ok? ==>
      var k := UserById(db.users, userId).value;
      && r.response.value == tier
      && r.db == db.(users := db.users[k := db.users[k].(subscriptionTier := tier)])
  {
    if tier !in AdminTiers then
      Routed(Err(400, "Invalid tier. Must be one of: ['free', 'scout', 'hunter', 'predator', 'agency']"), db)
    else match UserById(db.users, userId)
      case None => Routed(Err(404, "User not found"), db)
      case Some(k) => Routed(Ok(tier), db.(users := db.users[k := db.users[k].(subscriptionTier := tier)]))
  }

  /** The two vocabularies disagree: three tiers the admin can assign are
      unknown to the tier table, which grants them the free level and
      limits, and three tiers the table ranks above free cannot be assigned. */
  lemma AdminVocabularyMismatch()
    ensures forall t :: t in ["scout", "hunter", "predator"] ==>
      t in AdminTiers && TierLevel(t) == 0 && GetTierLimits(t) == FreeLimits
    ensures forall t :: t in ["sniper", "elite", "enterprise"] ==> t !in AdminTiers && TierLevel(t) > 0
  {
    forall t | t in ["scout", "hunter", "predator"]
      ensures t in AdminTiers && TierLevel(t) == 0 && GetTierLimits(t) == FreeLimits
    {
      assert t !in TierOrder;
    }
  }

  /** An assigned "predator" tier gets no paid feature: every feature it
      can use is one the free tier can use. */
  lemma PredatorIsFree(db: Db, userId: string, feature: string)
    requires UpdateUserTier(userId, "predator", db).response.Ok?
    ensures var after := UpdateUserTier(userId, "predator", db).db;
      var k := UserById(db.users, userId).value;
      HasFeatureAccess(after.users[k].subscriptionTier, feature) == HasFeatureAccess("free", feature)
  {
    AdminVocabularyMismatch();
  }
}

=== FILE: ai_scanner.dfy ===
/** The AI-backed scanner of `backend/services/ai_scanner.py`. The OpenAI
    call and `json.loads` are parameters: a call either answers with text or
    fails with a message, and a parse either yields a value or fails. The
    model keeps what the code decides around them: which filter lines go
    into a prompt, which substring of a reply is parsed, how a source result
    is shaped, and how four source results are merged and sorted. */
module AiScanner {
  import opened Common
  import opened Sorting

  // ------------------------------------------------------- reply extraction

  /** Inclusive positions of the text a delimited match covers. */
  datatype Span = Span(start: nat, end: nat)

  function LastIndexOf(s: string, c: char): (r: Option<nat>)
    ensures r.Some? ==> r.value < |s| && s[r.value] == c
    ensures r.Some? ==> forall k :: r.value < k < |s| ==> s[k] != c
    ensures r.None? <==> forall k :: 0 <= k < |s| ==> s[k] != c
  {
    if |s| == 0 then None
    else if s[|s| - 1] == c then Some(|s| - 1)
    else LastIndexOf(s[..|s| - 1], c)
  }

  /** What `re.search` finds for the pattern open, any characters, close:
      the leftmost opening character and, greedily, the last closing
      character after it. */
  function DelimitedSpan(s: string, open: char, close: char): (r: Option<Span>)
    ensures r.Some? ==> r.value.start < r.value.end < |s|
    ensures r.Some? ==> s[r.value.start] == open && s[r.value.end] == close
    ensures r.Some? ==> forall k :: 0 <= k < r.value.start ==> s[k] != open
    ensures r.Some? ==> forall k :: r.value.end < k < |s| ==> s[k] != close
    ensures r.None? <==> forall i, j :: 0 <= i < j < |s| && s[i] == open ==> s[j] != close
  {
    match FirstIndex(s, x => x == open)
    case None => None
    case Some(i) =>
      match LastIndexOf(s, close)
      case None => None
      case Some(j) => if i < j then Some(Span(i, j)) else None
  }

  /** The matched text itself. */
  function SpanText(s: string, sp: Span): (t: string)
    requires sp.start <= sp.end < |s|
    ensures |t| == sp.end - sp.start + 1
  {
    s[sp.start..sp.end + 1]
  }

  /** `_parse_json_response`: parse the bracketed part of a reply; no
      bracket pair or a failed parse gives the empty list, never an error.
      `loads` stands for `json.loads` on text that starts with '[', which
      can only succeed with a list. */
  function ParseJsonResponse(reply: string, loads: string -> Option<seq<Json>>): (r: seq<Json>)
    ensures DelimitedSpan(reply, '[', ']').None? ==> r == []
    ensures r != [] ==> var sp := DelimitedSpan(reply, '[', ']');
      sp.Some? && loads(SpanText(reply, sp.value)) == Some(r)
    ensures var sp := DelimitedSpan(reply, '[', ']');
      sp.Some? && loads(SpanText(reply, sp.value)).Some? ==> r == loads(SpanText(reply, sp.value)).value
  {
    match DelimitedSpan(reply, '[', ']')
    case None => []
    case Some(sp) =>
      match loads(SpanText(reply, sp))
      case None => []
      case Some(items) => items
  }

  /** The result of an OpenAI call: the reply text, or the exception text. */
  datatype CallOutcome = Answered(text: string) | CallFailed(message: string)

  /** Stands for the message of the TypeError raised when a parsed element
      is not a dictionary; Python's own wording is not modelled. */
  const NotADictionary := "TypeError"

  /** Stands for the message of the error `json.loads` raises on text that
      is not JSON; Python's own wording is not modelled. */
  const NotJson := "JSONDecodeError"

  /** The product dictionaries with `discovered_at` and `ai_generated` set;
      `None` when some element is not a dictionary, as item assignment on it
      raises. */
  function StampProducts(items: seq<Json>, now: string): (r: Option<seq<map<string, Json>>>)
    ensures r.Some? <==> forall k :: 0 <= k < |items| ==> items[k].JObj?
    ensures r.Some? ==> |r.value| == |items|
    ensures r.Some? ==> forall k :: 0 <= k < |items| ==>
      && r.value[k].Keys == items[k].fields.Keys + {"discovered_at", "ai_generated"}
      && r.value[k]["ai_generated"] == JBool(true)
      && r.value[k]["discovered_at"] == JStr(now)
      && forall key :: key in items[k].fields && key != "discovered_at" && key != "ai_generated" ==>
           r.value[k][key] == items[k].fields[key]
  {
    if |items| == 0 then Some([])
    else if !items[0].JObj? then None
    else
      match StampProducts(items[1..], now)
      case None => None
      case Some(rest) => Some([items[0].fields["discovered_at" := JStr(now)]["ai_generated" := JBool(true)]] + rest)
  }

  // ---------------------------------------------------- filter instructions

  /** One filter line of a prompt: the filter key and the value it shows. */
  datatype Instruction = Instruction(key: string, value: Json)

  /** The keys `scan_source` turns into lines, in order. */
  const SourceFilterKeys: seq<string> := ["min_price", "max_price", "categories"]

  /** The keys `scan_trending_products` turns into lines, in order. */
  const TrendingFilterKeys: seq<string> := ["min_price", "max_price", "categories", "excluded_terms"]

  /** Keys whose value is passed to `', '.join`. */
  predicate IsJoined(key: string) {
    key == "categories" || key == "excluded_terms"
  }

  /** `', '.join(v)` succeeds on a string, a dictionary (its keys) and a list
      of strings, and raises on anything else. */
  predicate Joinable(v: Json) {
    v.JStr? || v.JObj? || (v.JArr? && forall k :: 0 <= k < |v.items| ==> v.items[k].JStr?)
  }

  /** `filters.get(key)` is truthy. */
  predicate Given(filters: map<string, Json>, key: string) {
    key in filters && Truthy(filters[key])
  }

  /** The lines for `keys`: one per key that is present and truthy, in key
      order; `None` when a joined value cannot be joined. */
  function Instructions(filters: map<string, Json>, keys: seq<string>): (r: Option<seq<Instruction>>)
    ensures r.None? <==> exists i :: 0 <= i < |keys| && Given(filters, keys[i]) && IsJoined(keys[i]) && !Joinable(filters[keys[i]])
    ensures r.Some? ==> |r.value| <= |keys|
    ensures r.Some? ==> forall key :: key in KeysOf(r.value) <==> key in keys && Given(filters, key)
    ensures r.Some? ==> forall i :: 0 <= i < |r.value| ==> r.value[i].key in filters && r.value[i].value == filters[r.value[i].key]
  {
    if |keys| == 0 then Some([])
    else
      var key := keys[0];
      var rest := Instructions(filters, keys[1..]);
      if !Given(filters, key) then rest
      else if IsJoined(key) && !Joinable(filters[key]) then None
      else if rest.None? then None
      else Some([Instruction(key, filters[key])] + rest.value)
  }

  function KeysOf(lines: seq<Instruction>): (keys: seq<string>)
    ensures |keys| == |lines|
    ensures forall i :: 0 <= i < |lines| ==> keys[i] == lines[i].key
  {
    if |lines| == 0 then [] else [lines[0].key] + KeysOf(lines[1..])
  }

  /** The instruction block of a prompt; no filters give no lines. */
  function FilterInstructions(filters: Option<map<string, Json>>, keys: seq<string>): (r: Option<seq<Instruction>>)
    ensures filters.None? ==> r == Some([])
    ensures filters.Some? ==> r == Instructions(filters.value, keys)
  {
    if filters.None? then Some([]) else Instructions(filters.value, keys)
  }

  /** A line is emitted exactly for the filter keys that are present and
      truthy: a falsy value such as 0, "" or [] adds nothing. */
  lemma InstructionIff(filters: map<string, Json>, keys: seq<string>, key: string)
    requires Instructions(filters, keys).Some?
    requires key in keys
    ensures key in KeysOf(Instructions(filters, keys).value) <==> key in filters && Truthy(filters[key])
  {
  }

  /** The keys `scan_source` reads are a prefix of those of
      `scan_trending_products`: the source scan never mentions excluded
      terms. */
  lemma SourceScanIgnoresExcluded(filters: map<string, Json>)
    requires Instructions(filters, SourceFilterKeys).Some?
    ensures forall i :: 0 <= i < |Instructions(filters, SourceFilterKeys).value| ==>
      Instructions(filters, SourceFilterKeys).value[i].key != "excluded_terms"
  {
    var r := Instructions(filters, SourceFilterKeys).value;
    forall i | 0 <= i < |r|
      ensures r[i].key != "excluded_terms"
    {
      assert r[i].key in SourceFilterKeys;
    }
  }

  // ----------------------------------------------------------- source scan

  /** The part of a prompt the model follows: which source it is about and
      the filter lines it carries. The fixed prompt wording is left out. */
  datatype Prompt = Prompt(source: string, instructions: seq<Instruction>)

  datatype SourceResult = SourceResult(
    success: bool,
    source: string,
    products: seq<map<string, Json>>,
    count: nat,
    error: Option<string>)

  /** `scan_source(source, filters)`. `None` is the TypeError that escapes
      before the `try` when a joined filter value cannot be joined. */
  function ScanSource(
    source: string,
    filters: Option<map<string, Json>>,
    call: Prompt -> CallOutcome,
    loads: string -> Option<seq<Json>>,
    now: string): (r: Option<SourceResult>)
    ensures r.None? <==> FilterInstructions(filters, SourceFilterKeys).None?
    ensures r.Some? ==> r.value.source == source
    ensures r.Some? && r.value.success ==>
      && r.value.count == |r.value.products|
      && r.value.error.None?
      && forall k :: 0 <= k < |r.value.products| ==>
        "ai_generated" in r.value.products[k] && r.value.products[k]["ai_generated"] == JBool(true)
    ensures r.Some? && !r.value.success ==> r.value.products == [] && r.value.count == 0 && r.value.error.Some?
    ensures r.Some? ==>
      var reply := call(Prompt(source, FilterInstructions(filters, SourceFilterKeys).value));
      && (r.value.success <==> reply.Answered? && StampProducts(ParseJsonResponse(reply.text, loads), now).Some?)
      && (r.value.success ==> r.value.products == StampProducts(ParseJsonResponse(reply.text, loads), now).value)
      && (reply.CallFailed? ==> r.value.error == Some(reply.message))
  {
    match FilterInstructions(filters, SourceFilterKeys)
    case None => None
    case Some(lines) =>
      match call(Prompt(source, lines))
      case CallFailed(message) => Some(SourceResult(false, source, [], 0, Some(message)))
      case Answered(text) =>
        match StampProducts(ParseJsonResponse(text, loads), now)
        case None => Some(SourceResult(false, source, [], 0, Some(NotADictionary)))
        case Some(products) => Some(SourceResult(true, source, products, |products|, None))
  }

  /** A reply without any bracket pair is still a successful scan, of zero
      products. */
  lemma NoBracketsIsEmptySuccess(source: string, filters: Option<map<string, Json>>,
                                 call: Prompt -> CallOutcome, loads: string -> Option<seq<Json>>, now: string)
    requires FilterInstructions(filters, SourceFilterKeys).Some?
    requires var reply := call(Prompt(source, FilterInstructions(filters, SourceFilterKeys).value));
      reply.Answered? && DelimitedSpan(reply.text, '[', ']').None?
    ensures var r := ScanSource(source, filters, call, loads, now);
      r.Some? && r.value.success && r.value.products == [] && r.value.count == 0
  {
  }

  datatype TrendingResult = TrendingResult(success: bool, products: seq<map<string, Json>>, count: nat, error: Option<string>)

  /** `scan_trending_products(filters)`: the same shape without a source,
      with the excluded-terms line allowed. */
  function ScanTrendingProducts(
    filters: Option<map<string, Json>>,
    call: Prompt -> CallOutcome,
    loads: string -> Option<seq<Json>>,
    now: string): (r: Option<TrendingResult>)
    ensures r.None? <==> FilterInstructions(filters, TrendingFilterKeys).None?
    ensures r.Some? && r.value.success ==>
      && r.value.count == |r.value.products|
      && forall k :: 0 <= k < |r.value.products| ==>
        "ai_generated" in r.value.products[k] && r.value.products[k]["ai_generated"] == JBool(true)
    ensures r.Some? && !r.value.success ==> r.value.products == [] && r.value.count == 0
    ensures r.Some? ==>
      var reply := call(Prompt("", FilterInstructions(filters, TrendingFilterKeys).value));
      && (r.value.success <==> reply.Answered? && StampProducts(ParseJsonResponse(reply.text, loads), now).Some?)
      && (r.value.success ==> r.value.products == StampProducts(ParseJsonResponse(reply.text, loads), now).value)
  {
    match FilterInstructions(filters, TrendingFilterKeys)
    case None => None
    case Some(lines) =>
      match call(Prompt("", lines))
      case CallFailed(message) => Some(TrendingResult(false, [], 0, Some(message)))
      case Answered(text) =>
        match StampProducts(ParseJsonResponse(text, loads), now)
        case None => Some(TrendingResult(false, [], 0, Some(NotADictionary)))
        case Some(products) => Some(TrendingResult(true, products, |products|, None))
  }

  // --------------------------------------------------------------- analysis

  const CouldNotParse: Json := JObj(map["error" := JStr("Could not parse response")])

  datatype AnalysisResult =
    | AnalysisOk(productName: string, analysis: Json)
    | AnalysisFailed(productName: string, error: string)

  /** `analyze_product`: parse the braced part of the reply. No brace pair
      is still a success carrying the parse-error dictionary; a failed call
      or a failed parse is a failure. */
  function AnalyzeProduct(name: string, reply: CallOutcome, loads: string -> Option<Json>): (r: AnalysisResult)
    ensures r.productName == name
    ensures reply.CallFailed? ==> r == AnalysisFailed(name, reply.message)
    ensures reply.Answered? && DelimitedSpan(reply.text, '{', '}').None? ==> r == AnalysisOk(name, CouldNotParse)
    ensures reply.Answered? && DelimitedSpan(reply.text, '{', '}').Some? ==>
      var text := SpanText(reply.text, DelimitedSpan(reply.text, '{', '}').value);
      (r.AnalysisOk? <==> loads(text).Some?) && (r.AnalysisOk? ==> Some(r.analysis) == loads(text))
  {
    match reply
    case CallFailed(message) => AnalysisFailed(name, message)
    case Answered(text) =>
      match DelimitedSpan(text, '{', '}')
      case None => AnalysisOk(name, CouldNotParse)
      case Some(sp) =>
        match loads(SpanText(text, sp))
        case None => AnalysisFailed(name, NotJson)
        case Some(v) => AnalysisOk(name, v)
  }

  // -------------------------------------------------------------- full scan

  /** `x.get("trend_score", 0)`, the key `run_full_scan` sorts by. */
  function TrendValue(p: map<string, Json>): Json {
    Get(p, "trend_score", JNum(0))
  }

  /** The same key as a number, for keys that are numbers or booleans. */
  function TrendKey(p: map<string, Json>): int {
    NumValue(TrendValue(p))
  }

  datatype FullScanResult = FullScanResult(
    success: bool,
    totalProducts: nat,
    products: seq<map<string, Json>>,
    sourceStats: map<string, nat>,
    scanMode: string)

  /** The keys of the dictionary `run_full_scan` returns. */
  const FullScanKeys: set<string> := {"success", "total_products", "products", "source_stats", "scan_mode", "scanned_at"}

  /** What a source contributes: its products when it returned a successful
      result, nothing otherwise. */
  function Contribution(outcome: Option<SourceResult>): seq<map<string, Json>> {
    if outcome.Some? && outcome.value.success then outcome.value.products else []
  }

  function Contributions(outcomes: seq<Option<SourceResult>>): (parts: seq<seq<map<string, Json>>>)
    requires |outcomes| == |ScanSources|
    ensures |parts| == |outcomes|
    ensures forall i :: 0 <= i < |parts| ==> parts[i] == Contribution(outcomes[i])
  {
    [Contribution(outcomes[0]), Contribution(outcomes[1]), Contribution(outcomes[2]), Contribution(outcomes[3])]
  }

  /** The products of the four sources in source order, before the sort. */
  function Found(outcomes: seq<Option<SourceResult>>): seq<map<string, Json>>
    requires |outcomes| == |ScanSources|
  {
    Contribution(outcomes[0]) + Contribution(outcomes[1]) + Contribution(outcomes[2]) + Contribution(outcomes[3])
  }

  /** `run_full_scan` over the four source outcomes in source order (`None`
      is a source that raised). The sort by trend score is outside any
      `try`: keys that cannot be compared make the whole scan raise, which
      is `None` here. */
  function MergeSourceResults(outcomes: seq<Option<SourceResult>>): (r: Option<FullScanResult>)
    requires |outcomes| == |ScanSources|
    ensures r.None? <==> SortRaises(Found(outcomes), TrendValue)
    ensures (forall k :: 0 <= k < |Found(outcomes)| ==> KindOf(TrendValue(Found(outcomes)[k])) == NumberKey) ==> r.Some?
    ensures r.Some? ==> r.value.success && r.value.scanMode == "ai_powered"
    ensures r.Some? ==> r.value.sourceStats.Keys == set s | s in ScanSources
    ensures r.Some? ==> forall i :: 0 <= i < |ScanSources| ==>
      r.value.sourceStats[ScanSources[i]] == if outcomes[i].Some? && outcomes[i].value.success then |outcomes[i].value.products| else 0
    ensures r.Some? ==> r.value.totalProducts == |r.value.products|
    ensures r.Some? ==> r.value.totalProducts == r.value.sourceStats["tiktok"] + r.value.sourceStats["amazon"]
                                               + r.value.sourceStats["aliexpress"] + r.value.sourceStats["google_trends"]
    ensures r.Some? ==> SortedDesc(r.value.products, TrendKey)
    ensures r.Some? ==> multiset(r.value.products) == multiset(Found(outcomes))
  {
    var parts := Contributions(outcomes);
    MergeCounts(parts);
    FlattenFour(parts);
    if SortRaises(Flatten(parts), TrendValue) then None
    else
      var sorted := SortDesc(Flatten(parts), TrendKey);
      Some(FullScanResult(true, |sorted|, sorted, SourceStats(parts), "ai_powered"))
  }

  /** A trend score sent as a string next to one sent as a number makes
      the full scan raise. */
  lemma MixedTrendScoresRaise()
    ensures var a := map["trend_score" := JStr("85")];
      var b := map["trend_score" := JNum(90)];
      MergeSourceResults([Some(SourceResult(true, "tiktok", [a, b], 2, None)), None, None, None]).None?
  {
    var a := map["trend_score" := JStr("85")];
    var b := map["trend_score" := JNum(90)];
    var outcomes := [Some(SourceResult(true, "tiktok", [a, b], 2, None)), None, None, None];
    assert Found(outcomes) == [a, b];
    assert !Comparable(TrendValue(Found(outcomes)[0]), TrendValue(Found(outcomes)[1]));
  }

  /** `run_full_scan(filters)`: the four source scans with the same filters,
      merged; `None` when the sort raises. */
  function RunFullScan(
    filters: Option<map<string, Json>>,
    call: Prompt -> CallOutcome,
    loads: string -> Option<seq<Json>>,
    now: string): (r: Option<FullScanResult>)
    ensures r.None? <==> SortRaises(Found(SourceOutcomes(filters, call, loads, now)), TrendValue)
    ensures r.Some? ==> r.value.success
    ensures r.Some? ==> r.value.sourceStats.Keys == set s | s in ScanSources
    ensures r.Some? ==> forall i :: 0 <= i < |ScanSources| ==>
      var o := ScanSource(ScanSources[i], filters, call, loads, now);
      r.value.sourceStats[ScanSources[i]] == if o.Some? && o.value.success then |o.value.products| else 0
    ensures r.Some? ==> r.value.totalProducts == |r.value.products|
  {
    MergeSourceResults(SourceOutcomes(filters, call, loads, now))
  }

  function SourceOutcomes(
    filters: Option<map<string, Json>>,
    call: Prompt -> CallOutcome,
    loads: string -> Option<seq<Json>>,
    now: string): (outcomes: seq<Option<SourceResult>>)
    ensures |outcomes| == |ScanSources|
    ensures forall i :: 0 <= i < |ScanSources| ==> outcomes[i] == ScanSource(ScanSources[i], filters, call, loads, now)
  {
    [ScanSource(ScanSources[0], filters, call, loads, now), ScanSource(ScanSources[1], filters, call, loads, now),
     ScanSource(ScanSources[2], filters, call, loads, now), ScanSource(ScanSources[3], filters, call, loads, now)]
  }

  /** Success is reported even when every source failed: then nothing was
      found. */
  lemma AllSourcesFailed(outcomes: seq<Option<SourceResult>>)
    requires |outcomes| == |ScanSources|
    requires forall i :: 0 <= i < |outcomes| ==> outcomes[i].None? || !outcomes[i].value.success
    ensures var r := MergeSourceResults(outcomes);
      r.Some? && r.value.success && r.value.totalProducts == 0 && r.value.products == []
  {
  }

  /** Filters whose categories cannot be joined make every source raise, so
      the full scan succeeds with nothing found. */
  lemma UnjoinableCategoriesFindNothing(filters: map<string, Json>, call: Prompt -> CallOutcome,
                                        loads: string -> Option<seq<Json>>, now: string)
    requires Given(filters, "categories") && !Joinable(filters["categories"])
    ensures var r := RunFullScan(Some(filters), call, loads, now);
      r.Some? && r.value.success && r.value.totalProducts == 0
  {
    assert SourceFilterKeys[2] == "categories";
    assert Instructions(filters, SourceFilterKeys).None?;
  }

  /** The full-scan dictionary has no "count" entry; its size is under
      "total_products". */
  lemma FullScanHasNoCount()
    ensures "count" !in FullScanKeys && "total_products" in FullScanKeys
  {
  }
}

=== FILE: auth.dfy ===
/** The authentication routes (`backend/routes/auth.py`): registration
    with the admin rule, login with one answer for every failure, and the
    token's subject and lifetime. The password hash, the id generator, the
    clock and the configured admin address are parameters; the token is its
    payload, since signing is left to the JWT library. */
module Auth {
  import opened Common
  import opened Strings
  import opened Models
  import opened Database

  const DefaultAdminEmail := "jabriel@arisolutionsinc.com"
  const TokenLifetime := 86400     // 24 hours, in seconds

  /** A token's payload. */
  datatype Token = Token(sub: string, exp: int)

  function CreateToken(userId: string, now: int): (t: Token)
    ensures t.sub == userId && t.exp - now == TokenLifetime
  {
    Token(userId, now + TokenLifetime)
  }

  /** The user fields a token response carries. */
  datatype UserResponse = UserResponse(
    id: string,
    email: string,
    name: string,
    subscriptionTier: string,
    isAdmin: bool,
    hasOpenaiKey: bool,
    hasTelegramToken: bool,
    telegramChatId: Option<string>)

  datatype TokenResponse = TokenResponse(accessToken: Token, user: UserResponse)

  /** What the environment gives registration: the `ADMIN_EMAIL` variable
      if set, the new user's id and the time. */
  datatype AuthEnv = AuthEnv(adminEmail: Option<string>, newId: string, now: int)

  function AdminEmail(env: AuthEnv): string {
    env.adminEmail.GetOr(DefaultAdminEmail)
  }

  /** The admin flag: the email equals the admin address ignoring case. */
  predicate IsAdminEmail(email: string, env: AuthEnv) {
    Lower(email) == Lower(AdminEmail(env))
  }

  function NewUser(email: string, name: string, password: string, env: AuthEnv, hash: string -> string): (u: User)
    ensures u.passwordHash == hash(password) && u.isAdmin == IsAdminEmail(email, env)
    ensures u.subscriptionTier == "free" && u.notificationPreferences == PrefsNull
  {
    User(env.newId, email, name, hash(password), env.now, isAdmin := IsAdminEmail(email, env))
  }

  /** `POST /auth/register`: 400 when a user already has this exact email;
      otherwise the new user is stored with the hash of the password and a
      token for it is returned. */
  function Register(email: string, name: string, password: string, env: AuthEnv, hash: string -> string, db: Db): (r: Routed<TokenResponse>)
    ensures UserByEmail(db.users, email).Some? <==> r.response.Fail?
    ensures r.response.Fail? ==> r == Routed(Err(400, "Email already registered"), db)
    ensures r.response.Ok? ==>
      && r.db == db.(users := db.users + [NewUser(email, name, password, env, hash)])
      && r.response.value.accessToken == CreateToken(env.newId, env.now)
      && r.response.value.user.isAdmin == IsAdminEmail(email, env)
  {
    if UserByEmail(db.users, email).Some? then Routed(Err(400, "Email already registered"), db)
    else
      var u := NewUser(email, name, password, env, hash);
      Routed(Ok(TokenResponse(CreateToken(u.id, env.now),
                              UserResponse(u.id, u.email, u.name, u.subscriptionTier, u.isAdmin, false, false, None))),
             db.(users := db.users + [u]))
  }

  /** `POST /auth/login`: the first user with the email, if the password
      hashes to its stored hash; one 401 for both failures. */
  function Login(email: string, password: string, now: int, hash: string -> string, users: seq<User>): (r: Response<TokenResponse>)
    ensures r.Fail? ==> r.error == HttpError(401, "Invalid credentials")
    ensures r.Fail? <==> UserByEmail(users, email).None? || users[UserByEmail(users, email).value].passwordHash != hash(password)
    ensures r.Ok? ==>
      var u := users[UserByEmail(users, email).value];
      && r.value.accessToken == CreateToken(u.id, now)
      && r.value.user.id == u.id && r.value.user.isAdmin == u.isAdmin
      && r.value.user.hasOpenaiKey == Present(u.openaiApiKey)
      && r.value.user.hasTelegramToken == Present(u.telegramBotToken)
      && r.value.user.telegramChatId == u.telegramChatId
      && r.value.user.email == u.email && r.value.user.name == u.name
      && r.value.user.subscriptionTier == u.subscriptionTier
  {
    match UserByEmail(users, email)
    case None => Err(401, "Invalid credentials")
    case Some(k) =>
      var u := users[k];
      if u.passwordHash != hash(password) then Err(401, "Invalid credentials")
      else Ok(TokenResponse(CreateToken(u.id, now),
                            UserResponse(u.id, u.email, u.name, u.subscriptionTier, u.isAdmin,
                                         Present(u.openaiApiKey), Present(u.telegramBotToken), u.telegramChatId)))
  }

  /** A fresh registration can log in with its password, and the token
      names the new user. */
  lemma RegisterThenLogin(email: string, name: string, password: string, env: AuthEnv, hash: string -> string, db: Db, later: int)
    requires Register(email, name, password, env, hash, db).response.Ok?
    ensures var after := Register(email, name, password, env, hash, db).db;
      && Login(email, password, later, hash, after.users).Ok?
      && Login(email, password, later, hash, after.users).value.accessToken.sub == env.newId
  {
    var after := Register(email, name, password, env, hash, db).db;
    FirstIndexAt(after.users, (u: User) => u.email == email, |db.users|);
  }

  /** After registering, a password with a different hash is refused. */
  lemma RegisterThenWrongPassword(email: string, name: string, password: string, other: string, env: AuthEnv, hash: string -> string, db: Db, later: int)
    requires Register(email, name, password, env, hash, db).response.Ok?
    requires hash(other) != hash(password)
    ensures Login(email, other, later, hash, Register(email, name, password, env, hash, db).db.users)
            == Err(401, "Invalid credentials")
  {
    var after := Register(email, name, password, env, hash, db).db;
    FirstIndexAt(after.users, (u: User) => u.email == email, |db.users|);
  }

  /** A second registration with the same email is refused. */
  lemma RegisterTwiceRefused(email: string, name: string, password: string, env: AuthEnv, env2: AuthEnv, hash: string -> string, db: Db)
    requires Register(email, name, password, env, hash, db).response.Ok?
    ensures Register(email, name, password, env2, hash, Register(email, name, password, env, hash, db).db).response
            == Err(400, "Email already registered")
  {
    var after := Register(email, name, password, env, hash, db).db;
    assert after.users[|db.users|].email == email;
  }

  /** Case does not matter to the admin rule: with "Ad@x" configured,
      "aD@X" registers as admin. */
  lemma AdminIgnoresCase()
    ensures IsAdminEmail("aD@X", AuthEnv(Some("Ad@x"), "id", 0))
  {
    assert Lower("aD@X") == "ad@x";
    assert Lower("Ad@x") == "ad@x";
  }
}

=== FILE: common.dfy ===
/** Shared vocabulary of the model: optional values, route outcomes (an HTTP
    error or a value), a small JSON value type for the loosely typed documents
    the services pass around, and sequence helpers with Python's slicing
    semantics. */
module Common {

  datatype Option<+T> = None | Some(value: T) {
    function GetOr(default: T): T {
      match this
      case Some(v) => v
      case None => default
    }
  }

  /** An HTTPException raised by a route: status code and detail text. */
  datatype HttpError = HttpError(status: int, detail: string)

  /** What a route returns: a value, or the HTTPException it raises. */
  datatype Response<+T> = Ok(value: T) | Fail(error: HttpError) {
    predicate IsFailure() { Fail? }
    function PropagateFailure<U>(): Response<U>
      requires Fail?
    {
      Fail(error)
    }
    function Extract(): T
      requires Ok?
    {
      value
    }
    function Status(): int {
      if Ok? then 200 else error.status
    }
  }

  function Err<T>(status: int, detail: string): Response<T> {
    Fail(HttpError(status, detail))
  }

  /** A JSON value as produced by `json.loads` and stored in documents.
      Numbers are integers; the model does not follow floating point. */
  datatype Json =
    | JNull
    | JBool(b: bool)
    | JNum(n: int)
    | JStr(s: string)
    | JArr(items: seq<Json>)
    | JObj(fields: map<string, Json>)

  /** Python truthiness of a JSON value. */
  predicate Truthy(j: Json) {
    match j
    case JNull => false
    case JBool(b) => b
    case JNum(n) => n != 0
    case JStr(s) => |s| > 0
    case JArr(xs) => |xs| > 0
    case JObj(m) => |m| > 0
  }

  /** `d.get(key, default)` on a document. */
  function Get(d: map<string, Json>, key: string, default: Json): (v: Json)
    ensures key in d ==> v == d[key]
    ensures key !in d ==> v == default
  {
    if key in d then d[key] else default
  }

  /** A JSON value used as a numeric sort key: numbers as themselves,
      booleans as 0 or 1, anything else as 0. */
  function NumValue(j: Json): int {
    match j
    case JNum(n) => n
    case JBool(b) => if b then 1 else 0
    case _ => 0
  }

  /** How Python orders a sort key: numbers and booleans with each other,
      strings with strings; None and dicts not at all. Lists, which Python
      compares item by item, are counted with the unordered ones. */
  datatype KeyKind = NumberKey | StringKey | Unordered

  function KindOf(j: Json): KeyKind {
    match j
    case JNum(_) => NumberKey
    case JBool(_) => NumberKey
    case JStr(_) => StringKey
    case _ => Unordered
  }

  predicate Comparable(a: Json, b: Json) {
    KindOf(a) == KindOf(b) && KindOf(a) != Unordered
  }

  /** `list.sort(key=...)` raises TypeError: with two or more items every
      item is compared, and some compared pair cannot be ordered. A list of
      one item is never compared. */
  predicate SortRaises<T>(s: seq<T>, key: T -> Json) {
    |s| >= 2 && exists i, j :: 0 <= i < |s| && 0 <= j < |s| && !Comparable(key(s[i]), key(s[j]))
  }

  /** Python truthiness of an optional string (None and "" are false). */
  predicate Present(s: Option<string>) {
    s.Some? && |s.value| > 0
  }

  /** Python `s[:n]` for n >= 0. */
  function Take<T>(s: seq<T>, n: nat): (r: seq<T>)
    ensures |r| == if n <= |s| then n else |s|
    ensures r <= s
  {
    if n <= |s| then s[..n] else s
  }

  /** Python `s[-n:]` for n > 0: the last n items, or all of them. */
  function LastN<T>(s: seq<T>, n: nat): (r: seq<T>)
    ensures |r| == if n <= |s| then n else |s|
    ensures forall i :: 0 <= i < |r| ==> r[i] == s[|s| - |r| + i]
  {
    if n <= |s| then s[|s| - n..] else s
  }

  function Sum(s: seq<int>): int {
    if |s| == 0 then 0 else Sum(s[..|s| - 1]) + s[|s| - 1]
  }

  lemma {:induction false} SumAppend(a: seq<int>, b: seq<int>)
    ensures Sum(a + b) == Sum(a) + Sum(b)
    decreases |b|
  {
    if |b| == 0 {
      assert a + b == a;
    } else {
      assert (a + b)[..|a + b| - 1] == a + b[..|b| - 1];
      SumAppend(a, b[..|b| - 1]);
    }
  }

  lemma SumNonNegative(s: seq<int>)
    requires forall i :: 0 <= i < |s| ==> s[i] >= 0
    ensures Sum(s) >= 0
  {
    if |s| > 0 {
      SumNonNegative(s[..|s| - 1]);
    }
  }

  /** The elements of `s` that satisfy `p`, in order. */
  function Filter<T(!new)>(s: seq<T>, p: T -> bool): (r: seq<T>)
    ensures |r| <= |s|
    ensures forall x :: x in r <==> x in s && p(x)
  {
    if |s| == 0 then []
    else if p(s[0]) then [s[0]] + Filter(s[1..], p)
    else Filter(s[1..], p)
  }

  lemma {:induction false} FilterAppend<T(!new)>(a: seq<T>, b: seq<T>, p: T -> bool)
    ensures Filter(a + b, p) == Filter(a, p) + Filter(b, p)
    decreases |a|
  {
    if |a| > 0 {
      assert (a + b)[1..] == a[1..] + b;
      FilterAppend(a[1..], b, p);
    } else {
      assert a + b == b;
    }
  }

  /** Number of elements of `s` that satisfy `p`. */
  function CountIf<T(!new)>(s: seq<T>, p: T -> bool): nat {
    |Filter(s, p)|
  }

  /** Index of the first element satisfying `p`, as Mongo's update_one and
      find_one pick the first matching document. */
  function FirstIndex<T>(s: seq<T>, p: T -> bool): (r: Option<nat>)
    ensures r.Some? ==> r.value < |s| && p(s[r.value])
    ensures r.Some? ==> forall j :: 0 <= j < r.value ==> !p(s[j])
    ensures r.None? <==> forall j :: 0 <= j < |s| ==> !p(s[j])
  {
    if |s| == 0 then None
    else if p(s[0]) then Some(0)
    else
      match FirstIndex(s[1..], p)
      case None => None
      case Some(k) => Some(k + 1)
  }

  /** The first match is at i when s[i] matches and nothing before does. */
  lemma FirstIndexAt<T>(s: seq<T>, p: T -> bool, i: nat)
    requires i < |s| && p(s[i])
    requires forall j :: 0 <= j < i ==> !p(s[j])
    ensures FirstIndex(s, p) == Some(i)
  {
  }

  function NatToString(n: nat): (r: string)
    ensures |r| > 0
    ensures forall i :: 0 <= i < |r| ==> '0' <= r[i] <= '9'
  {
    if n < 10 then [DigitChar(n)] else NatToString(n / 10) + [DigitChar(n % 10)]
  }

  function DigitChar(d: nat): (c: char)
    requires d < 10
    ensures '0' <= c <= '9'
  {
    ['0', '1', '2', '3', '4', '5', '6', '7', '8', '9'][d]
  }

  /** `random.sample(range(poolSize), k)` for lo <= k <= hi: k distinct
      positions of the pool. */
  predicate ValidSample(picks: seq<nat>, poolSize: nat, lo: nat, hi: nat) {
    && lo <= |picks| <= hi
    && (forall i :: 0 <= i < |picks| ==> picks[i] < poolSize)
    && (forall i, j :: 0 <= i < j < |picks| ==> picks[i] != picks[j])
  }

  /** The concatenation of the parts, in order. */
  function Flatten<T>(parts: seq<seq<T>>): seq<T> {
    if |parts| == 0 then [] else Flatten(parts[..|parts| - 1]) + parts[|parts| - 1]
  }

  function Lengths<T>(parts: seq<seq<T>>): (r: seq<int>)
    ensures |r| == |parts|
    ensures forall i :: 0 <= i < |parts| ==> r[i] == |parts[i]|
  {
    if |parts| == 0 then [] else Lengths(parts[..|parts| - 1]) + [|parts[|parts| - 1]|]
  }

  /** The concatenation holds as many items as the parts together. */
  lemma {:induction false} FlattenLength<T>(parts: seq<seq<T>>)
    ensures |Flatten(parts)| == Sum(Lengths(parts))
  {
    if |parts| > 0 {
      var init := parts[..|parts| - 1];
      FlattenLength(init);
      assert Lengths(parts)[..|parts| - 1] == Lengths(init);
    }
  }

  /** The four scan sources, in the order both scan engines merge them. */
  const ScanSources: seq<string> := ["tiktok", "amazon", "aliexpress", "google_trends"]

  /** What a source contributes to a merge: its items when it returned a
      list, nothing when it raised. */
  function Yield<T>(outcome: Option<seq<T>>): seq<T> {
    if outcome.Some? then outcome.value else []
  }

  /** `source_stats` of a four-source merge. */
  function SourceStats<T>(parts: seq<seq<T>>): (stats: map<string, nat>)
    requires |parts| == |ScanSources|
    ensures stats.Keys == set s | s in ScanSources
    ensures forall i :: 0 <= i < |ScanSources| ==> stats[ScanSources[i]] == |parts[i]|
  {
    map[ScanSources[0] := |parts[0]|, ScanSources[1] := |parts[1]|,
        ScanSources[2] := |parts[2]|, ScanSources[3] := |parts[3]|]
  }

  /** The merged list has as many items as the statistics add up to. */
  lemma MergeCounts<T>(parts: seq<seq<T>>)
    requires |parts| == |ScanSources|
    ensures var stats := SourceStats(parts);
      |Flatten(parts)| == stats["tiktok"] + stats["amazon"] + stats["aliexpress"] + stats["google_trends"]
  {
    FlattenLength(parts);
    var l := Lengths(parts);
    assert l == [|parts[0]|, |parts[1]|, |parts[2]|, |parts[3]|];
    assert Sum(l[..1]) == l[0] by {
      assert l[..1][..0] == [];
    }
    assert Sum(l[..2]) == Sum(l[..1]) + l[1] by {
      assert l[..2][..1] == l[..1];
    }
    assert Sum(l[..3]) == Sum(l[..2]) + l[2] by {
      assert l[..3][..2] == l[..2];
    }
  }

  lemma FlattenFour<T>(parts: seq<seq<T>>)
    requires |parts| == 4
    ensures Flatten(parts) == parts[0] + parts[1] + parts[2] + parts[3]
  {
    assert Flatten(parts[..1]) == parts[0] by {
      assert parts[..1][..0] == [];
    }
    assert Flatten(parts[..2]) == parts[0] + parts[1] by {
      assert parts[..2][..1] == parts[..1];
    }
    assert Flatten(parts[..3]) == parts[0] + parts[1] + parts[2] by {
      assert parts[..3][..2] == parts[..2];
    }
  }

  /** When every element satisfies the predicate the filter keeps them all. */
  lemma {:induction false} FilterKeepsAll<T(!new)>(s: seq<T>, p: T -> bool)
    requires forall i :: 0 <= i < |s| ==> p(s[i])
    ensures Filter(s, p) == s
  {
    if |s| > 0 {
      FilterKeepsAll(s[1..], p);
    }
  }

  /** When no element satisfies the predicate the filter is empty. */
  lemma {:induction false} FilterKeepsNone<T(!new)>(s: seq<T>, p: T -> bool)
    requires forall i :: 0 <= i < |s| ==> !p(s[i])
    ensures Filter(s, p) == []
  {
    if |s| > 0 {
      FilterKeepsNone(s[1..], p);
    }
  }
}

=== FILE: competitor_spy.dfy ===
/** Competitor store monitoring (`backend/services/competitor_spy.py`): the
    store-change diff between a stored name snapshot and a freshly pulled
    catalog, and the mock catalog generator with its derived store name,
    product total and top category. */
module CompetitorSpy {
  import opened Common
  import opened Strings

  /** A product of the mock catalog pool; prices are in cents. */
  datatype PoolItem = PoolItem(name: string, priceCents: int, category: string)

  const ProductPool: seq<PoolItem> := [
    PoolItem("Portable Neck Fan Pro", 3499, "Electronics"),
    PoolItem("LED Galaxy Projector", 4999, "Home"),
    PoolItem("Cloud Comfort Slides", 2999, "Fashion"),
    PoolItem("Smart Posture Trainer", 3999, "Health"),
    PoolItem("Mini Waffle Maker", 2499, "Kitchen"),
    PoolItem("Wireless Charging Station", 4499, "Electronics"),
    PoolItem("Sunset Mood Lamp", 2799, "Home"),
    PoolItem("Ice Roller Set", 1999, "Beauty"),
    PoolItem("Magnetic Phone Ring", 1499, "Accessories"),
    PoolItem("UV Sanitizer Box", 3299, "Health"),
    PoolItem("Foldable Laptop Stand", 2899, "Office"),
    PoolItem("Smart Jump Rope", 3699, "Fitness")
  ]

  /** A monitored store. Timestamps are integer seconds; `lastScanned` is
      None until the first scan. */
  datatype CompetitorStore = CompetitorStore(
    id: string,
    userId: string,
    storeUrl: string,
    storeName: string,
    createdAt: int,
    platform: string := "shopify",
    lastScanned: Option<int> := None,
    productsSnapshot: seq<string> := [],
    newProductsCount: int := 0,
    isActive: bool := true)

  /** An alert about a monitored store. The source keeps the new product
      names in a `product_data` dictionary; the model keeps the names. */
  datatype CompetitorAlert = CompetitorAlert(
    id: string,
    userId: string,
    competitorId: string,
    competitorName: string,
    alertType: string,
    newProducts: set<string>,
    createdAt: int,
    isRead: bool := false)

  /** A product seen in a monitored store; prices are in cents. */
  datatype CompetitorProduct = CompetitorProduct(
    id: string,
    competitorId: string,
    name: string,
    priceCents: int,
    isActive: bool := true)

  /** Result of `detect_store_changes`. The source turns the two sets into
      lists in set iteration order; the model keeps them as sets. */
  datatype ChangeSet = ChangeSet(
    added: set<string>,
    removed: set<string>,
    addedCount: nat,
    removedCount: nat,
    hasChanges: bool)

  function SetOf(names: seq<string>): (s: set<string>)
    ensures forall n :: n in s <==> n in names
  {
    set n | n in names
  }

  /** `detect_store_changes(old_products, new_products)`, given the names of
      the new products: the set differences in both directions. */
  function DetectStoreChanges(previous: seq<string>, newNames: seq<string>): (c: ChangeSet)
    ensures forall n :: n in c.added <==> n in newNames && n !in previous
    ensures forall n :: n in c.removed <==> n in previous && n !in newNames
    ensures c.addedCount == |c.added| && c.removedCount == |c.removed|
    ensures c.hasChanges <==> c.addedCount > 0 || c.removedCount > 0
  {
    var added := SetOf(newNames) - SetOf(previous);
    var removed := SetOf(previous) - SetOf(newNames);
    ChangeSet(added, removed, |added|, |removed|, |added| > 0 || |removed| > 0)
  }

  /** Added and removed never overlap; each comes from its own side. */
  lemma ChangesDisjoint(previous: seq<string>, newNames: seq<string>)
    ensures var c := DetectStoreChanges(previous, newNames);
      && c.added !! c.removed
      && c.added <= SetOf(newNames)
      && c.removed <= SetOf(previous)
  {
  }

  /** A set built from a sequence has at most as many elements. */
  lemma {:induction false} SetOfSize(names: seq<string>)
    ensures |SetOf(names)| <= |names|
  {
    if |names| > 0 {
      var tail := names[1..];
      SetOfSize(tail);
      assert SetOf(names) == SetOf(tail) + {names[0]} by {
        assert names == [names[0]] + tail;
      }
    }
  }

  /** The counts are bounded by the inputs: they count distinct names. */
  lemma CountsBounded(previous: seq<string>, newNames: seq<string>)
    ensures DetectStoreChanges(previous, newNames).addedCount <= |newNames|
    ensures DetectStoreChanges(previous, newNames).removedCount <= |previous|
  {
    var c := DetectStoreChanges(previous, newNames);
    SetOfSize(newNames);
    SetOfSize(previous);
    assert c.added <= SetOf(newNames);
    assert c.removed <= SetOf(previous);
  }

  /** Repeated names collapse: doubling both inputs changes nothing. */
  lemma DuplicatesCollapse(previous: seq<string>, newNames: seq<string>)
    ensures DetectStoreChanges(previous + previous, newNames + newNames) == DetectStoreChanges(previous, newNames)
  {
    assert SetOf(previous + previous) == SetOf(previous);
    assert SetOf(newNames + newNames) == SetOf(newNames);
  }

  /** Diffing a catalog against its own name set reports nothing. */
  lemma DiffIdempotent(previous: seq<string>, newNames: seq<string>)
    requires SetOf(previous) == SetOf(newNames)
    ensures var c := DetectStoreChanges(previous, newNames);
      c.addedCount == 0 && c.removedCount == 0 && !c.hasChanges
  {
    var c := DetectStoreChanges(previous, newNames);
    assert c.added == {};
    assert c.removed == {};
  }

  /** previous = {A, B}, new = [A, C]: C was added and B removed. */
  lemma DiffExample()
    ensures var c := DetectStoreChanges(["A", "B"], ["A", "C"]);
      c.added == {"C"} && c.removed == {"B"} && c.hasChanges
  {
    var c := DetectStoreChanges(["A", "B"], ["A", "C"]);
    assert "C" in c.added;
    assert "B" in c.removed;
  }

  /** The store name of the mock generator: both scheme prefixes removed
      wherever they occur, cut at the first '.', title-cased. */
  function MockStoreName(url: string): string {
    Title(BeforeFirst(RemoveAll(RemoveAll(url, "https://"), "http://"), '.'))
  }

  predicate FreeOf(s: string, pat: string) {
    forall i :: 0 <= i < |s| ==> !StartsWith(s[i..], pat)
  }

  /** For an https URL whose host part holds neither scheme, the store name
      is the title-cased first label of the host. */
  lemma MockStoreNameOfHost(host: string)
    requires FreeOf(host, "https://") && FreeOf(host, "http://")
    ensures MockStoreName("https://" + host) == Title(BeforeFirst(host, '.'))
  {
    RemoveAllPrefix("https://", host);
    RemoveAllAbsent(host, "https://");
    RemoveAllAbsent(host, "http://");
  }

  function CategoryCount(items: seq<PoolItem>, c: string): nat {
    if |items| == 0 then 0
    else (if items[0].category == c then 1 else 0) + CategoryCount(items[1..], c)
  }

  /** The most frequent category among items[k..], counted over all items;
      ties go to the earliest item. */
  function BestCategoryFrom(items: seq<PoolItem>, k: nat): (c: string)
    requires k < |items|
    ensures exists j :: k <= j < |items| && items[j].category == c
    ensures forall j :: k <= j < |items| ==> CategoryCount(items, items[j].category) <= CategoryCount(items, c)
    decreases |items| - k
  {
    if k == |items| - 1 then items[k].category
    else
      var b := BestCategoryFrom(items, k + 1);
      if CategoryCount(items, items[k].category) >= CategoryCount(items, b) then items[k].category else b
  }

  /** `max(categories, key=count)`: a category of maximal frequency. */
  function TopCategory(items: seq<PoolItem>): (c: string)
    requires |items| > 0
    ensures exists j :: 0 <= j < |items| && items[j].category == c
    ensures forall j :: 0 <= j < |items| ==> CategoryCount(items, items[j].category) <= CategoryCount(items, c)
  {
    BestCategoryFrom(items, 0)
  }

  datatype StoreData = StoreData(
    storeName: string,
    storeUrl: string,
    products: seq<PoolItem>,
    totalProducts: nat,
    estimatedMonthlyRevenue: int,
    topCategory: string)

  function Pick(picks: seq<nat>): (r: seq<PoolItem>)
    requires forall i :: 0 <= i < |picks| ==> picks[i] < |ProductPool|
    ensures |r| == |picks|
    ensures forall i :: 0 <= i < |picks| ==> r[i] == ProductPool[picks[i]]
  {
    if |picks| == 0 then [] else [ProductPool[picks[0]]] + Pick(picks[1..])
  }

  /** `generate_mock_competitor_data`, with the random sample and revenue
      given as parameters in the ranges `random` can produce. */
  function GenerateMockCompetitorData(url: string, picks: seq<nat>, revenue: int): (d: StoreData)
    requires ValidSample(picks, |ProductPool|, 5, 10)
    requires 10000 <= revenue <= 150000
    ensures d.storeName == MockStoreName(url) && d.storeUrl == url
    ensures d.totalProducts == |d.products|
    ensures |d.products| == |picks| && forall i :: 0 <= i < |picks| ==> d.products[i] == ProductPool[picks[i]]
    ensures exists j :: 0 <= j < |d.products| && d.products[j].category == d.topCategory
    ensures forall j :: 0 <= j < |d.products| ==>
      CategoryCount(d.products, d.products[j].category) <= CategoryCount(d.products, d.topCategory)
  {
    var products := Pick(picks);
    StoreData(MockStoreName(url), url, products, |products|, revenue, TopCategory(products))
  }

  function NamesOf(items: seq<PoolItem>): (names: seq<string>)
    ensures |names| == |items|
    ensures forall i :: 0 <= i < |items| ==> names[i] == items[i].name
  {
    if |items| == 0 then [] else [items[0].name] + NamesOf(items[1..])
  }
}

=== FILE: export.dfy ===
/** The export routes (`backend/routes/export.py`): a Shopify or
    WooCommerce row per matched product, the export log, and the CSV text
    `download_export` builds from the rows. A row is an ordered list of
    cells, as the route's dictionaries are; a cell holds a string or
    Python's None. Float formatting of prices is a parameter. */
module Export {
  import opened Common
  import opened Strings
  import opened Models
  import opened Database

  // ----------------------------------------------------------------- rows

  datatype Cell = Cell(key: string, value: Option<string>)

  type Row = seq<Cell>

  /** `str(v)` of a cell value. */
  function Text(v: Option<string>): string {
    match v
    case Some(s) => s
    case None => "None"
  }

  function Keys(row: Row): (ks: seq<string>)
    ensures |ks| == |row|
    ensures forall i :: 0 <= i < |row| ==> ks[i] == row[i].key
  {
    seq(|row|, i requires 0 <= i < |row| => row[i].key)
  }

  /** `row.get(h, "")`, rendered with `str`. */
  function Lookup(row: Row, h: string): (t: string)
    ensures (forall i :: 0 <= i < |row| ==> row[i].key != h) ==> t == ""
  {
    match FirstIndex(row, (c: Cell) => c.key == h)
    case None => ""
    case Some(i) => Text(row[i].value)
  }

  /** The request body of the export routes. */
  datatype ExportConfig = ExportConfig(
    productIds: seq<string>,
    platform: string,
    includeImages: bool := true,
    includeDescription: bool := true,
    priceMarkup: real := 1.0)

  /** `f"{x:.2f}"` and `str(x)` of a float. */
  datatype Formats = Formats(money: real -> string, repr: real -> string)

  const SkuPrefix := "PS-"

  /** The stock-keeping unit: "PS-" and the first eight characters of the
      id. */
  function Sku(id: string): (sku: string)
    ensures |sku| <= 11 && StartsWith(sku, SkuPrefix)
  {
    SkuPrefix + Take(id, 8)
  }

  /** Ids agreeing on their first eight characters share a SKU. */
  lemma SkuCollides(a: string, b: string)
    requires |a| >= 8 && |b| >= 8 && a[..8] == b[..8]
    ensures Sku(a) == Sku(b)
  {
  }

  lemma SkuCollisionExample()
    ensures Sku("12345678-a") == Sku("12345678-b")
  {
    SkuCollides("12345678-a", "12345678-b");
  }

  /** `product.description[:n] if product.description else ""`. */
  function ShortDescription(d: Option<string>, n: nat): (s: string)
    ensures |s| <= n
    ensures Present(d) ==> s <= d.value
    ensures !Present(d) ==> s == ""
  {
    if Present(d) then Take(d.value, n) else ""
  }

  /** `f"<p>{product.description}</p>"`, or "" when descriptions are off. */
  function HtmlDescription(p: Product, config: ExportConfig): string {
    if config.includeDescription then "<p>" + Text(p.description) + "</p>" else ""
  }

  function Image(p: Product, config: ExportConfig): Option<string> {
    if config.includeImages then p.imageUrl else Some("")
  }

  function Price(p: Product, config: ExportConfig): real {
    p.recommendedPrice * config.priceMarkup
  }

  const ShopifyColumns: seq<string> := [
    "Handle", "Title", "Body (HTML)", "Vendor", "Product Category", "Type", "Tags",
    "Published", "Option1 Name", "Option1 Value", "Variant SKU", "Variant Grams",
    "Variant Inventory Tracker", "Variant Inventory Qty", "Variant Inventory Policy",
    "Variant Fulfillment Service", "Variant Price", "Variant Compare At Price",
    "Variant Requires Shipping", "Variant Taxable", "Image Src", "Image Position",
    "Image Alt Text", "Gift Card", "SEO Title", "SEO Description", "Variant Weight Unit",
    "Status"]

  /** The Shopify cells' values, column by column: the handle is the id,
      the SKU is "PS-" and the id's first eight characters, the body and
      image are empty when switched off, and the SEO description is at most
      160 characters, empty without a description. */
  function ShopifyValues(p: Product, config: ExportConfig, fmt: Formats): (values: seq<Option<string>>)
    ensures |values| == |ShopifyColumns|
    ensures values[0] == Some(p.id)
    ensures values[10] == Some(SkuPrefix + Take(p.id, 8))
    ensures !config.includeDescription ==> values[2] == Some("")
    ensures !config.includeImages ==> values[20] == Some("")
    ensures values[25].Some? && |values[25].value| <= 160
    ensures !Present(p.description) ==> values[25] == Some("")
  {
    [ Some(p.id), Some(p.name), Some(HtmlDescription(p, config)), Some("ProductScout AI"),
      Some(p.category), Some(p.category), Some("trending, " + Lower(p.category) + ", productscout"),
      Some("TRUE"), Some("Title"), Some("Default Title"), Some(Sku(p.id)), Some("0"),
      Some("shopify"), Some("100"), Some("deny"),
      Some("manual"), Some(fmt.money(Price(p, config))), Some(fmt.money(Price(p, config) * 1.3)),
      Some("TRUE"), Some("TRUE"), Image(p, config), Some("1"),
      Some(p.name), Some("FALSE"), Some(p.name + " - Premium Quality"),
      Some(ShortDescription(p.description, 160)), Some("kg"),
      Some("draft")]
  }

  /** One Shopify import row: the columns in order, each with its value. */
  function ShopifyRow(p: Product, config: ExportConfig, fmt: Formats): (row: Row)
    ensures Keys(row) == ShopifyColumns
    ensures forall i :: 0 <= i < |row| ==> row[i].value == ShopifyValues(p, config, fmt)[i]
  {
    Aligned(ShopifyColumns, ShopifyValues(p, config, fmt))
  }

  /** Cells pairing each column with the value at the same position. */
  function Aligned(columns: seq<string>, values: seq<Option<string>>): (row: Row)
    requires |columns| == |values|
    ensures Keys(row) == columns
    ensures forall i :: 0 <= i < |row| ==> row[i] == Cell(columns[i], values[i])
  {
    seq(|columns|, i requires 0 <= i < |columns| => Cell(columns[i], values[i]))
  }

  const WooColumns: seq<string> := [
    "ID", "Type", "SKU", "Name", "Published", "Is featured?", "Visibility in catalog",
    "Short description", "Description", "Date sale price starts", "Date sale price ends",
    "Tax status", "Tax class", "In stock?", "Stock", "Low stock amount",
    "Backorders allowed?", "Sold individually?", "Weight (kg)", "Length (cm)",
    "Width (cm)", "Height (cm)", "Allow customer reviews?", "Purchase note",
    "Sale price", "Regular price", "Categories", "Tags", "Shipping class", "Images",
    "Download limit", "Download expiry days", "Parent", "Grouped products", "Upsells",
    "Cross-sells", "External URL", "Button text", "Position", "Meta: _source_cost",
    "Meta: _margin_percent", "Meta: _productscout_id"]

  /** The WooCommerce cells' values, column by column: the SKU as for
      Shopify, a short description of at most 200 characters, empty without
      a description, the description and images empty when switched off, and
      the id kept in the last column. */
  function WooValues(p: Product, config: ExportConfig, fmt: Formats): (values: seq<Option<string>>)
    ensures |values| == |WooColumns|
    ensures values[2] == Some(SkuPrefix + Take(p.id, 8))
    ensures values[7].Some? && |values[7].value| <= 200
    ensures !Present(p.description) ==> values[7] == Some("")
    ensures !config.includeDescription ==> values[8] == Some("")
    ensures !config.includeImages ==> values[29] == Some("")
    ensures values[41] == Some(p.id)
  {
    [ Some(""), Some("simple"), Some(Sku(p.id)), Some(p.name), Some("0"), Some("0"), Some("visible"),
      Some(ShortDescription(p.description, 200)), Some(HtmlDescription(p, config)), Some(""), Some(""),
      Some("taxable"), Some(""), Some("1"), Some("100"), Some("10"),
      Some("0"), Some("0"), Some(""), Some(""),
      Some(""), Some(""), Some("1"), Some(""),
      Some(fmt.money(Price(p, config) * 0.85)), Some(fmt.money(Price(p, config))), Some(p.category),
      Some("trending, " + Lower(p.category)), Some(""), Image(p, config),
      Some(""), Some(""), Some(""), Some(""), Some(""),
      Some(""), Some(""), Some(""), Some("0"), Some(fmt.repr(p.sourceCost)),
      Some(fmt.repr(p.marginPercent)), Some(p.id)]
  }

  /** One WooCommerce import row: the columns in order, each with its value. */
  function WooRow(p: Product, config: ExportConfig, fmt: Formats): (row: Row)
    ensures Keys(row) == WooColumns
    ensures forall i :: 0 <= i < |row| ==> row[i].value == WooValues(p, config, fmt)[i]
  {
    Aligned(WooColumns, WooValues(p, config, fmt))
  }

  // --------------------------------------------------------------- routes

  datatype Platform = Shopify | WooCommerce {
    function Name(): string {
      match this
      case Shopify => "shopify"
      case WooCommerce => "woocommerce"
    }
  }

  const FindLimit := 100

  /** `{"id": {"$in": ids}}`: every stored product with a requested id, in
      stored order. */
  function Requested(products: seq<Product>, ids: seq<string>): (m: seq<Product>)
    ensures forall p :: p in m <==> p in products && p.id in ids
  {
    Filter(products, (p: Product) => p.id in ids)
  }

  /** `find({"id": {"$in": ids}}).to_list(100)`: the first 100 matches in
      stored order, or all of them when fewer. */
  function Matching(products: seq<Product>, ids: seq<string>): (r: seq<Product>)
    ensures var m := Requested(products, ids);
      && |r| == (if |m| < FindLimit then |m| else FindLimit)
      && forall i :: 0 <= i < |r| ==> r[i] == m[i]
    ensures forall p :: p in r ==> p in products && p.id in ids
    ensures |r| == 0 <==> forall p :: p in products ==> p.id !in ids
  {
    var all := Requested(products, ids);
    assert |all| > 0 ==> all[0] in all;
    Take(all, FindLimit)
  }

  datatype ExportResult = ExportResult(platform: string, productCount: nat, rows: seq<Row>)

  function RowFor(platform: Platform, p: Product, config: ExportConfig, fmt: Formats): Row {
    match platform
    case Shopify => ShopifyRow(p, config, fmt)
    case WooCommerce => WooRow(p, config, fmt)
  }

  /** `POST /export/shopify` and `POST /export/woocommerce`. */
  function ExportTo(platform: Platform, config: ExportConfig, userId: string, db: Db, now: int, fmt: Formats): (r: Routed<ExportResult>)
    ensures var found := Matching(db.products, config.productIds);
      && (|found| == 0 <==> r.response.Fail?)
      && (r.response.Fail? ==> r.response.error == HttpError(404, "No products found") && r.db == db)
      && (r.response.Ok? ==>
            && r.response.value.productCount == |r.response.value.rows| == |found|
            && r.response.value.platform == platform.Name()
            && (forall i :: 0 <= i < |found| ==> r.response.value.rows[i] == RowFor(platform, found[i], config, fmt))
            && r.db == db.(exports := db.exports + [ExportLog(userId, platform.Name(), |found|, now)]))
  {
    var found := Matching(db.products, config.productIds);
    if |found| == 0 then Routed(Err(404, "No products found"), db)
    else
      var rows := seq(|found|, i requires 0 <= i < |found| => RowFor(platform, found[i], config, fmt));
      Routed(Ok(ExportResult(platform.Name(), |rows|, rows)),
             db.(exports := db.exports + [ExportLog(userId, platform.Name(), |rows|, now)]))
  }

  // ------------------------------------------------------------------ CSV

  /** `s.replace(chr(34), chr(39))`: every double quote becomes a single
      quote. */
  function ReplaceQuotes(s: string): (r: string)
    ensures |r| == |s|
    ensures '"' !in r
    ensures forall i :: 0 <= i < |s| ==> r[i] == if s[i] == '"' then '\'' else s[i]
  {
    seq(|s|, i requires 0 <= i < |s| => if s[i] == '"' then '\'' else s[i])
  }

  function Quote(s: string): string {
    "\"" + s + "\""
  }

  /** Comma-joined double-quoted fields. */
  function QuotedLine(fields: seq<string>): string {
    Join(seq(|fields|, i requires 0 <= i < |fields| => Quote(fields[i])), ",")
  }

  /** The fields written for one row under the given header. */
  function Fields(row: Row, headers: seq<string>): (fs: seq<string>)
    ensures |fs| == |headers|
    ensures forall j :: 0 <= j < |fs| ==> fs[j] == ReplaceQuotes(Lookup(row, headers[j]))
  {
    seq(|headers|, j requires 0 <= j < |headers| => ReplaceQuotes(Lookup(row, headers[j])))
  }

  /** The CSV lines: the first row's keys as header, then one line per row. */
  function CsvLines(rows: seq<Row>): (lines: seq<string>)
    requires |rows| > 0
    ensures |lines| == |rows| + 1
    ensures lines[0] == QuotedLine(Keys(rows[0]))
    ensures forall i :: 0 <= i < |rows| ==> lines[i + 1] == QuotedLine(Fields(rows[i], Keys(rows[0])))
  {
    var headers := Keys(rows[0]);
    [QuotedLine(headers)] + seq(|rows|, i requires 0 <= i < |rows| => QuotedLine(Fields(rows[i], headers)))
  }

  function CsvContent(rows: seq<Row>): string
    requires |rows| > 0
  {
    Join(CsvLines(rows), "\n")
  }

  datatype Download =
    | AsJson(result: ExportResult)
    | Csv(content: string, filenamePrefix: string, productCount: nat)
    | NothingToExport

  /** `POST /export/download/{format}`. */
  function DownloadExport(format: string, config: ExportConfig, userId: string, db: Db, now: int, fmt: Formats): (r: Routed<Download>)
    ensures config.platform != "shopify" && config.platform != "woocommerce" ==>
      r == Routed(Err(400, "Invalid platform"), db)
    ensures config.platform == "shopify" || config.platform == "woocommerce" ==>
      var platform := if config.platform == "shopify" then Shopify else WooCommerce;
      var exported := ExportTo(platform, config, userId, db, now, fmt);
      && r.db == exported.db
      && (exported.response.Fail? ==> r.response == Fail(exported.response.error))
      && (exported.response.Ok? && format == "json" ==> r.response == Ok(AsJson(exported.response.value)))
      && (exported.response.Ok? && format != "json" ==>
            var rows := exported.response.value.rows;
            r.response.Ok? && r.response.value.Csv?
            && r.response.value.content == CsvContent(rows)
            && r.response.value.productCount == |rows|)
  {
    if config.platform != "shopify" && config.platform != "woocommerce" then Routed(Err(400, "Invalid platform"), db)
    else
      var platform := if config.platform == "shopify" then Shopify else WooCommerce;
      var exported := ExportTo(platform, config, userId, db, now, fmt);
      match exported.response
      case Fail(e) => Routed(Fail(e), exported.db)
      case Ok(result) =>
        if format == "json" then Routed(Ok(AsJson(result)), exported.db)
        else if |result.rows| > 0 then
          Routed(Ok(Csv(CsvContent(result.rows), config.platform + "_export_", |result.rows|)), exported.db)
        else Routed(Ok(NothingToExport), exported.db)
  }

  // ------------------------------------------------------ reading it back

  /** Reads a line of comma-separated, double-quoted fields whose bodies
      hold no double quote. */
  function ParseLine(line: string): (r: Option<seq<string>>)
    ensures r.Some? ==> |r.value| >= 1
    decreases |line|
  {
    if |line| < 2 || line[0] != '"' then None
    else
      var body := BeforeFirst(line[1..], '"');
      if |body| == |line| - 1 then None
      else
        var rest := line[|body| + 2..];
        if |rest| == 0 then Some([body])
        else if rest[0] != ',' then None
        else match ParseLine(rest[1..])
          case None => None
          case Some(more) => Some([body] + more)
  }

  lemma {:induction false} BeforeFirstOfPrefix(s: string, c: char, t: string)
    requires c !in s
    ensures BeforeFirst(s + [c] + t, c) == s
  {
    if |s| > 0 {
      assert (s + [c] + t)[1..] == s[1..] + [c] + t;
      BeforeFirstOfPrefix(s[1..], c, t);
    }
  }

  lemma QuotedLineCons(fields: seq<string>)
    requires |fields| >= 1
    ensures |fields| == 1 ==> QuotedLine(fields) == Quote(fields[0])
    ensures |fields| > 1 ==> QuotedLine(fields) == Quote(fields[0]) + "," + QuotedLine(fields[1..])
  {
    var quoted := seq(|fields|, i requires 0 <= i < |fields| => Quote(fields[i]));
    assert quoted[1..] == seq(|fields| - 1, i requires 0 <= i < |fields| - 1 => Quote(fields[1..][i]));
  }

  /** A lone quoted field parses to itself. */
  lemma ParseLast(f: string)
    requires '"' !in f
    ensures ParseLine(Quote(f)) == Some([f])
  {
    var line := Quote(f);
    assert line[1..] == f + ['"'] + [];
    BeforeFirstOfPrefix(f, '"', []);
    assert line[|f| + 2..] == [];
  }

  /** A quoted field followed by a comma parses to itself followed by what
      the rest parses to. */
  lemma ParseFirst(f: string, tail: string)
    requires '"' !in f
    ensures ParseLine(Quote(f) + "," + tail) == match ParseLine(tail)
      case None => None
      case Some(more) => Some([f] + more)
  {
    var line := Quote(f) + "," + tail;
    assert line[0] == '"';
    assert line[1..] == f + ['"'] + ("," + tail);
    BeforeFirstOfPrefix(f, '"', "," + tail);
    assert line[|f| + 2..] == "," + tail;
    assert ("," + tail)[1..] == tail;
  }

  /** The quoted line of quote-free fields parses back to those fields. */
  lemma {:induction false} ParseQuotedLine(fields: seq<string>)
    requires |fields| >= 1
    requires forall i :: 0 <= i < |fields| ==> '"' !in fields[i]
    ensures ParseLine(QuotedLine(fields)) == Some(fields)
  {
    QuotedLineCons(fields);
    if |fields| == 1 {
      ParseLast(fields[0]);
      assert [fields[0]] == fields;
    } else {
      ParseQuotedLine(fields[1..]);
      ParseFirst(fields[0], QuotedLine(fields[1..]));
      assert [fields[0]] + fields[1..] == fields;
    }
  }

  lemma {:induction false} SplitNoSeparator(s: string, c: char)
    requires c !in s
    ensures Split(s, [c]) == [s]
    decreases |s|
  {
    if |s| > 0 {
      assert s[..1] == [s[0]] && s[0] in s;
      assert !StartsWith(s, [c]);
      SplitNoSeparator(s[1..], c);
      assert [s[0]] + s[1..] == s;
    }
  }

  lemma {:induction false} SplitAfterPiece(p: string, c: char, t: string)
    requires c !in p
    ensures Split(p + [c] + t, [c]) == [p] + Split(t, [c])
    decreases |p|
  {
    var s := p + [c] + t;
    if |p| == 0 {
      assert StartsWith(s, [c]);
      assert s[1..] == t;
    } else {
      assert s[..1] == [p[0]] && p[0] in p;
      assert !StartsWith(s, [c]);
      assert s[1..] == p[1..] + [c] + t;
      SplitAfterPiece(p[1..], c, t);
      assert [p[0]] + p[1..] == p;
    }
  }

  /** Joining pieces free of a one-character separator and splitting on it
      again gives the pieces back. */
  lemma {:induction false} JoinSplit(parts: seq<string>, c: char)
    requires |parts| >= 1
    requires forall i :: 0 <= i < |parts| ==> c !in parts[i]
    ensures Split(Join(parts, [c]), [c]) == parts
  {
    if |parts| == 1 {
      SplitNoSeparator(parts[0], c);
    } else {
      JoinSplit(parts[1..], c);
      SplitAfterPiece(parts[0], c, Join(parts[1..], [c]));
      assert [parts[0]] + parts[1..] == parts;
    }
  }

  lemma QuotedLineHasNo(fields: seq<string>, c: char)
    requires c != '"' && c != ','
    requires forall i :: 0 <= i < |fields| ==> c !in fields[i]
    ensures c !in QuotedLine(fields)
  {
    var quoted := seq(|fields|, i requires 0 <= i < |fields| => Quote(fields[i]));
    JoinHasNo(quoted, ",", c);
  }

  lemma {:induction false} JoinHasNo(parts: seq<string>, sep: string, c: char)
    requires c !in sep
    requires forall i :: 0 <= i < |parts| ==> c !in parts[i]
    ensures c !in Join(parts, sep)
  {
    if |parts| > 1 {
      JoinHasNo(parts[1..], sep, c);
    }
  }

  /** A text holds no line break. */
  predicate OneLine(s: string) {
    '\n' !in s
  }

  /** No header holds a double quote or a line break, and no cell text
      under a header breaks a line. */
  predicate CsvSafe(rows: seq<Row>)
    requires |rows| > 0
  {
    && (forall j :: 0 <= j < |rows[0]| ==> '"' !in rows[0][j].key && OneLine(rows[0][j].key))
    && (forall i, j :: 0 <= i < |rows| && 0 <= j < |rows[0]| ==> OneLine(Lookup(rows[i], rows[0][j].key)))
  }

  lemma DataLineParses(rows: seq<Row>, i: nat)
    requires |rows| > 0 && CsvSafe(rows) && i < |rows|
    ensures '\n' !in QuotedLine(Fields(rows[i], Keys(rows[0])))
    ensures |rows[0]| > 0 ==> ParseLine(QuotedLine(Fields(rows[i], Keys(rows[0])))) == Some(Fields(rows[i], Keys(rows[0])))
  {
    var fs := Fields(rows[i], Keys(rows[0]));
    forall j | 0 <= j < |fs| ensures '\n' !in fs[j] {
      assert OneLine(Lookup(rows[i], rows[0][j].key));
    }
    QuotedLineHasNo(fs, '\n');
    if |rows[0]| > 0 {
      ParseQuotedLine(fs);
    }
  }

  /** Reading the CSV back: when no header or cell text breaks a line and
      no header holds a double quote, the text splits into the header and
      one line per row, and each line parses into its fields: the header
      names, and each cell's text with double quotes turned into single
      ones (an absent column gives ""). */
  lemma CsvRoundTrip(rows: seq<Row>)
    requires |rows| > 0 && |rows[0]| > 0 && CsvSafe(rows)
    ensures var lines := Split(CsvContent(rows), "\n");
      && |lines| == |rows| + 1
      && ParseLine(lines[0]) == Some(Keys(rows[0]))
      && forall i :: 0 <= i < |rows| ==> ParseLine(lines[i + 1]) == Some(Fields(rows[i], Keys(rows[0])))
  {
    var headers := Keys(rows[0]);
    var lines := CsvLines(rows);
    forall k | 0 <= k < |lines| ensures '\n' !in lines[k] {
      if k == 0 {
        QuotedLineHasNo(headers, '\n');
      } else {
        DataLineParses(rows, k - 1);
      }
    }
    JoinSplit(lines, '\n');
    assert Split(CsvContent(rows), "\n") == lines;
    ParseQuotedLine(headers);
    forall i | 0 <= i < |rows|
      ensures ParseLine(lines[i + 1]) == Some(Fields(rows[i], headers))
    {
      DataLineParses(rows, i);
    }
  }

  /** No field body in a data line holds a double quote. */
  lemma FieldsQuoteFree(row: Row, headers: seq<string>)
    ensures forall j :: 0 <= j < |headers| ==> '"' !in Fields(row, headers)[j]
  {
  }
}

=== FILE: models.dfy ===
/** The records of `backend/models.py` with their Pydantic defaults, plus the
    extra fields that other routes write into user documents (last scan
    time, Stripe identifiers, trial and verification flags). Money and
    percentages are reals; timestamps are integer seconds. */
module Models {
  import opened Common

  datatype NotificationPreferences = NotificationPreferences(
    dailyReport: bool := true,
    competitionAlerts: bool := true,
    trendSpikeAlerts: bool := true,
    scanComplete: bool := true)

  /** How `notification_preferences` sits in a stored user document: absent,
      stored as null (the User default), or a dictionary whose
      `daily_report` entry may be missing. */
  datatype PrefsField = PrefsAbsent | PrefsNull | PrefsDict(dailyReport: Option<Json>)

  datatype FilterSettings = FilterSettings(
    maxSourceCost: real := 15.0,
    minSellPrice: real := 35.0,
    minMarginPercent: real := 60.0,
    maxFbAds: int := 50,
    maxShippingDays: int := 15,
    categories: seq<string> := [],
    excludeTrademarkRisk: bool := true)

  /** A user document. The fields after `notificationPreferences` are not
      declared on the Pydantic model; other routes add them to the stored
      document. */
  datatype User = User(
    id: string,
    email: string,
    name: string,
    passwordHash: string,
    createdAt: int,
    subscriptionTier: string := "free",
    isAdmin: bool := false,
    openaiApiKey: Option<string> := None,
    telegramBotToken: Option<string> := None,
    telegramChatId: Option<string> := None,
    filters: Option<map<string, Json>> := None,
    notificationPreferences: PrefsField := PrefsNull,
    lastScanAt: Option<int> := None,
    stripeCustomerId: Option<string> := None,
    stripeSubscriptionId: Option<string> := None,
    subscriptionUpdatedAt: Option<int> := None,
    hadTrial: Option<bool> := None,
    emailVerified: Option<bool> := None)

  datatype Supplier = Supplier(
    name: string,
    platform: string,
    unitCost: real,
    shippingCost: real,
    shippingDays: string,
    rating: real,
    totalOrders: int,
    url: Option<string> := None)

  datatype Product = Product(
    id: string,
    name: string,
    category: string,
    sourceCost: real,
    recommendedPrice: real,
    marginPercent: real,
    overallScore: int,
    trendScore: int,
    competitionScore: int,
    profitScore: int,
    trendDirection: string,
    trendPercent: real,
    searchVolume: int,
    activeFbAds: int,
    shopifyStores: int,
    saturationLevel: string,
    discoveredAt: int,
    lastUpdated: int,
    imageUrl: Option<string> := Some(""),
    description: Option<string> := None,
    suppliers: seq<Supplier> := [],
    trademarkRisk: bool := false,
    canDemoVideo: bool := true,
    sourcePlatforms: seq<string> := [])

  datatype LaunchKit = LaunchKit(
    id: string,
    productId: string,
    userId: string,
    productName: string,
    productDescription: string,
    createdAt: int,
    targetAudiences: seq<string> := [],
    hashtags: seq<string> := [],
    upsellSuggestions: seq<string> := [],
    status: string := "draft")

  datatype ProductBoard = ProductBoard(
    id: string,
    userId: string,
    name: string,
    createdAt: int,
    description: Option<string> := None,
    productIds: seq<string> := [])

  /** The documented range of the score fields. */
  predicate ScoresInRange(p: Product) {
    && 0 <= p.overallScore <= 100
    && 0 <= p.trendScore <= 100
    && 0 <= p.competitionScore <= 100
    && 0 <= p.profitScore <= 100
  }

  /** A freshly constructed user gets the free tier, no admin flag, no keys,
      no filters and null notification preferences. */
  lemma UserDefaults(id: string, email: string, name: string, hash: string, now: int)
    ensures var u := User(id, email, name, hash, now);
      && u.subscriptionTier == "free" && !u.isAdmin
      && u.openaiApiKey.None? && u.telegramBotToken.None? && u.telegramChatId.None?
      && u.filters.None? && u.notificationPreferences == PrefsNull
  {
  }

  /** Every notification preference defaults to on. */
  lemma NotificationDefaults()
    ensures var p := NotificationPreferences();
      p.dailyReport && p.competitionAlerts && p.trendSpikeAlerts && p.scanComplete
  {
  }

  lemma FilterSettingsDefaults()
    ensures var f := FilterSettings();
      && f.maxSourceCost == 15.0 && f.minSellPrice == 35.0 && f.minMarginPercent == 60.0
      && f.maxFbAds == 50 && f.maxShippingDays == 15 && f.categories == [] && f.excludeTrademarkRisk
  {
  }

  /** Product defaults: no suppliers, no trademark risk, demo video possible,
      no source platforms; and nothing keeps the scores inside 0-100. */
  lemma ProductDefaults(id: string, name: string, cat: string)
    ensures var p := Product(id, name, cat, 0.0, 0.0, 0.0, 150, 0, 0, 0, "up", 0.0, 0, 0, 0, "low", 0, 0);
      && p.suppliers == [] && !p.trademarkRisk && p.canDemoVideo && p.sourcePlatforms == []
      && p.imageUrl == Some("") && p.description.None?
      && !ScoresInRange(p)
  {
  }

  lemma KitAndBoardDefaults(id: string, pid: string, uid: string, n: string, d: string, now: int)
    ensures LaunchKit(id, pid, uid, n, d, now).status == "draft"
    ensures ProductBoard(id, uid, n, now).productIds == []
  {
  }
}

=== FILE: payments.dfy ===
/** The Stripe routes (`backend/routes/payments.py`): checkout for a paid
    tier with the one-day trial rule, the webhook's subscription-state
    transitions, the subscription status, and the portal's precondition.
    Stripe itself is a set of parameters: whether it is configured, the ids
    it hands out, and whether a call raised. */
module Payments {
  import opened Common
  import opened Strings
  import opened Models
  import opened Database

  /** `TIER_PRICES`, in cents; enterprise is priced by hand. */
  function TierPrice(tier: string): Option<nat> {
    match tier
    case "sniper" => Some(2900)
    case "elite" => Some(7900)
    case "agency" => Some(14900)
    case "enterprise" => Some(0)
    case _ => None
  }

  /** The tiers checkout sells. */
  predicate Purchasable(tier: string)
    ensures Purchasable(tier) <==> tier in {"sniper", "elite", "agency"}
  {
    TierPrice(tier).Some? && tier != "enterprise"
  }

  /** Python truthiness of `user_doc.get("had_trial", False)`. */
  predicate HadTrial(u: User) {
    u.hadTrial == Some(true)
  }

  /** The session parameters sent to Stripe. */
  datatype SessionParams = SessionParams(
    customer: string,
    productName: string,
    unitAmount: nat,
    userId: string,
    tier: string,
    successUrl: string,
    cancelUrl: string,
    trialPeriodDays: Option<nat>)

  datatype Checkout = Checkout(params: SessionParams, checkoutUrl: string, sessionId: string)

  /** What Stripe does for one checkout: the customer it would create (None
      when that call raises) and the session it returns for the parameters
      (None when that call raises). */
  datatype StripeCalls = StripeCalls(
    configured: bool,
    newCustomer: Option<string>,
    session: SessionParams -> Option<(string, string)>)

  function Params(u: User, customer: string, tier: string, successUrl: string, cancelUrl: string): (p: SessionParams)
    requires Purchasable(tier)
    ensures p.unitAmount == TierPrice(tier).value && p.tier == tier && p.userId == u.id
    ensures p.trialPeriodDays.Some? <==> !HadTrial(u)
    ensures p.trialPeriodDays.Some? ==> p.trialPeriodDays.value == 1
  {
    SessionParams(customer, "DropSniper AI - " + Title(tier) + " Plan", TierPrice(tier).value,
                  u.id, tier, successUrl, cancelUrl, if HadTrial(u) then None else Some(1))
  }

  /** `POST /payments/create-checkout`: 500 without Stripe, 400 for a tier
      checkout does not sell, 500 when the user's document is gone; the
      stored customer is reused, or a new one is created and stored before
      the session is requested (a failing session call answers 400 with the
      new customer kept). */
  function CreateCheckout(user: User, tier: string, successUrl: string, cancelUrl: string, stripe: StripeCalls, db: Db): (r: Routed<Checkout>)
    ensures !stripe.configured ==> r == Routed(Err(500, "Stripe not configured"), db)
    ensures stripe.configured && !Purchasable(tier) ==> r == Routed(Err(400, "Invalid subscription tier"), db)
    ensures r.response.Ok? ==>
      && Purchasable(tier)
      && UserById(db.users, user.id).Some?
      && var u := db.users[UserById(db.users, user.id).value];
         && r.response.value.params == Params(u, r.response.value.params.customer, tier, successUrl, cancelUrl)
         && (Present(u.stripeCustomerId) ==> r.response.value.params.customer == u.stripeCustomerId.value && r.db == db)
         && (!Present(u.stripeCustomerId) ==>
               && stripe.newCustomer.Some?
               && r.response.value.params.customer == stripe.newCustomer.value
               && r.db == db.(users := UpdateUser(db.users, user.id, (v: User) => v.(stripeCustomerId := stripe.newCustomer))))
         && stripe.session(r.response.value.params) == Some((r.response.value.checkoutUrl, r.response.value.sessionId))
    // the user's document is gone: `user_doc.get` raises outside the Stripe handler
    ensures stripe.configured && Purchasable(tier) && UserById(db.users, user.id).None? ==>
      r == Routed(Err(500, "'NoneType' object has no attribute 'get'"), db)
    // Stripe errors answer 400; a new customer is stored before the session is requested
    ensures stripe.configured && Purchasable(tier) && UserById(db.users, user.id).Some? ==>
      var u := db.users[UserById(db.users, user.id).value];
      && (!Present(u.stripeCustomerId) && stripe.newCustomer.None? ==>
            r.response.Fail? && r.response.error.status == 400 && r.db == db)
      && (Present(u.stripeCustomerId) && stripe.session(Params(u, u.stripeCustomerId.value, tier, successUrl, cancelUrl)).None? ==>
            r.response.Fail? && r.response.error.status == 400 && r.db == db)
      && (!Present(u.stripeCustomerId) && stripe.newCustomer.Some?
          && stripe.session(Params(u, stripe.newCustomer.value, tier, successUrl, cancelUrl)).None? ==>
            && r.response.Fail? && r.response.error.status == 400
            && r.db == db.(users := UpdateUser(db.users, user.id, (v: User) => v.(stripeCustomerId := stripe.newCustomer))))
  {
    if !stripe.configured then Routed(Err(500, "Stripe not configured"), db)
    else if !Purchasable(tier) then Routed(Err(400, "Invalid subscription tier"), db)
    else match UserById(db.users, user.id)
      case None => Routed(Err(500, "'NoneType' object has no attribute 'get'"), db)
      case Some(k) =>
        var u := db.users[k];
        var customer := if Present(u.stripeCustomerId) then u.stripeCustomerId else stripe.newCustomer;
        match customer
        case None => Routed(Err(400, "customer creation failed"), db)
        case Some(cid) =>
          var db1 := if Present(u.stripeCustomerId) then db
                     else db.(users := UpdateUser(db.users, user.id, (v: User) => v.(stripeCustomerId := Some(cid))));
          var params := Params(u, cid, tier, successUrl, cancelUrl);
          match stripe.session(params)
          case None => Routed(Err(400, "session creation failed"), db1)
          case Some((url, id)) => Routed(Ok(Checkout(params, url, id)), db1)
  }

  // -------------------------------------------------------------- webhook

  datatype Event =
    | SessionCompleted(userId: string, tier: string, subscription: Option<string>)
    | SubscriptionDeleted(customerId: string)
    | PaymentFailed(failedCustomer: Option<string>)
    | OtherEvent(eventType: string)

  /** The outcome of `construct_event` on the request. */
  datatype Construct = Constructed(event: Event) | InvalidPayload | InvalidSignature

  function ByCustomer(users: seq<User>, customerId: string): (r: Option<nat>)
    ensures r.Some? ==> r.value < |users| && users[r.value].stripeCustomerId == Some(customerId)
  {
    FirstIndex(users, (u: User) => u.stripeCustomerId == Some(customerId))
  }

  /** The subscription fields a completed checkout writes. */
  function Subscribe(u: User, tier: string, subscription: Option<string>, now: int): User {
    u.(subscriptionTier := tier, stripeSubscriptionId := subscription, subscriptionUpdatedAt := Some(now))
  }

  /** The subscription fields a cancellation writes. */
  function Cancel(u: User, now: int): User {
    u.(subscriptionTier := "free", stripeSubscriptionId := None, subscriptionUpdatedAt := Some(now))
  }

  function ApplyEvent(event: Event, db: Db, now: int): Db {
    match event
    case SessionCompleted(userId, tier, subscription) =>
      db.(users := UpdateUser(db.users, userId, (u: User) => Subscribe(u, tier, subscription, now)))
    case SubscriptionDeleted(customerId) =>
      (match ByCustomer(db.users, customerId)
       case None => db
       case Some(k) => db.(users := db.users[k := Cancel(db.users[k], now)]))
    case PaymentFailed(customerId) =>
      db.(paymentEvents := db.paymentEvents + [PaymentEvent("payment_failed", customerId, now)])
    case OtherEvent(_) => db
  }

  /** `POST /payments/webhook`: 400 for a payload or signature Stripe
      rejects; otherwise the event's transition and "success". */
  function Webhook(c: Construct, db: Db, now: int): (r: Routed<string>)
    ensures c.InvalidPayload? ==> r == Routed(Err(400, "Invalid payload"), db)
    ensures c.InvalidSignature? ==> r == Routed(Err(400, "Invalid signature"), db)
    ensures c.Constructed? ==> r.response == Ok("success")
    ensures c.Constructed? && c.event.OtherEvent? ==> r.db == db
    ensures c.Constructed? && c.event.PaymentFailed? ==>
      r.db == db.(paymentEvents := db.paymentEvents + [PaymentEvent("payment_failed", c.event.failedCustomer, now)])
    ensures c.Constructed? && (c.event.SessionCompleted? || c.event.SubscriptionDeleted?) ==>
      r.db == db.(users := r.db.users) && |r.db.users| == |db.users|
  {
    match c
    case InvalidPayload => Routed(Err(400, "Invalid payload"), db)
    case InvalidSignature => Routed(Err(400, "Invalid signature"), db)
    case Constructed(event) => Routed(Ok("success"), ApplyEvent(event, db, now))
  }

  /** A completed checkout puts its user on the tier with the subscription
      id; only the subscription fields change. */
  lemma CompletedSubscribes(userId: string, tier: string, subscription: Option<string>, db: Db, now: int)
    requires UserById(db.users, userId).Some?
    ensures var k := UserById(db.users, userId).value;
      var after := Webhook(Constructed(SessionCompleted(userId, tier, subscription)), db, now).db.users;
      && after[k].subscriptionTier == tier
      && after[k].stripeSubscriptionId == subscription
      && after[k].(subscriptionTier := db.users[k].subscriptionTier,
                   stripeSubscriptionId := db.users[k].stripeSubscriptionId,
                   subscriptionUpdatedAt := db.users[k].subscriptionUpdatedAt) == db.users[k]
  {
  }

  /** Checkout completed and then the subscription deleted, for the
      customer stored on that user, leaves the user on the free tier with
      no subscription. */
  lemma CompletedThenDeleted(userId: string, customerId: string, tier: string, subscription: Option<string>, db: Db, t1: int, t2: int)
    requires UserById(db.users, userId).Some?
    requires ByCustomer(db.users, customerId) == UserById(db.users, userId)
    ensures var k := UserById(db.users, userId).value;
      var mid := Webhook(Constructed(SessionCompleted(userId, tier, subscription)), db, t1).db;
      var end := Webhook(Constructed(SubscriptionDeleted(customerId)), mid, t2).db;
      end.users[k].subscriptionTier == "free" && end.users[k].stripeSubscriptionId.None?
  {
    var k := UserById(db.users, userId).value;
    var mid := Webhook(Constructed(SessionCompleted(userId, tier, subscription)), db, t1).db;
    forall j | 0 <= j < k ensures mid.users[j].stripeCustomerId != Some(customerId) {
      assert mid.users[j] == db.users[j];
    }
    assert mid.users[k].stripeCustomerId == Some(customerId);
    FirstIndexAt(mid.users, (u: User) => u.stripeCustomerId == Some(customerId), k);
  }

  /** No route of this module writes `had_trial`. */
  lemma WebhookKeepsTrialFlags(c: Construct, db: Db, now: int)
    ensures |Webhook(c, db, now).db.users| == |db.users|
    ensures forall j :: 0 <= j < |db.users| ==> Webhook(c, db, now).db.users[j].hadTrial == db.users[j].hadTrial
  {
  }

  lemma CheckoutKeepsTrialFlags(user: User, tier: string, s: string, x: string, stripe: StripeCalls, db: Db)
    ensures |CreateCheckout(user, tier, s, x, stripe, db).db.users| == |db.users|
    ensures forall j :: 0 <= j < |db.users| ==> CreateCheckout(user, tier, s, x, stripe, db).db.users[j].hadTrial == db.users[j].hadTrial
  {
  }

  /** As written, a user who never had the flag set gets the trial again
      after a completed, paid checkout: the next checkout offers it once
      more. */
  lemma TrialOfferedAgain(userId: string, tier: string, subscription: Option<string>, db: Db, now: int)
    requires UserById(db.users, userId).Some? && !HadTrial(db.users[UserById(db.users, userId).value])
    ensures var after := Webhook(Constructed(SessionCompleted(userId, tier, subscription)), db, now).db;
      !HadTrial(after.users[UserById(db.users, userId).value])
  {
  }

  /** The evidently intended transition: a completed checkout also records
      that the user has had the trial. */
  function ApplyEventIntended(event: Event, db: Db, now: int): Db {
    match event
    case SessionCompleted(userId, tier, subscription) =>
      db.(users := UpdateUser(db.users, userId, (u: User) => Subscribe(u, tier, subscription, now).(hadTrial := Some(true))))
    case _ => ApplyEvent(event, db, now)
  }

  function WebhookIntended(c: Construct, db: Db, now: int): (r: Routed<string>)
    ensures c.Constructed? ==> r.response == Ok("success")
    ensures !c.Constructed? ==> r.response.Fail? && r.db == db
  {
    match c
    case InvalidPayload => Routed(Err(400, "Invalid payload"), db)
    case InvalidSignature => Routed(Err(400, "Invalid signature"), db)
    case Constructed(event) => Routed(Ok("success"), ApplyEventIntended(event, db, now))
  }

  /** With the flag recorded, the next checkout of that user carries no
      trial. */
  lemma TrialOnceWhenIntended(user: User, tier: string, subscription: Option<string>, db: Db, now: int,
                              t2: string, s: string, x: string, stripe: StripeCalls)
    requires UserById(db.users, user.id).Some?
    ensures var after := WebhookIntended(Constructed(SessionCompleted(user.id, tier, subscription)), db, now).db;
      var r := CreateCheckout(user, t2, s, x, stripe, after);
      r.response.Ok? ==> r.response.value.params.trialPeriodDays.None?
  {
    var after := WebhookIntended(Constructed(SessionCompleted(user.id, tier, subscription)), db, now).db;
    var k := UserById(db.users, user.id).value;
    assert after.users[k].hadTrial == Some(true);
    assert UserById(after.users, user.id) == Some(k) by {
      forall j | 0 <= j < k ensures after.users[j].id != user.id {
        assert after.users[j] == db.users[j];
      }
      FirstIndexAt(after.users, (u: User) => u.id == user.id, k);
    }
  }

  // ------------------------------------------------- status and the portal

  datatype Subscription = Subscription(tier: string, customerId: Option<string>, subscriptionId: Option<string>, updatedAt: Option<int>)

  /** `GET /payments/subscription`: 500 when the user's document is gone. */
  function GetSubscription(user: User, db: Db): (r: Response<Subscription>)
    ensures r.Fail? <==> UserById(db.users, user.id).None?
    ensures r.Ok? ==> var u := db.users[UserById(db.users, user.id).value];
      r.value == Subscription(u.subscriptionTier, u.stripeCustomerId, u.stripeSubscriptionId, u.subscriptionUpdatedAt)
  {
    match UserById(db.users, user.id)
    case None => Err(500, "'NoneType' object has no attribute 'get'")
    case Some(k) =>
      var u := db.users[k];
      Ok(Subscription(u.subscriptionTier, u.stripeCustomerId, u.stripeSubscriptionId, u.subscriptionUpdatedAt))
  }

  /** `POST /payments/portal`: 400 unless the user has a customer id;
      `portal` is the session URL Stripe returns (None when it raises). */
  function CreatePortal(user: User, db: Db, portal: string -> Option<string>): (r: Response<string>)
    ensures UserById(db.users, user.id).Some? && !Present(db.users[UserById(db.users, user.id).value].stripeCustomerId) ==>
      r == Err(400, "No subscription found")
    ensures r.Ok? ==> UserById(db.users, user.id).Some?
    ensures r.Ok? ==>
      var c := db.users[UserById(db.users, user.id).value].stripeCustomerId;
      Present(c) && portal(c.value) == Some(r.value)
  {
    match UserById(db.users, user.id)
    case None => Err(500, "'NoneType' object has no attribute 'get'")
    case Some(k) =>
      var c := db.users[k].stripeCustomerId;
      if !Present(c) then Err(400, "No subscription found")
      else match portal(c.value)
        case None => Err(400, "portal session failed")
        case Some(url) => Ok(url)
  }
}

=== FILE: products.dfy ===
/** The product routes (`backend/routes/products.py`): the filtered,
    score-ordered listing, lookup by id, and the sourcing brief with its
    cost arithmetic. Money is `real`, without the source's float rounding. */
module Products {
  import opened Common
  import opened Models
  import opened Sorting

  function Score(p: Product): int {
    p.overallScore
  }

  /** The query `get_products` builds: a category filter when the category
      is a non-empty string, a score floor when `min_score` is truthy (0
      and None set no floor). */
  predicate Matches(p: Product, category: Option<string>, minScore: Option<int>) {
    && (Present(category) ==> p.category == category.value)
    && (minScore.Some? && minScore.value != 0 ==> p.overallScore >= minScore.value)
  }

  function Matching(products: seq<Product>, category: Option<string>, minScore: Option<int>): (m: seq<Product>)
    ensures forall p :: p in m <==> p in products && Matches(p, category, minScore)
  {
    Filter(products, (p: Product) => Matches(p, category, minScore))
  }

  /** `GET /products`: the matching products, best score first, at most
      `limit` of them; none left out scores higher than one kept. */
  function ListProducts(products: seq<Product>, category: Option<string>, minScore: Option<int>, limit: nat): (r: seq<Product>)
    ensures var matching := Matching(products, category, minScore);
      && |r| == (if |matching| < limit then |matching| else limit)
      && SortedDesc(r, Score)
      && multiset(r) <= multiset(matching)
      && (forall a, b :: a in r && b in multiset(matching) - multiset(r) ==> Score(a) >= Score(b))
    ensures forall p :: p in r ==> p in products && Matches(p, category, minScore)
  {
    var matching := Matching(products, category, minScore);
    var top := TopN(matching, Score, limit);
    forall p | p in top ensures p in products && Matches(p, category, minScore) {
      assert p in multiset(top);
      assert p in multiset(matching);
    }
    top
  }

  /** With no filter every product matches, so the listing is a top-N of
      the whole collection. */
  lemma UnfilteredListsAll(products: seq<Product>, limit: nat)
    ensures |ListProducts(products, None, None, limit)| == if |products| < limit then |products| else limit
    ensures |ListProducts(products, Some(""), Some(0), limit)| == if |products| < limit then |products| else limit
  {
    FilterKeepsAll(products, (p: Product) => Matches(p, None, None));
    FilterKeepsAll(products, (p: Product) => Matches(p, Some(""), Some(0)));
  }

  /** `GET /products/top`: the same ordering with no filter. */
  function TopProducts(products: seq<Product>, limit: nat): (r: seq<Product>)
    ensures |r| == if |products| < limit then |products| else limit
    ensures SortedDesc(r, Score)
    ensures multiset(r) <= multiset(products)
    ensures forall a, b :: a in r && b in multiset(products) - multiset(r) ==> Score(a) >= Score(b)
  {
    TopN(products, Score, limit)
  }

  /** The top route is the listing with no filter. */
  lemma TopIsUnfilteredListing(products: seq<Product>, limit: nat)
    ensures TopProducts(products, limit) == ListProducts(products, None, None, limit)
  {
    FilterKeepsAll(products, (p: Product) => Matches(p, None, None));
  }

  /** `find_one({"id": id})`, 404 when absent. */
  function GetProduct(products: seq<Product>, id: string): (r: Response<Product>)
    ensures r.Ok? ==> r.value in products && r.value.id == id
    ensures r.Fail? <==> forall p :: p in products ==> p.id != id
    ensures r.Fail? ==> r.error == HttpError(404, "Product not found")
  {
    match FirstIndex(products, (p: Product) => p.id == id)
    case None => Err(404, "Product not found")
    case Some(i) => Ok(products[i])
  }

  datatype ProductBrief = ProductBrief(
    productId: string,
    productName: string,
    bestSupplier: Supplier,
    alternativeSuppliers: seq<Supplier>,
    unitCost: real,
    shippingCost: real,
    totalCost: real,
    recommendedPrice: real,
    grossMargin: real,
    estimatedAdCpa: real,
    netProfitPerUnit: real,
    trademarkClear: bool,
    supplierVerified: bool,
    shippingReasonable: bool,
    competitionAcceptable: bool,
    trendPositive: bool)

  const EstimatedCpa: real := 8.0
  const CompetitionCeiling := 50

  /** The stand-in supplier when a product lists none. */
  function GenericSupplier(p: Product): (s: Supplier)
    ensures s.unitCost == p.sourceCost && s.shippingCost == 2.5
  {
    Supplier("Generic Supplier", "aliexpress", p.sourceCost, 2.5, "10-15", 4.5, 5000)
  }

  function BestSupplier(p: Product): (s: Supplier)
    ensures |p.suppliers| > 0 ==> s == p.suppliers[0]
    ensures |p.suppliers| == 0 ==> s == GenericSupplier(p)
  {
    if |p.suppliers| > 0 then p.suppliers[0] else GenericSupplier(p)
  }

  /** `GET /products/{id}/brief`. */
  function Brief(p: Product): (b: ProductBrief)
    ensures b.productId == p.id && b.bestSupplier == BestSupplier(p)
    ensures b.unitCost == b.bestSupplier.unitCost && b.shippingCost == b.bestSupplier.shippingCost
    ensures b.totalCost == b.unitCost + b.shippingCost
    ensures b.recommendedPrice == p.recommendedPrice && b.productName == p.name
    ensures b.grossMargin == p.recommendedPrice - b.totalCost
    ensures b.netProfitPerUnit == b.grossMargin - EstimatedCpa
    ensures b.competitionAcceptable <==> p.activeFbAds < CompetitionCeiling
    ensures b.trendPositive <==> p.trendDirection == "up"
    ensures b.trademarkClear <==> !p.trademarkRisk
  {
    var best := BestSupplier(p);
    var total := best.unitCost + best.shippingCost;
    var gross := p.recommendedPrice - total;
    ProductBrief(
      p.id, p.name, best,
      if |p.suppliers| > 1 then p.suppliers[1..] else [],
      best.unitCost, best.shippingCost, total, p.recommendedPrice, gross, EstimatedCpa,
      gross - EstimatedCpa,
      !p.trademarkRisk, true, true,
      p.activeFbAds < CompetitionCeiling,
      p.trendDirection == "up")
  }

  /** The best supplier and the alternatives together are the product's
      supplier list, in order, when it has any. */
  lemma SuppliersSplit(p: Product)
    requires |p.suppliers| > 0
    ensures [Brief(p).bestSupplier] + Brief(p).alternativeSuppliers == p.suppliers
  {
    if |p.suppliers| == 1 {
      assert [p.suppliers[0]] == p.suppliers;
    } else {
      assert [p.suppliers[0]] + p.suppliers[1..] == p.suppliers;
    }
  }

  /** Without suppliers the profit comes from the source cost, shipping at
      2.50 and the fixed ad cost. */
  lemma GenericProfit(p: Product)
    requires |p.suppliers| == 0
    ensures Brief(p).netProfitPerUnit == p.recommendedPrice - p.sourceCost - 2.5 - 8.0
    ensures Brief(p).alternativeSuppliers == []
  {
  }

  /** `GET /products/{id}/brief` as a route: 404 for an unknown id. */
  function GetProductBrief(products: seq<Product>, id: string): (r: Response<ProductBrief>)
    ensures r.Fail? <==> GetProduct(products, id).Fail?
    ensures r.Ok? ==> r.value == Brief(GetProduct(products, id).value)
  {
    match GetProduct(products, id)
    case Fail(e) => Fail(e)
    case Ok(p) => Ok(Brief(p))
  }
}

=== FILE: scanners.dfy ===
/** The sample-data scanners of `backend/services/scanners.py`: the
    threshold and category filters of the four trend sources, the Meta ad
    scan, the competitor store scan with new-product detection, and the
    engine that merges the four sources. Random draws are parameters in the
    ranges `random` produces; timestamps are left out. Prices are cents. */
module Scanners {
  import opened Common
  import opened Strings
  import CompetitorSpy

  datatype TrendData =
    | TikTokTrend(views: int, hashtag: string, growthRate: int)
    | AmazonTrend(rankChange: int, category: string, currentPriceCents: int)
    | AliExpressTrend(orders30d: int, priceCents: int, ratingTenths: int, orderVelocity: real)
    | GoogleTrend(searchTerm: string, growthPercent: int, monthlyVolume: int, trendDirection: string)

  /** A scanned item: source tag, display name and source-specific data. */
  datatype RawProduct = RawProduct(source: string, name: string, trendData: TrendData)

  // ---------------------------------------------------------------- TikTok

  datatype TikTokSample = TikTokSample(name: string, views: int, hashtag: string)

  const ViralViews := 10000000

  const TikTokSamples: seq<TikTokSample> := [
    TikTokSample("Mini Portable Blender", 47000000, "#tiktokmademebuyit"),
    TikTokSample("LED Strip Lights", 32000000, "#roomdecor"),
    TikTokSample("Cloud Slippers", 28000000, "#comfortfinds"),
    TikTokSample("Magnetic Phone Mount", 19000000, "#carmusthaves"),
    TikTokSample("Ice Roller Face Massager", 15000000, "#skincareessentials"),
    TikTokSample("Sunset Projection Lamp", 41000000, "#aestheticroom"),
    TikTokSample("Smart Water Bottle", 12000000, "#hydrationreminder"),
    TikTokSample("Portable Neck Massager", 22000000, "#painrelief")
  ]

  predicate IsViral(s: TikTokSample) {
    s.views >= ViralViews
  }

  /** The TikTok scan over `samples`; `growth[i]` is the growth-rate draw
      for sample i. */
  function TikTokScan(samples: seq<TikTokSample>, growth: seq<int>): (r: seq<RawProduct>)
    requires |growth| == |samples|
    requires forall i :: 0 <= i < |growth| ==> 50 <= growth[i] <= 400
    ensures |r| == |Filter(samples, IsViral)|
    ensures forall k :: 0 <= k < |r| ==>
      && r[k].source == "tiktok"
      && r[k].name == Filter(samples, IsViral)[k].name
      && r[k].trendData.TikTokTrend?
      && r[k].trendData.views == Filter(samples, IsViral)[k].views >= ViralViews
      && r[k].trendData.hashtag == Filter(samples, IsViral)[k].hashtag
      && 50 <= r[k].trendData.growthRate <= 400
  {
    if |samples| == 0 then []
    else
      var rest := TikTokScan(samples[1..], growth[1..]);
      var s := samples[0];
      if IsViral(s) then [RawProduct("tiktok", s.name, TikTokTrend(s.views, s.hashtag, growth[0]))] + rest
      else rest
  }

  // ---------------------------------------------------------------- Amazon

  datatype AmazonSample = AmazonSample(name: string, rankChange: int, category: string, priceCents: int)

  const AmazonSamples: seq<AmazonSample> := [
    AmazonSample("Wireless Earbuds Pro", 85, "Electronics", 2999),
    AmazonSample("Air Fryer Liner Set", 120, "Home & Kitchen", 1299),
    AmazonSample("Vitamin C Serum", 95, "Beauty", 1899),
    AmazonSample("Resistance Bands Set", 78, "Sports & Outdoors", 1599),
    AmazonSample("Pet Hair Remover", 150, "Pet Supplies", 999),
    AmazonSample("LED Desk Lamp", 65, "Home & Kitchen", 2499),
    AmazonSample("Posture Corrector Belt", 110, "Health & Personal Care", 1999)
  ]

  function AmazonProduct(s: AmazonSample): RawProduct {
    RawProduct("amazon", s.name, AmazonTrend(s.rankChange, s.category, s.priceCents))
  }

  /** Whether an item passes the optional category filter. */
  predicate InCategory(category: Option<string>, s: AmazonSample) {
    category.None? || s.category == category.value
  }

  /** The Movers & Shakers scan: every item without a category, otherwise
      exactly the items of that category, in sample order. */
  function AmazonScan(samples: seq<AmazonSample>, category: Option<string>): (r: seq<RawProduct>)
    ensures |r| == |Filter(samples, s => InCategory(category, s))|
    ensures forall k :: 0 <= k < |r| ==> r[k] == AmazonProduct(Filter(samples, s => InCategory(category, s))[k])
    ensures category.None? ==> |r| == |samples|
    ensures forall k :: 0 <= k < |r| ==>
      && r[k].source == "amazon" && r[k].trendData.AmazonTrend?
      && (category.Some? ==> r[k].trendData.category == category.value)
  {
    if |samples| == 0 then []
    else
      var rest := AmazonScan(samples[1..], category);
      if InCategory(category, samples[0]) then [AmazonProduct(samples[0])] + rest else rest
  }

  // ------------------------------------------------------------- AliExpress

  datatype AliSample = AliSample(name: string, orders: int, priceCents: int, ratingTenths: int)

  const AliSamples: seq<AliSample> := [
    AliSample("Mini Projector HD", 15000, 4500, 47),
    AliSample("Wireless Charging Pad", 28000, 850, 48),
    AliSample("Portable Fan Necklace", 32000, 620, 46),
    AliSample("LED Book Light", 18000, 1140, 45),
    AliSample("Silicone Kitchen Tools Set", 22000, 1280, 47),
    AliSample("Bluetooth Sleep Headband", 9500, 1420, 44),
    AliSample("Electric Lunch Box", 12000, 2500, 46),
    AliSample("Magnetic Cable Organizer", 45000, 350, 48)
  ]

  /** The AliExpress scan keeps every item; order velocity is orders per
      day over 30 days. */
  function AliExpressScan(samples: seq<AliSample>): (r: seq<RawProduct>)
    ensures |r| == |samples|
    ensures forall k :: 0 <= k < |r| ==>
      && r[k].source == "aliexpress" && r[k].name == samples[k].name
      && r[k].trendData.AliExpressTrend?
      && r[k].trendData.orders30d == samples[k].orders
      && r[k].trendData.orderVelocity * 30.0 == samples[k].orders as real
  {
    if |samples| == 0 then []
    else
      var s := samples[0];
      [RawProduct("aliexpress", s.name, AliExpressTrend(s.orders, s.priceCents, s.ratingTenths, s.orders as real / 30.0))]
        + AliExpressScan(samples[1..])
  }

  // ---------------------------------------------------------- Google Trends

  datatype TermSample = TermSample(term: string, growth: int, volume: int)

  const RisingGrowth := 50

  const TermSamples: seq<TermSample> := [
    TermSample("portable neck fan", 340, 125000),
    TermSample("sunset lamp", 280, 185000),
    TermSample("smart water bottle", 120, 67000),
    TermSample("led book lamp", 180, 89000),
    TermSample("cloud slides", 95, 210000),
    TermSample("magnetic phone holder car", 45, 98000),
    TermSample("mini projector portable", 75, 156000),
    TermSample("ice face roller", 220, 72000)
  ]

  predicate IsRising(t: TermSample) {
    t.growth >= RisingGrowth
  }

  function Direction(growth: int): string {
    if growth > 0 then "up" else "down"
  }

  /** The rising-terms scan: terms with growth of at least 50, named by the
      title-cased term, with direction "up" iff growth is positive. */
  function GoogleTrendsScan(terms: seq<TermSample>): (r: seq<RawProduct>)
    ensures |r| == |Filter(terms, IsRising)|
    ensures forall k :: 0 <= k < |r| ==>
      var t := Filter(terms, IsRising)[k];
      && r[k].source == "google_trends"
      && r[k].name == Title(t.term)
      && r[k].trendData == GoogleTrend(t.term, t.growth, t.volume, Direction(t.growth))
  {
    if |terms| == 0 then []
    else
      var t := terms[0];
      var rest := GoogleTrendsScan(terms[1..]);
      if IsRising(t) then [RawProduct("google_trends", Title(t.term), GoogleTrend(t.term, t.growth, t.volume, Direction(t.growth)))] + rest
      else rest
  }

  /** A rising term always has growth above zero, so every emitted term
      points up: the "down" branch is unreachable from the filter. */
  lemma GoogleTrendsAllUp(terms: seq<TermSample>)
    ensures forall p :: p in GoogleTrendsScan(terms) ==> p.trendData.GoogleTrend? && p.trendData.trendDirection == "up"
  {
    var r := GoogleTrendsScan(terms);
    forall p | p in r
      ensures p.trendData.GoogleTrend? && p.trendData.trendDirection == "up"
    {
      var k :| 0 <= k < |r| && r[k] == p;
      assert Filter(terms, IsRising)[k] in Filter(terms, IsRising);
    }
  }

  // ------------------------------------------------------------ Meta ad scan

  datatype Advertiser = Advertiser(name: string, adCount: int)

  datatype AdScan = AdScan(
    product: string,
    totalAds: int,
    activeAds: int,
    topAdvertisers: seq<Advertiser>,
    commonHooks: seq<string>,
    avgAdDurationDays: int)

  const CommonHooks: seq<string> := ["Limited time offer", "Free shipping", "50% off today", "As seen on TikTok"]

  /** `min(5, total // 10 + 1)`. */
  function AdvertiserSlots(total: nat): nat {
    if total / 10 + 1 < 5 then total / 10 + 1 else 5
  }

  /** `int(total * 0.7)` for 5 <= total <= 100. The binary double nearest
      0.7 is slightly below it, and the product rounds back to the exact
      tenth for every total in range except 90, where it lands just under
      63 and truncates to 62. */
  function ActiveAds(total: int): (active: int)
    requires 5 <= total <= 100
    ensures 10 * active <= 7 * total < 10 * active + 20
    ensures total != 90 ==> 10 * active <= 7 * total < 10 * active + 10
    ensures total == 90 ==> active == 62
  {
    if total == 90 then 62 else (7 * total) / 10
  }

  function Advertisers(counts: seq<int>, from: nat): (r: seq<Advertiser>)
    ensures |r| == |counts|
    ensures forall i :: 0 <= i < |r| ==> r[i] == Advertiser("Store_" + NatToString(from + i), counts[i])
  {
    if |counts| == 0 then [] else [Advertiser("Store_" + NatToString(from), counts[0])] + Advertisers(counts[1..], from + 1)
  }

  /** `scan_product_ads`: `adCount`, the per-advertiser counts and the
      duration are the random draws. */
  function ScanProductAds(name: string, adCount: int, advertiserAds: seq<int>, duration: int): (s: AdScan)
    requires 5 <= adCount <= 100
    requires |advertiserAds| == AdvertiserSlots(adCount)
    requires forall i :: 0 <= i < |advertiserAds| ==> 1 <= advertiserAds[i] <= 10
    requires 7 <= duration <= 45
    ensures s.product == name
    ensures 5 <= s.totalAds <= 100 && 0 <= s.activeAds <= s.totalAds
    ensures |s.topAdvertisers| == AdvertiserSlots(s.totalAds) <= 5
    ensures forall i :: 0 <= i < |s.topAdvertisers| ==>
      s.topAdvertisers[i].name == "Store_" + NatToString(i) && 1 <= s.topAdvertisers[i].adCount <= 10
    ensures 7 <= s.avgAdDurationDays <= 45
  {
    AdScan(name, adCount, ActiveAds(adCount), Advertisers(advertiserAds, 0), CommonHooks, duration)
  }

  datatype Recommendation = LowCompetition | HighCompetition

  datatype ProductAnalysis = ProductAnalysis(productName: string, competition: AdScan, recommendation: Recommendation)

  /** The engine's `analyze_product`. */
  function AnalyzeProduct(ads: AdScan): (a: ProductAnalysis)
    ensures a.productName == ads.product && a.competition == ads
    ensures a.recommendation == LowCompetition <==> ads.totalAds < 50
  {
    ProductAnalysis(ads.product, ads, if ads.totalAds < 50 then LowCompetition else HighCompetition)
  }

  // ------------------------------------------------------------ store scan

  const StoreSampleNames: seq<string> := [
    "Premium Wireless Earbuds", "Smart LED Strip Kit", "Portable Blender Pro",
    "Ergonomic Neck Pillow", "UV Phone Sanitizer", "Mini Drone Camera",
    "Heated Eye Mask", "Electric Scalp Massager"
  ]

  datatype StoreProduct = StoreProduct(name: string, priceCents: int, isNew: bool)

  datatype StoreScan = StoreScan(
    storeUrl: string,
    storeName: string,
    products: seq<StoreProduct>,
    totalProducts: nat,
    newProductsCount: nat)

  /** The store name: the text after the last "//", cut at the first '.',
      title-cased. */
  function ScanStoreName(url: string): string {
    var parts := Split(url, "//");
    Title(BeforeFirst(parts[|parts| - 1], '.'))
  }

  function StoreProducts(picks: seq<nat>, prices: seq<int>, from: nat): (r: seq<StoreProduct>)
    requires |prices| == |picks|
    requires forall i :: 0 <= i < |picks| ==> picks[i] < |StoreSampleNames|
    ensures |r| == |picks|
    ensures forall i :: 0 <= i < |r| ==>
      r[i] == StoreProduct(StoreSampleNames[picks[i]], prices[i], from + i < 2)
  {
    if |picks| == 0 then []
    else [StoreProduct(StoreSampleNames[picks[0]], prices[0], from < 2)] + StoreProducts(picks[1..], prices[1..], from + 1)
  }

  function CountNew(products: seq<StoreProduct>): nat {
    if |products| == 0 then 0 else (if products[0].isNew then 1 else 0) + CountNew(products[1..])
  }

  /** When exactly the first two of at least two products are new, two
      products are counted as new. */
  lemma {:induction false} CountFirstTwoNew(products: seq<StoreProduct>, from: nat)
    requires from <= 2 && |products| + from >= 2
    requires forall i :: 0 <= i < |products| ==> (products[i].isNew <==> from + i < 2)
    ensures CountNew(products) == 2 - from
    decreases |products|
  {
    if |products| > 0 && from < 2 {
      CountFirstTwoNew(products[1..], from + 1);
    } else if |products| > 0 {
      CountNoneNew(products);
    }
  }

  lemma {:induction false} CountNoneNew(products: seq<StoreProduct>)
    requires forall i :: 0 <= i < |products| ==> !products[i].isNew
    ensures CountNew(products) == 0
  {
    if |products| > 0 {
      CountNoneNew(products[1..]);
    }
  }

  /** `scan_store`: a sample of 3 to 6 distinct names, priced between 19.99
      and 79.99, of which exactly the first two are new. */
  function ScanStore(url: string, picks: seq<nat>, prices: seq<int>): (s: StoreScan)
    requires ValidSample(picks, |StoreSampleNames|, 3, 6)
    requires |prices| == |picks|
    requires forall i :: 0 <= i < |prices| ==> 1999 <= prices[i] <= 7999
    ensures s.storeUrl == url && s.storeName == ScanStoreName(url)
    ensures s.totalProducts == |s.products| == |picks| && 3 <= |s.products| <= 6
    ensures forall i :: 0 <= i < |s.products| ==>
      && s.products[i].name == StoreSampleNames[picks[i]]
      && 1999 <= s.products[i].priceCents <= 7999
      && (s.products[i].isNew <==> i < 2)
    ensures s.newProductsCount == 2
  {
    var products := StoreProducts(picks, prices, 0);
    CountFirstTwoNew(products, 0);
    StoreScan(url, ScanStoreName(url), products, |products|, CountNew(products))
  }

  function StoreNames(products: seq<StoreProduct>): (names: seq<string>)
    ensures |names| == |products|
    ensures forall i :: 0 <= i < |products| ==> names[i] == products[i].name
  {
    if |products| == 0 then [] else [products[0].name] + StoreNames(products[1..])
  }

  /** `detect_new_products`: the scanned products whose name was not seen
      before, in scan order. */
  function DetectNewProducts(scan: StoreScan, previous: seq<string>): (r: seq<StoreProduct>)
    ensures |r| <= |scan.products|
    ensures forall p :: p in r <==> p in scan.products && p.name !in previous
  {
    Filter(scan.products, (p: StoreProduct) => p.name !in previous)
  }

  /** The loop keeps scan order: the new products of a scan split in two
      are those of the first part followed by those of the second, and one
      product is kept, once, exactly when its name is new. */
  lemma NewProductsInScanOrder(scan: StoreScan, a: seq<StoreProduct>, b: seq<StoreProduct>, p: StoreProduct, previous: seq<string>)
    ensures DetectNewProducts(scan.(products := a + b), previous)
            == DetectNewProducts(scan.(products := a), previous) + DetectNewProducts(scan.(products := b), previous)
    ensures DetectNewProducts(scan.(products := [p]), previous) == if p.name !in previous then [p] else []
  {
    FilterAppend(a, b, (q: StoreProduct) => q.name !in previous);
  }

  /** The names of the new products are exactly the names the store-change
      diff reports as added. */
  lemma NewProductsAreAdded(scan: StoreScan, previous: seq<string>)
    ensures (set p | p in DetectNewProducts(scan, previous) :: p.name)
         == CompetitorSpy.DetectStoreChanges(previous, StoreNames(scan.products)).added
  {
    var names := StoreNames(scan.products);
    var added := CompetitorSpy.DetectStoreChanges(previous, names).added;
    forall n | n in added
      ensures exists p :: p in DetectNewProducts(scan, previous) && p.name == n
    {
      var i :| 0 <= i < |names| && names[i] == n;
      assert scan.products[i] in DetectNewProducts(scan, previous);
    }
  }

  // ------------------------------------------------------------ the engine

  datatype EngineScan = EngineScan(totalProducts: nat, products: seq<RawProduct>, sourceStats: map<string, nat>)

  /** `ProductScoutEngine.run_full_scan` over the four source outcomes, in
      source order; `None` is a source that raised instead of returning a
      list. */
  function EngineFullScan(outcomes: seq<Option<seq<RawProduct>>>): (e: EngineScan)
    requires |outcomes| == |ScanSources|
    ensures e.totalProducts == |e.products|
    ensures e.sourceStats.Keys == set s | s in ScanSources
    ensures forall i :: 0 <= i < |ScanSources| ==>
      e.sourceStats[ScanSources[i]] == if outcomes[i].Some? then |outcomes[i].value| else 0
    ensures e.totalProducts == e.sourceStats["tiktok"] + e.sourceStats["amazon"]
                             + e.sourceStats["aliexpress"] + e.sourceStats["google_trends"]
  {
    var parts := EngineParts(outcomes);
    MergeCounts(parts);
    EngineScan(|Flatten(parts)|, Flatten(parts), SourceStats(parts))
  }

  function EngineParts(outcomes: seq<Option<seq<RawProduct>>>): (parts: seq<seq<RawProduct>>)
    requires |outcomes| == |ScanSources|
    ensures |parts| == |outcomes|
    ensures forall i :: 0 <= i < |parts| ==> parts[i] == Yield(outcomes[i])
  {
    [Yield(outcomes[0]), Yield(outcomes[1]), Yield(outcomes[2]), Yield(outcomes[3])]
  }

  /** The merge is the four lists one after the other, in source order. */
  lemma EngineMergeOrder(outcomes: seq<Option<seq<RawProduct>>>)
    requires |outcomes| == |ScanSources|
    ensures EngineFullScan(outcomes).products
         == Yield(outcomes[0]) + Yield(outcomes[1]) + Yield(outcomes[2]) + Yield(outcomes[3])
  {
    FlattenFour(EngineParts(outcomes));
  }

  /** Every TikTok sample has at least 10M views, so all 8 are emitted. */
  lemma TikTokSampleSize(growth: seq<int>)
    requires |growth| == |TikTokSamples|
    requires forall i :: 0 <= i < |growth| ==> 50 <= growth[i] <= 400
    ensures |TikTokScan(TikTokSamples, growth)| == 8
  {
    FilterKeepsAll(TikTokSamples, IsViral);
  }

  /** Without a category the Amazon scan emits all 7 samples. */
  lemma AmazonSampleSize()
    ensures |AmazonScan(AmazonSamples, None)| == 7
  {
  }

  /** One Google Trends sample (growth 45) is below the rising threshold,
      so 7 of the 8 terms are emitted. */
  lemma GoogleSampleSize()
    ensures |GoogleTrendsScan(TermSamples)| == 7
  {
    RisingSamples();
  }

  lemma RisingSamples()
    ensures |Filter(TermSamples, IsRising)| == 7
  {
    var t := TermSamples;
    var g := seq(8, i requires 0 <= i < 8 => t[i].growth);
    assert g == [340, 280, 120, 180, 95, 45, 75, 220];
    forall k | 0 <= k < 8
      ensures t[k..][1..] == t[k + 1..]
    {
    }
    assert |Filter(t[8..], IsRising)| == 0;
    assert |Filter(t[7..], IsRising)| == 1;
    assert |Filter(t[6..], IsRising)| == 2;
    assert |Filter(t[5..], IsRising)| == 2;
    assert |Filter(t[4..], IsRising)| == 3;
    assert |Filter(t[3..], IsRising)| == 4;
    assert |Filter(t[2..], IsRising)| == 5;
    assert |Filter(t[1..], IsRising)| == 6;
    assert t[0..] == t;
  }

}

=== FILE: scheduler.dfy ===
/** The background scheduler (`backend/services/scheduler.py`): per-tier scan
    cadence, the hourly due-check over users with a key, one user's scheduled
    scan and the rows it stores, the nightly archive of yesterday's rows, and
    the daily Telegram report with its fallback chain. Time is integer
    seconds; dates are the `%Y-%m-%d` strings the code compares. The cron
    triggers themselves are modelled as the job table `Start` registers. */
module Scheduler {
  import opened Common
  import opened Models
  import opened Sorting
  import opened Database
  import Tiers
  import AiScanner

  // ------------------------------------------------------------ cadence

  /** Scan interval in hours, indexed by tier level. */
  const FrequencyByLevel: seq<nat> := [24, 12, 6, 4, 2]

  /** `TIER_SCAN_FREQUENCY.get(tier, 24)`. */
  function ScanFrequency(tier: string): (hours: nat)
    ensures tier in Tiers.TierOrder ==> hours == FrequencyByLevel[Tiers.TierLevel(tier)]
    ensures tier !in Tiers.TierOrder ==> hours == 24
  {
    match tier
    case "free" => 24
    case "sniper" => 12
    case "elite" => 6
    case "agency" => 4
    case "enterprise" => 2
    case _ => 24
  }

  /** A higher tier never waits longer between scans. */
  lemma FrequencyMonotone(lower: string, higher: string)
    requires Tiers.TierLevel(lower) <= Tiers.TierLevel(higher)
    ensures ScanFrequency(higher) <= ScanFrequency(lower)
  {
  }

  /** The due-check of `run_scheduled_scans`: never scanned, or at least the
      tier's interval has passed since the last scan. */
  predicate IsDue(tier: string, lastScan: Option<int>, now: int) {
    lastScan.None? || now - lastScan.value >= ScanFrequency(tier) * 3600
  }

  /** Exactly at the interval a user is due; one second earlier not. */
  lemma DueAtThreshold(tier: string, last: int)
    ensures IsDue(tier, Some(last), last + ScanFrequency(tier) * 3600)
    ensures !IsDue(tier, Some(last), last + ScanFrequency(tier) * 3600 - 1)
  {
  }

  /** Once due, a user stays due as time passes. */
  lemma DueStaysDue(tier: string, lastScan: Option<int>, now: int, later: int)
    requires IsDue(tier, lastScan, now) && now <= later
    ensures IsDue(tier, lastScan, later)
  {
  }

  // ----------------------------------------------------------- start/stop

  /** A cron job: its id and trigger time (`hour` None fires every hour). */
  datatype Job = Job(id: string, hour: Option<nat>, minute: nat)

  datatype SchedulerState = SchedulerState(running: bool, jobs: seq<Job>)

  const ReportJob := Job("daily_telegram_report", Some(7), 0)
  const ScanJob := Job("hourly_scan_check", None, 0)
  const ArchiveJob := Job("archive_products", Some(6), 55)

  /** `add_job(..., replace_existing=True)`: a job with the same id is
      replaced. */
  function AddJob(jobs: seq<Job>, j: Job): (r: seq<Job>)
    ensures j in r
    ensures forall x :: x in r && x.id != j.id ==> x in jobs
    ensures forall x :: x in jobs && x.id != j.id ==> x in r
    ensures forall x :: x in r && x.id == j.id ==> x == j
  {
    Filter(jobs, (x: Job) => x.id != j.id) + [j]
  }

  predicate UniqueIds(jobs: seq<Job>) {
    forall i, k :: 0 <= i < k < |jobs| ==> jobs[i].id != jobs[k].id
  }

  function Start(s: SchedulerState): (r: SchedulerState)
    ensures s.running ==> r == s
    ensures r.running
    ensures !s.running ==> ReportJob in r.jobs && ScanJob in r.jobs && ArchiveJob in r.jobs
  {
    if s.running then s
    else SchedulerState(true, AddJob(AddJob(AddJob(s.jobs, ReportJob), ScanJob), ArchiveJob))
  }

  function Stop(s: SchedulerState): (r: SchedulerState)
    ensures !r.running
    ensures !s.running ==> r == s
    ensures r.jobs == s.jobs
  {
    if s.running then s.(running := false) else s
  }

  /** Starting twice is starting once; so is stopping. */
  lemma StartStopIdempotent(s: SchedulerState)
    ensures Start(Start(s)) == Start(s)
    ensures Stop(Stop(s)) == Stop(s)
  {
  }

  /** A fresh start registers exactly the three jobs, once each, and the
      archive fires before the report. */
  lemma FreshStart()
    ensures var r := Start(SchedulerState(false, []));
      && |r.jobs| == 3 && UniqueIds(r.jobs)
      && r.jobs[0] == ReportJob && r.jobs[1] == ScanJob && r.jobs[2] == ArchiveJob
      && ArchiveJob.hour.value * 60 + ArchiveJob.minute < ReportJob.hour.value * 60 + ReportJob.minute
  {
    var j1 := AddJob([], ReportJob);
    assert j1 == [ReportJob];
    var j2 := AddJob(j1, ScanJob);
    assert Filter(j1, (x: Job) => x.id != ScanJob.id) == j1;
    assert j2 == [ReportJob, ScanJob];
    assert Filter(j2, (x: Job) => x.id != ArchiveJob.id) == j2 by {
      assert j2[1..][1..] == [];
    }
  }

  // --------------------------------------------------------- scan results

  /** `x.get("overall_score", x.get("trend_score", 0))` as a numeric sort
      key; it orders the products whenever the sort does not raise and the
      keys are numbers. */
  function ScoreKey(p: map<string, Json>): int {
    NumValue(ScoreValue(p))
  }

  function ScoreValue(p: map<string, Json>): Json {
    Get(p, "overall_score", Get(p, "trend_score", JNum(0)))
  }

  /** Mongo's `.sort("overall_score", -1)`; a missing score sorts as 0. */
  function StoredScore(d: map<string, Json>): int {
    NumValue(Get(d, "overall_score", JNum(0)))
  }

  const MaxDailyRows := 10

  /** The keys of a stored daily-product row. */
  const RowKeys: set<string> := {
    "id", "user_id", "scan_date", "name", "source", "overall_score", "trend_score", "trend_data",
    "source_cost", "recommended_price", "margin_percent", "category", "why_trending",
    "saturation_level", "active_fb_ads", "trend_direction", "estimated_views", "is_active",
    "discovered_at"
  }

  /** The value a stored row holds under `key`, with the code's defaults. */
  function RowValue(p: map<string, Json>, key: string, id: string, userId: string, scanDate: string, nowIso: string): Json {
    match key
    case "id" => JStr(id)
    case "user_id" => JStr(userId)
    case "scan_date" => JStr(scanDate)
    case "name" => Get(p, "name", JStr("Unknown"))
    case "source" => Get(p, "source", JStr("unknown"))
    case "overall_score" => ScoreValue(p)
    case "trend_data" => Get(p, "trend_data", JObj(map[]))
    case "category" => Get(p, "category", JStr("General"))
    case "why_trending" => Get(p, "why_trending", JStr(""))
    case "saturation_level" => Get(p, "saturation_level", JStr("medium"))
    case "trend_direction" => Get(p, "trend_direction", JStr("stable"))
    case "is_active" => JBool(true)
    case "discovered_at" => JStr(nowIso)
    case _ => Get(p, key, JNum(0))
  }

  /** The row stored for one scanned product. */
  function DailyRow(p: map<string, Json>, id: string, userId: string, scanDate: string, nowIso: string): (row: map<string, Json>)
    ensures row.Keys == RowKeys
    ensures row["is_active"] == JBool(true)
    ensures row["user_id"] == JStr(userId) && row["scan_date"] == JStr(scanDate) && row["id"] == JStr(id)
    ensures StoredScore(row) == ScoreKey(p)
    ensures "name" !in p ==> row["name"] == JStr("Unknown")
    ensures "category" !in p ==> row["category"] == JStr("General")
  {
    map k | k in RowKeys :: RowValue(p, k, id, userId, scanDate, nowIso)
  }

  /** The products `_process_scan_results` keeps: the ten best by score. */
  function TopProducts(products: seq<map<string, Json>>): (top: seq<map<string, Json>>)
    ensures |top| == if |products| < MaxDailyRows then |products| else MaxDailyRows
    ensures SortedDesc(top, ScoreKey)
    ensures multiset(top) <= multiset(products)
    ensures forall a, b :: a in top && b in multiset(products) - multiset(top) ==> ScoreKey(a) >= ScoreKey(b)
  {
    TopN(products, ScoreKey, MaxDailyRows)
  }

  /** One row per kept product, in order, with consecutive ids. */
  function Rows(top: seq<map<string, Json>>, base: nat, uuid: nat -> string, userId: string, scanDate: string, nowIso: string): (rows: seq<map<string, Json>>)
    ensures |rows| == |top|
    ensures forall i :: 0 <= i < |rows| ==> rows[i] == DailyRow(top[i], uuid(base + i), userId, scanDate, nowIso)
  {
    seq(|top|, i requires 0 <= i < |top| => DailyRow(top[i], uuid(base + i), userId, scanDate, nowIso))
  }

  /** Rows keep the score of their product, so they keep its order. */
  lemma RowsSorted(top: seq<map<string, Json>>, base: nat, uuid: nat -> string, userId: string, scanDate: string, nowIso: string)
    requires SortedDesc(top, ScoreKey)
    ensures SortedDesc(Rows(top, base, uuid, userId, scanDate, nowIso), StoredScore)
  {
    var rows := Rows(top, base, uuid, userId, scanDate, nowIso);
    forall i, j | 0 <= i < j < |rows|
      ensures StoredScore(rows[i]) >= StoredScore(rows[j])
    {
      assert StoredScore(rows[i]) == ScoreKey(top[i]);
      assert StoredScore(rows[j]) == ScoreKey(top[j]);
    }
  }

  /** `_process_scan_results`: the rows inserted for one scan. Row i gets id
      `uuid(base + i)`, `base` being the collection size before the insert.
      `None` is the TypeError of a sort whose keys cannot be compared, which
      happens before any row is inserted. */
  function ProcessScanResults(userId: string, scanDate: string, products: seq<map<string, Json>>,
                              base: nat, uuid: nat -> string, nowIso: string): (r: Option<seq<map<string, Json>>>)
    ensures r.None? <==> SortRaises(products, ScoreValue)
    ensures |products| == 0 ==> r == Some([])
    ensures r.Some? ==> |r.value| == |TopProducts(products)| && |r.value| <= MaxDailyRows
    ensures r.Some? ==> forall i :: 0 <= i < |r.value| ==>
      r.value[i] == DailyRow(TopProducts(products)[i], uuid(base + i), userId, scanDate, nowIso)
    ensures r.Some? ==> SortedDesc(r.value, StoredScore)
  {
    if |products| == 0 then Some([])
    else if SortRaises(products, ScoreValue) then None
    else
      RowsSorted(TopProducts(products), base, uuid, userId, scanDate, nowIso);
      Some(Rows(TopProducts(products), base, uuid, userId, scanDate, nowIso))
  }

  /** A product with an overall score of null next to one with a number
      makes the sort raise, so no row is stored. */
  lemma NullScoreRaises(userId: string, scanDate: string, base: nat, uuid: nat -> string, nowIso: string)
    ensures var a := map["overall_score" := JNull];
      var b := map["overall_score" := JNum(80)];
      ProcessScanResults(userId, scanDate, [a, b], base, uuid, nowIso).None?
  {
    var a := map["overall_score" := JNull];
    var b := map["overall_score" := JNum(80)];
    assert !Comparable(ScoreValue([a, b][0]), ScoreValue([a, b][1]));
  }

  // ---------------------------------------------------------- user scans

  /** The scan a user's key and filters would produce, or None when
      creating the scanner or scanning raised. */
  type ScanFn = User -> Option<AiScanner.FullScanResult>

  /** The "total_products" written into a scheduled scan's summary: the
      code reads "count" from the result, which the full scan never sets. */
  function RecordedTotal(res: AiScanner.FullScanResult): (n: int)
    ensures n == 0
  {
    if "count" in AiScanner.FullScanKeys then res.totalProducts else 0
  }

  /** `run_user_scan`: without a key nothing happens; a scan that raises
      leaves everything unchanged; otherwise the history record is
      inserted, then `last_scan_at` set, then the top rows stored. When the
      row sort raises, the first two writes have happened and the error is
      swallowed. */
  function RunUserScan(db: Db, user: User, scan: ScanFn, today: string, now: int,
                       nowIso: string, uuid: nat -> string): (r: Db)
    ensures !Present(user.openaiApiKey) || scan(user).None? ==> r == db
    ensures Present(user.openaiApiKey) && scan(user).Some? ==>
      var res := scan(user).value;
      var rows := ProcessScanResults(user.id, today, res.products, |db.dailyProducts|, uuid, nowIso);
      && r == db.(scanHistory := r.scanHistory, users := r.users, dailyProducts := r.dailyProducts)
      && r.scanHistory == db.scanHistory + [ScheduledScan(user.id, today, 0, res.sourceStats, 0, now)]
      && r.users == UpdateUser(db.users, user.id, (u: User) => u.(lastScanAt := Some(now)))
      && (rows.None? ==> r.dailyProducts == db.dailyProducts)
      && (rows.Some? ==> r.dailyProducts == db.dailyProducts + rows.value)
  {
    if !Present(user.openaiApiKey) then db
    else match scan(user)
      case None => db
      case Some(res) =>
        var record := ScheduledScan(user.id, today, RecordedTotal(res), res.sourceStats, 0, now);
        var rows := ProcessScanResults(user.id, today, res.products, |db.dailyProducts|, uuid, nowIso);
        db.(scanHistory := db.scanHistory + [record],
            users := UpdateUser(db.users, user.id, (u: User) => u.(lastScanAt := Some(now))),
            dailyProducts := db.dailyProducts + (if rows.Some? then rows.value else []))
  }

  /** Scores that cannot be compared still leave the history record and the
      scan time behind, but no rows. */
  lemma IncomparableScoresStoreNoRows(db: Db, user: User, scan: ScanFn, today: string, now: int, nowIso: string, uuid: nat -> string)
    requires Present(user.openaiApiKey) && scan(user).Some? && SortRaises(scan(user).value.products, ScoreValue)
    ensures var r := RunUserScan(db, user, scan, today, now, nowIso, uuid);
      && |r.scanHistory| == |db.scanHistory| + 1
      && r.users == UpdateUser(db.users, user.id, (u: User) => u.(lastScanAt := Some(now)))
      && r.dailyProducts == db.dailyProducts
  {
  }

  /** A scan that found products is still recorded with total 0. */
  lemma RecordedTotalIsZero(db: Db, user: User, scan: ScanFn, today: string, now: int, nowIso: string, uuid: nat -> string)
    requires Present(user.openaiApiKey) && scan(user).Some? && scan(user).value.totalProducts > 0
    ensures var r := RunUserScan(db, user, scan, today, now, nowIso, uuid);
      && r.scanHistory[|r.scanHistory| - 1].totalProducts == 0
      && r.scanHistory[|r.scanHistory| - 1].totalProducts != scan(user).value.totalProducts
  {
  }

  /** The users `run_scheduled_scans` reads: those whose key is not null,
      at most 1000. */
  function ScanCandidates(users: seq<User>): (c: seq<User>)
    ensures |c| <= 1000
    ensures forall u :: u in c ==> u in users && u.openaiApiKey.Some?
  {
    Take(Filter(users, (u: User) => u.openaiApiKey.Some?), 1000)
  }

  /** Whether the hourly check scans this user and the scan returns. */
  predicate Scanned(u: User, scan: ScanFn, now: int) {
    IsDue(u.subscriptionTier, u.lastScanAt, now) && Present(u.openaiApiKey) && scan(u).Some?
  }

  /** The loop of `run_scheduled_scans` over the candidates read at its
      start; a failing user does not stop the loop. */
  function ScanLoop(db: Db, cands: seq<User>, scan: ScanFn, today: string, now: int,
                    nowIso: string, uuid: nat -> string): (r: Db)
    ensures r.products == db.products && r.boards == db.boards && r.competitors == db.competitors
    ensures |r.users| == |db.users|
    decreases |cands|
  {
    if |cands| == 0 then db
    else
      var u := cands[0];
      var next := if IsDue(u.subscriptionTier, u.lastScanAt, now) then RunUserScan(db, u, scan, today, now, nowIso, uuid) else db;
      ScanLoop(next, cands[1..], scan, today, now, nowIso, uuid)
  }

  function RunScheduledScans(db: Db, scan: ScanFn, today: string, now: int, nowIso: string, uuid: nat -> string): (r: Db)
    ensures |r.scanHistory| == |db.scanHistory| + CountIf(ScanCandidates(db.users), (u: User) => Scanned(u, scan, now))
    ensures r.products == db.products && r.boards == db.boards && r.competitors == db.competitors
  {
    ScanLoopHistory(db, ScanCandidates(db.users), scan, today, now, nowIso, uuid);
    ScanLoop(db, ScanCandidates(db.users), scan, today, now, nowIso, uuid)
  }

  /** Each scanned user adds exactly one history record; nobody else does. */
  lemma {:induction false} ScanLoopHistory(db: Db, cands: seq<User>, scan: ScanFn, today: string, now: int,
                                           nowIso: string, uuid: nat -> string)
    ensures |ScanLoop(db, cands, scan, today, now, nowIso, uuid).scanHistory|
            == |db.scanHistory| + CountIf(cands, (u: User) => Scanned(u, scan, now))
    decreases |cands|
  {
    if |cands| > 0 {
      var u := cands[0];
      var next := if IsDue(u.subscriptionTier, u.lastScanAt, now) then RunUserScan(db, u, scan, today, now, nowIso, uuid) else db;
      ScanLoopHistory(next, cands[1..], scan, today, now, nowIso, uuid);
      assert |next.scanHistory| == |db.scanHistory| + (if Scanned(u, scan, now) then 1 else 0);
    }
  }

  // -------------------------------------------------------------- archive

  predicate ArchivesOn(row: map<string, Json>, yesterday: string) {
    Get(row, "scan_date", JNull) == JStr(yesterday) && Get(row, "is_active", JNull) == JBool(true)
  }

  /** `archive_daily_products`: yesterday's active rows become inactive and
      get `archived_at`; every other row is unchanged. */
  function ArchiveDailyProducts(rows: seq<map<string, Json>>, yesterday: string, nowIso: string): (r: seq<map<string, Json>>)
    ensures |r| == |rows|
    ensures forall i :: 0 <= i < |rows| && !ArchivesOn(rows[i], yesterday) ==> r[i] == rows[i]
    ensures forall i :: 0 <= i < |rows| && ArchivesOn(rows[i], yesterday) ==>
      r[i].Keys == rows[i].Keys + {"is_active", "archived_at"}
      && r[i]["is_active"] == JBool(false) && r[i]["archived_at"] == JStr(nowIso)
      && forall k :: k in rows[i] && k != "is_active" && k != "archived_at" ==> r[i][k] == rows[i][k]
  {
    seq(|rows|, i requires 0 <= i < |rows| =>
      if ArchivesOn(rows[i], yesterday) then rows[i]["is_active" := JBool(false)]["archived_at" := JStr(nowIso)]
      else rows[i])
  }

  /** Afterwards no row of yesterday is active, and archiving again changes
      nothing. */
  lemma ArchiveSettles(rows: seq<map<string, Json>>, yesterday: string, nowIso: string)
    ensures var r := ArchiveDailyProducts(rows, yesterday, nowIso);
      && (forall i :: 0 <= i < |r| ==> !ArchivesOn(r[i], yesterday))
      && ArchiveDailyProducts(r, yesterday, nowIso) == r
  {
  }

  // -------------------------------------------------------- daily reports

  const ReportLimit := 5

  /** `.find(...).sort("overall_score", -1).limit(5)`. */
  function BestFive(docs: seq<map<string, Json>>): (r: seq<map<string, Json>>)
    ensures |r| == if |docs| < ReportLimit then |docs| else ReportLimit
    ensures multiset(r) <= multiset(docs)
    ensures forall d :: d in r ==> d in docs
    ensures SortedDesc(r, StoredScore)
    ensures forall a, b :: a in r && b in multiset(docs) - multiset(r) ==> StoredScore(a) >= StoredScore(b)
  {
    var r := TopN(docs, StoredScore, ReportLimit);
    forall d | d in r
      ensures d in docs
    {
      assert d in multiset(r);
    }
    r
  }

  /** Five documents or fewer are reported in full. */
  lemma {:induction false} FewDocsAllReported(docs: seq<map<string, Json>>)
    requires |docs| <= ReportLimit
    ensures multiset(BestFive(docs)) == multiset(docs)
  {
    var r := BestFive(docs);
    var rest := multiset(docs) - multiset(r);
    assert multiset(docs) == multiset(r) + rest;
    assert |multiset(docs)| == |multiset(r)| + |rest|;
    assert |rest| == 0;
  }

  predicate TodayActive(d: map<string, Json>, userId: string, date: string) {
    && Get(d, "user_id", JNull) == JStr(userId)
    && Get(d, "scan_date", JNull) == JStr(date)
    && Get(d, "is_active", JNull) == JBool(true)
  }

  predicate AnyDayActive(d: map<string, Json>, userId: string) {
    Get(d, "user_id", JNull) == JStr(userId) && Get(d, "is_active", JNull) == JBool(true)
  }

  predicate OfDay(d: map<string, Json>, userId: string, date: string) {
    Get(d, "user_id", JNull) == JStr(userId) && Get(d, "scan_date", JNull) == JStr(date)
  }

  /** A catalog product as the report reads it. */
  function CatalogDoc(p: Product): (d: map<string, Json>)
    ensures StoredScore(d) == p.overallScore
  {
    map["id" := JStr(p.id), "name" := JStr(p.name), "category" := JStr(p.category),
        "overall_score" := JNum(p.overallScore), "trend_score" := JNum(p.trendScore),
        "active_fb_ads" := JNum(p.activeFbAds), "trend_direction" := JStr(p.trendDirection)]
  }

  function CatalogDocs(products: seq<Product>): (docs: seq<map<string, Json>>)
    ensures |docs| == |products|
    ensures forall i :: 0 <= i < |products| ==> docs[i] == CatalogDoc(products[i])
  {
    seq(|products|, i requires 0 <= i < |products| => CatalogDoc(products[i]))
  }

  /** The user's active rows of the day, in stored order. */
  function TodayRows(rows: seq<map<string, Json>>, userId: string, date: string): (r: seq<map<string, Json>>)
    ensures forall d :: d in r <==> d in rows && TodayActive(d, userId, date)
  {
    Filter(rows, d => TodayActive(d, userId, date))
  }

  /** The user's active rows of any day, in stored order. */
  function AnyDayRows(rows: seq<map<string, Json>>, userId: string): (r: seq<map<string, Json>>)
    ensures forall d :: d in r <==> d in rows && AnyDayActive(d, userId)
  {
    Filter(rows, d => AnyDayActive(d, userId))
  }

  /** The products of `_send_user_report`: the first non-empty of the user's
      active rows of the day, the user's active rows of any day, and the
      catalog, each the best five by score. */
  function ReportProducts(db: Db, userId: string, date: string): (r: seq<map<string, Json>>)
    ensures |r| <= ReportLimit && SortedDesc(r, StoredScore)
    ensures |r| == 0 <==> |AnyDayRows(db.dailyProducts, userId)| == 0 && |db.products| == 0
    ensures |TodayRows(db.dailyProducts, userId, date)| > 0 ==>
      r == BestFive(TodayRows(db.dailyProducts, userId, date))
    ensures |TodayRows(db.dailyProducts, userId, date)| == 0 && |AnyDayRows(db.dailyProducts, userId)| > 0 ==>
      r == BestFive(AnyDayRows(db.dailyProducts, userId))
    ensures |AnyDayRows(db.dailyProducts, userId)| == 0 ==> r == BestFive(CatalogDocs(db.products))
    ensures |AnyDayRows(db.dailyProducts, userId)| > 0 ==>
      forall d :: d in r ==> d in db.dailyProducts && AnyDayActive(d, userId)
  {
    var todayRows := TodayRows(db.dailyProducts, userId, date);
    var anyRows := AnyDayRows(db.dailyProducts, userId);
    if |todayRows| > 0 then
      assert todayRows[0] in anyRows;
      BestFive(todayRows)
    else if |anyRows| > 0 then BestFive(anyRows)
    else BestFive(CatalogDocs(db.products))
  }

  datatype Report = Report(
    productsScanned: nat,
    passedFilters: nat,
    fullyValidated: nat,
    readyToLaunch: nat,
    topProducts: seq<map<string, Json>>)

  /** The report built for a user: the chosen products, each of the three
      pass counts equal to their number, and the user's rows of the day. */
  function BuildReport(db: Db, userId: string, date: string): (rep: Report)
    ensures rep.topProducts == ReportProducts(db, userId, date)
    ensures rep.passedFilters == rep.fullyValidated == rep.readyToLaunch == |rep.topProducts| <= ReportLimit
    ensures rep.productsScanned == CountIf(db.dailyProducts, d => OfDay(d, userId, date))
  {
    var products := ReportProducts(db, userId, date);
    Report(CountIf(db.dailyProducts, d => OfDay(d, userId, date)), |products|, |products|, |products|, products)
  }

  /** The outcome of one user's daily report. */
  datatype ReportOutcome =
    | Skipped                  // daily_report is False
    | Raised                   // an exception, caught by the loop
    | NothingToReport          // all three product sources empty
    | Delivered(report: Report)
    | Undelivered(report: Report)

  /** Sending through the user's own bot, given its token and the chat id:
      whether the API reported success, or None when the call raised. */
  type DeliverFn = (Option<string>, Option<string>, Report) -> Option<bool>

  /** `_send_user_report`. */
  function SendUserReport(db: Db, user: User, date: string, deliver: DeliverFn): (o: ReportOutcome)
    ensures o.NothingToReport? <==> |ReportProducts(db, user.id, date)| == 0
    ensures o.Delivered? || o.Undelivered? ==> o.report == BuildReport(db, user.id, date) && |o.report.topProducts| > 0
    ensures o.Delivered? <==> |ReportProducts(db, user.id, date)| > 0
                              && deliver(user.telegramBotToken, user.telegramChatId, BuildReport(db, user.id, date)) == Some(true)
    ensures !o.Skipped?
  {
    var report := BuildReport(db, user.id, date);
    if |report.topProducts| == 0 then NothingToReport
    else match deliver(user.telegramBotToken, user.telegramChatId, report)
      case None => Raised
      case Some(ok) => if ok then Delivered(report) else Undelivered(report)
  }

  /** The users `send_daily_reports` reads: bot token and chat id both
      set, at most 1000. */
  function ReportRecipients(users: seq<User>): (c: seq<User>)
    ensures |c| <= 1000
    ensures forall u :: u in c ==> u in users && u.telegramBotToken.Some? && u.telegramChatId.Some?
  {
    Take(Filter(users, (u: User) => u.telegramBotToken.Some? && u.telegramChatId.Some?), 1000)
  }

  /** One iteration of the report loop, as written: preferences stored as
      null make `prefs.get` raise. */
  function ReportFor(db: Db, user: User, date: string, deliver: DeliverFn): (o: ReportOutcome)
    ensures user.notificationPreferences.PrefsNull? ==> o.Raised?
    ensures o.Skipped? <==> user.notificationPreferences == PrefsDict(Some(JBool(false)))
    ensures user.notificationPreferences.PrefsAbsent? ==> o == SendUserReport(db, user, date, deliver)
    ensures user.notificationPreferences.PrefsDict? && user.notificationPreferences != PrefsDict(Some(JBool(false))) ==>
      o == SendUserReport(db, user, date, deliver)
  {
    match user.notificationPreferences
    case PrefsNull => Raised
    case PrefsAbsent => SendUserReport(db, user, date, deliver)
    case PrefsDict(dr) =>
      if dr == Some(JBool(false)) then Skipped else SendUserReport(db, user, date, deliver)
  }

  datatype DailyRun = DailyRun(outcomes: seq<ReportOutcome>, sentCount: nat)

  function Outcomes(db: Db, users: seq<User>, date: string, deliver: DeliverFn,
                    each: (Db, User, string, DeliverFn) -> ReportOutcome): (r: seq<ReportOutcome>)
    ensures |r| == |users|
    ensures forall i :: 0 <= i < |users| ==> r[i] == each(db, users[i], date, deliver)
  {
    seq(|users|, i requires 0 <= i < |users| => each(db, users[i], date, deliver))
  }

  /** `send_daily_reports`: each recipient's outcome depends on that user
      alone, and the count covers exactly the delivered reports. Nothing is
      written. */
  function SendDailyReports(db: Db, today: string, deliver: DeliverFn): (r: DailyRun)
    ensures |r.outcomes| == |ReportRecipients(db.users)|
    ensures forall i :: 0 <= i < |r.outcomes| ==> r.outcomes[i] == ReportFor(db, ReportRecipients(db.users)[i], today, deliver)
    ensures r.sentCount == CountIf(r.outcomes, (o: ReportOutcome) => o.Delivered?)
    ensures r.sentCount <= |ReportRecipients(db.users)| <= 1000
  {
    var outcomes := Outcomes(db, ReportRecipients(db.users), today, deliver, ReportFor);
    DailyRun(outcomes, CountIf(outcomes, (o: ReportOutcome) => o.Delivered?))
  }

  /** Users keep the preferences they were created with (stored as null),
      and then no scheduled report is ever delivered. */
  lemma NullPreferencesNeverReported(db: Db, today: string, deliver: DeliverFn)
    requires forall u :: u in db.users ==> u.notificationPreferences == PrefsNull
    ensures SendDailyReports(db, today, deliver).sentCount == 0
  {
    var r := SendDailyReports(db, today, deliver);
    forall i | 0 <= i < |r.outcomes|
      ensures !r.outcomes[i].Delivered?
    {
      assert ReportRecipients(db.users)[i] in db.users;
    }
    FilterKeepsNone(r.outcomes, (o: ReportOutcome) => o.Delivered?);
  }

  /** The evident intent: a missing or null preference means "send". */
  function ReportForIntended(db: Db, user: User, date: string, deliver: DeliverFn): (o: ReportOutcome)
    ensures o.Skipped? <==> user.notificationPreferences == PrefsDict(Some(JBool(false)))
    ensures !o.Skipped? ==> o == SendUserReport(db, user, date, deliver)
  {
    match user.notificationPreferences
    case PrefsDict(dr) =>
      if dr == Some(JBool(false)) then Skipped else SendUserReport(db, user, date, deliver)
    case _ => SendUserReport(db, user, date, deliver)
  }

  function SendDailyReportsIntended(db: Db, today: string, deliver: DeliverFn): (r: DailyRun)
    ensures |r.outcomes| == |ReportRecipients(db.users)|
    ensures forall i :: 0 <= i < |r.outcomes| ==> r.outcomes[i] == ReportForIntended(db, ReportRecipients(db.users)[i], today, deliver)
    ensures r.sentCount == CountIf(r.outcomes, (o: ReportOutcome) => o.Delivered?)
    ensures r.sentCount <= |ReportRecipients(db.users)| <= 1000
  {
    var outcomes := Outcomes(db, ReportRecipients(db.users), today, deliver, ReportForIntended);
    DailyRun(outcomes, CountIf(outcomes, (o: ReportOutcome) => o.Delivered?))
  }

  /** With the intended reading a recipient with null preferences is sent
      a report whenever there is something to report and the bot accepts
      it, exactly as a recipient without the key would be. */
  lemma NullPreferencesReportedWhenIntended(db: Db, user: User, today: string, deliver: DeliverFn)
    requires user.notificationPreferences == PrefsNull
    ensures ReportForIntended(db, user, today, deliver) == ReportFor(db, user.(notificationPreferences := PrefsAbsent), today, deliver)
    ensures |db.products| > 0 ==> ReportForIntended(db, user, today, deliver).Delivered?
                                   || ReportForIntended(db, user, today, deliver).Undelivered?
                                   || ReportForIntended(db, user, today, deliver).Raised?
  {
  }
}

=== FILE: server.dfy ===
/** The routes of `backend/server.py` that hold logic of their own: board
    membership, the competitor lifecycle (add with limit and
    de-duplication, rescan with change alerts, soft removal), alert reads,
    the saturation overview and niche aggregation, and the scan routes'
    validation. Each mutating route maps one `Db` to the next. */
module Server {
  import opened Common
  import opened Models
  import opened Database
  import opened CompetitorSpy
  import Tiers
  import AiScanner

  // --------------------------------------------------------------- boards

  /** `update_one({"id": boardId, "user_id": userId}, ...)` picks this
      board. */
  function BoardIndex(boards: seq<ProductBoard>, boardId: string, userId: string): (r: Option<nat>)
    ensures r.Some? ==> r.value < |boards| && boards[r.value].id == boardId && boards[r.value].userId == userId
    ensures r.None? <==> forall j :: 0 <= j < |boards| ==> !(boards[j].id == boardId && boards[j].userId == userId)
  {
    FirstIndex(boards, (b: ProductBoard) => b.id == boardId && b.userId == userId)
  }

  predicate NoDuplicates<T(==)>(s: seq<T>) {
    forall i, j :: 0 <= i < j < |s| ==> s[i] != s[j]
  }

  /** `$addToSet`: appended only when not already present. */
  function AddToSet<T(==,!new)>(s: seq<T>, x: T): (r: seq<T>)
    ensures forall y :: y in r <==> y in s || y == x
    ensures NoDuplicates(s) ==> NoDuplicates(r)
    ensures x in s ==> r == s
  {
    if x in s then s else s + [x]
  }

  /** `$pull`: every occurrence removed, the rest kept in order. */
  function Pull<T(==,!new)>(s: seq<T>, x: T): (r: seq<T>)
    ensures forall y :: y in r <==> y in s && y != x
    ensures |r| <= |s|
  {
    Filter(s, (y: T) => y != x)
  }

  /** `POST /boards/{board_id}/products/{product_id}`. */
  function AddProductToBoard(db: Db, userId: string, boardId: string, productId: string): (r: Routed<bool>)
    ensures BoardIndex(db.boards, boardId, userId).None? <==> r.response == Err(404, "Board not found")
    ensures BoardIndex(db.boards, boardId, userId).None? ==> r.db == db
    ensures BoardIndex(db.boards, boardId, userId).Some? ==>
      var k := BoardIndex(db.boards, boardId, userId).value;
      && r.response == Ok(true)
      && r.db == db.(boards := db.boards[k := db.boards[k].(productIds := AddToSet(db.boards[k].productIds, productId))])
  {
    match BoardIndex(db.boards, boardId, userId)
    case None => Routed(Err(404, "Board not found"), db)
    case Some(k) =>
      var b := db.boards[k];
      Routed(Ok(true), db.(boards := db.boards[k := b.(productIds := AddToSet(b.productIds, productId))]))
  }

  /** `DELETE /boards/{board_id}/products/{product_id}`. */
  function RemoveProductFromBoard(db: Db, userId: string, boardId: string, productId: string): (r: Routed<bool>)
    ensures BoardIndex(db.boards, boardId, userId).None? <==> r.response == Err(404, "Board not found")
    ensures BoardIndex(db.boards, boardId, userId).None? ==> r.db == db
    ensures BoardIndex(db.boards, boardId, userId).Some? ==>
      var k := BoardIndex(db.boards, boardId, userId).value;
      && r.response == Ok(true)
      && r.db == db.(boards := db.boards[k := db.boards[k].(productIds := Pull(db.boards[k].productIds, productId))])
  {
    match BoardIndex(db.boards, boardId, userId)
    case None => Routed(Err(404, "Board not found"), db)
    case Some(k) =>
      var b := db.boards[k];
      Routed(Ok(true), db.(boards := db.boards[k := b.(productIds := Pull(b.productIds, productId))]))
  }

  /** Adding twice is adding once; after a removal the product is gone from
      the board, whatever was there before. */
  lemma BoardMembership(db: Db, userId: string, boardId: string, productId: string)
    requires BoardIndex(db.boards, boardId, userId).Some?
    ensures var once := AddProductToBoard(db, userId, boardId, productId).db;
      AddProductToBoard(once, userId, boardId, productId).db == once
    ensures var k := BoardIndex(db.boards, boardId, userId).value;
      var after := AddProductToBoard(db, userId, boardId, productId).db;
      productId in after.boards[k].productIds
      && productId !in RemoveProductFromBoard(after, userId, boardId, productId).db.boards[k].productIds
  {
    var k := BoardIndex(db.boards, boardId, userId).value;
    var once := AddProductToBoard(db, userId, boardId, productId).db;
    assert forall j :: 0 <= j < |db.boards| && j != k ==> once.boards[j] == db.boards[j];
    FirstIndexAt(once.boards, (b: ProductBoard) => b.id == boardId && b.userId == userId, k);
  }

  // ---------------------------------------------------------- competitors

  function ActiveCompetitors(competitors: seq<CompetitorStore>, userId: string): nat {
    CountIf(competitors, (c: CompetitorStore) => c.userId == userId && c.isActive)
  }

  predicate Monitors(competitors: seq<CompetitorStore>, userId: string, storeUrl: string) {
    exists j :: 0 <= j < |competitors| && competitors[j].userId == userId && competitors[j].storeUrl == storeUrl
  }

  /** The catalog products stored for a new competitor. */
  function PulledProducts(items: seq<PoolItem>, competitorId: string, productId: nat -> string): (r: seq<CompetitorProduct>)
    ensures |r| == |items|
    ensures forall i :: 0 <= i < |items| ==>
      r[i] == CompetitorProduct(productId(i), competitorId, items[i].name, items[i].priceCents)
  {
    seq(|items|, i requires 0 <= i < |items| => CompetitorProduct(productId(i), competitorId, items[i].name, items[i].priceCents))
  }

  /** The random draws of one mock store pull: which pool items and the
      revenue figure. */
  datatype Draw = Draw(picks: seq<nat>, revenue: int)

  predicate ValidDraw(d: Draw) {
    ValidSample(d.picks, |ProductPool|, 5, 10) && 10000 <= d.revenue <= 150000
  }

  function FetchStore(url: string, d: Draw): (data: StoreData)
    requires ValidDraw(d)
  {
    GenerateMockCompetitorData(url, d.picks, d.revenue)
  }

  /** `POST /competitors` (after the feature check, see README): the tier's
      competitor limit, then de-duplication by URL, then the new store with
      the pulled names as its snapshot and its products stored. */
  function AddCompetitor(db: Db, user: User, storeUrl: string, draw: Draw, id: string,
                         productId: nat -> string, now: int): (r: Routed<CompetitorStore>)
    requires ValidDraw(draw)
    ensures var limit := Tiers.GetTierLimits(user.subscriptionTier).competitors;
      (r.response.Fail? && r.response.error.status == 403) <==> !Tiers.Admits(limit, ActiveCompetitors(db.competitors, user.id))
    ensures var limit := Tiers.GetTierLimits(user.subscriptionTier).competitors;
      (r.response.Fail? && r.response.error.status == 400) <==>
        Tiers.Admits(limit, ActiveCompetitors(db.competitors, user.id)) && Monitors(db.competitors, user.id, storeUrl)
    ensures r.response.Fail? ==> r.db == db
    ensures r.response.Ok? ==>
      var data := FetchStore(storeUrl, draw);
      var c := r.response.value;
      && c == CompetitorStore(id, user.id, storeUrl, data.storeName, now, lastScanned := Some(now),
                              productsSnapshot := NamesOf(data.products))
      && c.isActive && c.newProductsCount == 0
      && r.db == db.(competitors := db.competitors + [c],
                     competitorProducts := db.competitorProducts + PulledProducts(data.products, id, productId))
  {
    var limit := Tiers.GetTierLimits(user.subscriptionTier).competitors;
    var active := ActiveCompetitors(db.competitors, user.id);
    if limit != -1 && active >= limit then
      Routed(Err(403, "Competitor limit reached (" + IntToString(limit) + "). Upgrade for more."), db)
    else if Monitors(db.competitors, user.id, storeUrl) then
      Routed(Err(400, "Already monitoring this store"), db)
    else
      var data := FetchStore(storeUrl, draw);
      var c := CompetitorStore(id, user.id, storeUrl, data.storeName, now, lastScanned := Some(now),
                               productsSnapshot := NamesOf(data.products));
      Routed(Ok(c), db.(competitors := db.competitors + [c],
                        competitorProducts := db.competitorProducts + PulledProducts(data.products, id, productId)))
  }

  function IntToString(n: int): (s: string)
    ensures |s| > 0
  {
    if n < 0 then "-" + NatToString(-n) else NatToString(n)
  }

  /** A successful add counts one more active store, never beyond a finite
      limit; adding the same URL again is refused while the limit admits. */
  lemma AddCompetitorKeepsLimit(db: Db, user: User, storeUrl: string, draw: Draw, id: string,
                                productId: nat -> string, now: int, draw2: Draw, id2: string)
    requires ValidDraw(draw) && ValidDraw(draw2)
    requires AddCompetitor(db, user, storeUrl, draw, id, productId, now).response.Ok?
    ensures var after := AddCompetitor(db, user, storeUrl, draw, id, productId, now).db;
      var limit := Tiers.GetTierLimits(user.subscriptionTier).competitors;
      && ActiveCompetitors(after.competitors, user.id) == ActiveCompetitors(db.competitors, user.id) + 1
      && (limit != -1 ==> ActiveCompetitors(after.competitors, user.id) <= limit)
      && AddCompetitor(after, user, storeUrl, draw2, id2, productId, now).response.Fail?
  {
    var r := AddCompetitor(db, user, storeUrl, draw, id, productId, now);
    var c := r.response.value;
    FilterAppend(db.competitors, [c], (x: CompetitorStore) => x.userId == user.id && x.isActive);
    assert Monitors(r.db.competitors, user.id, storeUrl) by {
      assert r.db.competitors[|db.competitors|] == c;
    }
  }

  /** `find_one({"id": id, "user_id": userId})` on competitors. */
  function CompetitorIndex(competitors: seq<CompetitorStore>, competitorId: string, userId: string): (r: Option<nat>)
    ensures r.Some? ==> r.value < |competitors| && competitors[r.value].id == competitorId && competitors[r.value].userId == userId
    ensures r.None? <==> forall j :: 0 <= j < |competitors| ==> !(competitors[j].id == competitorId && competitors[j].userId == userId)
  {
    FirstIndex(competitors, (c: CompetitorStore) => c.id == competitorId && c.userId == userId)
  }

  /** `find({"competitor_id": id})`: the store's products, in stored order. */
  function ProductsOfStore(products: seq<CompetitorProduct>, competitorId: string): (m: seq<CompetitorProduct>)
    ensures forall p :: p in m <==> p in products && p.competitorId == competitorId
  {
    Filter(products, (p: CompetitorProduct) => p.competitorId == competitorId)
  }

  /** `GET /competitors/{id}`: the store and the first 100 of its products
      in stored order, or all of them when fewer. */
  function GetCompetitor(db: Db, userId: string, competitorId: string): (r: Response<(CompetitorStore, seq<CompetitorProduct>)>)
    ensures r.Fail? <==> CompetitorIndex(db.competitors, competitorId, userId).None?
    ensures r.Fail? ==> r.error == HttpError(404, "Competitor not found")
    ensures r.Ok? ==> r.value.0 == db.competitors[CompetitorIndex(db.competitors, competitorId, userId).value]
                      && |r.value.1| <= 100
                      && forall p :: p in r.value.1 ==> p in db.competitorProducts && p.competitorId == competitorId
    ensures r.Ok? ==>
      var m := ProductsOfStore(db.competitorProducts, competitorId);
      && |r.value.1| == (if |m| < 100 then |m| else 100)
      && forall i :: 0 <= i < |r.value.1| ==> r.value.1[i] == m[i]
  {
    match CompetitorIndex(db.competitors, competitorId, userId)
    case None => Err(404, "Competitor not found")
    case Some(k) =>
      Ok((db.competitors[k], Take(ProductsOfStore(db.competitorProducts, competitorId), 100)))
  }

  /** A store with at most 100 products is shown with all of them, in
      stored order. */
  lemma FewStoreProductsAllListed(db: Db, userId: string, competitorId: string)
    requires CompetitorIndex(db.competitors, competitorId, userId).Some?
    requires |ProductsOfStore(db.competitorProducts, competitorId)| <= 100
    ensures GetCompetitor(db, userId, competitorId).Ok?
    ensures GetCompetitor(db, userId, competitorId).value.1 == ProductsOfStore(db.competitorProducts, competitorId)
  {
    var r := GetCompetitor(db, userId, competitorId).value.1;
    var m := ProductsOfStore(db.competitorProducts, competitorId);
    assert |r| == |m|;
    assert forall i :: 0 <= i < |r| ==> r[i] == m[i];
  }

  /** `POST /competitors/{id}/scan`: a fresh pull is diffed against the
      stored snapshot; the snapshot is replaced, the count of added names
      stored, and an alert carrying the added names is inserted iff any
      were added. The update selects the store by id alone. */
  function ScanCompetitor(db: Db, userId: string, competitorId: string, draw: Draw, alertId: string, now: int): (r: Routed<ChangeSet>)
    requires ValidDraw(draw)
    ensures CompetitorIndex(db.competitors, competitorId, userId).None? ==>
      r.response == Err(404, "Competitor not found") && r.db == db
    ensures CompetitorIndex(db.competitors, competitorId, userId).Some? ==>
      var c := db.competitors[CompetitorIndex(db.competitors, competitorId, userId).value];
      var names := NamesOf(FetchStore(c.storeUrl, draw).products);
      var changes := DetectStoreChanges(c.productsSnapshot, names);
      var k := FirstIndex(db.competitors, (x: CompetitorStore) => x.id == competitorId).value;
      && r.response == Ok(changes)
      && r.db.competitors == db.competitors[k := db.competitors[k].(productsSnapshot := names, lastScanned := Some(now),
                                                                   newProductsCount := changes.addedCount)]
      && (changes.addedCount > 0 ==>
            r.db.alerts == db.alerts + [CompetitorAlert(alertId, userId, competitorId, c.storeName, "new_product", changes.added, now)])
      && (changes.addedCount == 0 ==> r.db.alerts == db.alerts)
      && r.db == db.(competitors := r.db.competitors, alerts := r.db.alerts)
  {
    match CompetitorIndex(db.competitors, competitorId, userId)
    case None => Routed(Err(404, "Competitor not found"), db)
    case Some(j) =>
      var c := db.competitors[j];
      var names := NamesOf(FetchStore(c.storeUrl, draw).products);
      var changes := DetectStoreChanges(c.productsSnapshot, names);
      var k := FirstIndex(db.competitors, (x: CompetitorStore) => x.id == competitorId).value;
      var stores := db.competitors[k := db.competitors[k].(productsSnapshot := names, lastScanned := Some(now),
                                                          newProductsCount := changes.addedCount)];
      var alerts := if changes.addedCount > 0
        then db.alerts + [CompetitorAlert(alertId, userId, competitorId, c.storeName, "new_product", changes.added, now)]
        else db.alerts;
      Routed(Ok(changes), db.(competitors := stores, alerts := alerts))
  }

  /** With unique store ids, a second scan that pulls the same catalog finds
      nothing new and raises no alert. */
  lemma RescanSameCatalogIsQuiet(db: Db, userId: string, competitorId: string, draw: Draw, a1: string, a2: string, t1: int, t2: int)
    requires ValidDraw(draw)
    requires CompetitorIndex(db.competitors, competitorId, userId).Some?
    requires forall i, j :: 0 <= i < j < |db.competitors| ==> db.competitors[i].id != db.competitors[j].id
    ensures var first := ScanCompetitor(db, userId, competitorId, draw, a1, t1).db;
      var second := ScanCompetitor(first, userId, competitorId, draw, a2, t2);
      && second.response.Ok? && !second.response.value.hasChanges
      && second.db.alerts == first.alerts
  {
    var j := CompetitorIndex(db.competitors, competitorId, userId).value;
    var c := db.competitors[j];
    FirstIndexAt(db.competitors, (x: CompetitorStore) => x.id == competitorId, j);
    var names := NamesOf(FetchStore(c.storeUrl, draw).products);
    var first := ScanCompetitor(db, userId, competitorId, draw, a1, t1).db;
    assert first.competitors == db.competitors[j := c.(productsSnapshot := names, lastScanned := Some(t1),
      newProductsCount := DetectStoreChanges(c.productsSnapshot, names).addedCount)];
    FirstIndexAt(first.competitors, (x: CompetitorStore) => x.id == competitorId && x.userId == userId, j);
    FirstIndexAt(first.competitors, (x: CompetitorStore) => x.id == competitorId, j);
    DiffIdempotent(names, names);
  }

  /** `DELETE /competitors/{id}`: a soft delete. */
  function RemoveCompetitor(db: Db, userId: string, competitorId: string): (r: Routed<bool>)
    ensures CompetitorIndex(db.competitors, competitorId, userId).None? <==> r.response == Err(404, "Competitor not found")
    ensures CompetitorIndex(db.competitors, competitorId, userId).None? ==> r.db == db
    ensures CompetitorIndex(db.competitors, competitorId, userId).Some? ==>
      var k := CompetitorIndex(db.competitors, competitorId, userId).value;
      && r.response == Ok(true)
      && r.db == db.(competitors := db.competitors[k := db.competitors[k].(isActive := false)])
  {
    match CompetitorIndex(db.competitors, competitorId, userId)
    case None => Routed(Err(404, "Competitor not found"), db)
    case Some(k) => Routed(Ok(true), db.(competitors := db.competitors[k := db.competitors[k].(isActive := false)]))
  }

  /** `PUT /competitors/alerts/{id}/read`. */
  function MarkAlertRead(db: Db, userId: string, alertId: string): (r: Routed<bool>)
    ensures var k := FirstIndex(db.alerts, (a: CompetitorAlert) => a.id == alertId && a.userId == userId);
      && (k.None? <==> r.response == Err(404, "Alert not found"))
      && (k.None? ==> r.db == db)
      && (k.Some? ==> r.response == Ok(true) && r.db == db.(alerts := db.alerts[k.value := db.alerts[k.value].(isRead := true)]))
  {
    match FirstIndex(db.alerts, (a: CompetitorAlert) => a.id == alertId && a.userId == userId)
    case None => Routed(Err(404, "Alert not found"), db)
    case Some(k) => Routed(Ok(true), db.(alerts := db.alerts[k := db.alerts[k].(isRead := true)]))
  }

  // ----------------------------------------------------------- saturation

  datatype SaturationEntry = SaturationEntry(id: string, name: string, fbAds: int, shopifyStores: int, trendDirection: string)

  datatype SaturationOverview = SaturationOverview(
    low: seq<SaturationEntry>,
    medium: seq<SaturationEntry>,
    high: seq<SaturationEntry>,
    lowCount: nat,
    mediumCount: nat,
    highCount: nat)

  function Entry(p: Product): SaturationEntry {
    SaturationEntry(p.id, p.name, p.activeFbAds, p.shopifyStores, p.trendDirection)
  }

  function Entries(ps: seq<Product>): (r: seq<SaturationEntry>)
    ensures |r| == |ps|
    ensures forall i :: 0 <= i < |ps| ==> r[i] == Entry(ps[i])
  {
    seq(|ps|, i requires 0 <= i < |ps| => Entry(ps[i]))
  }

  predicate KnownLevel(level: string) {
    level == "low" || level == "medium" || level == "high"
  }

  function Bucket(ps: seq<Product>, level: string): seq<Product> {
    Filter(ps, (p: Product) => p.saturationLevel == level)
  }

  /** `GET /saturation/overview` over the first 100 catalog products: one
      bucket per level, in catalog order; a level outside the three raises
      a KeyError, answered with 500. */
  function SaturationOverviewOf(catalog: seq<Product>): (r: Response<SaturationOverview>)
    ensures r.Fail? <==> exists p :: p in Take(catalog, 100) && !KnownLevel(p.saturationLevel)
    ensures r.Fail? ==> r.error.status == 500
    ensures r.Ok? ==>
      var ps := Take(catalog, 100);
      && r.value.low == Entries(Bucket(ps, "low"))
      && r.value.medium == Entries(Bucket(ps, "medium"))
      && r.value.high == Entries(Bucket(ps, "high"))
      && r.value.lowCount == |r.value.low| && r.value.mediumCount == |r.value.medium| && r.value.highCount == |r.value.high|
      && r.value.lowCount + r.value.mediumCount + r.value.highCount == |ps|
  {
    var ps := Take(catalog, 100);
    if exists p :: p in ps && !KnownLevel(p.saturationLevel) then Err(500, "KeyError")
    else
      BucketsPartition(ps);
      var low := Entries(Bucket(ps, "low"));
      var medium := Entries(Bucket(ps, "medium"));
      var high := Entries(Bucket(ps, "high"));
      Ok(SaturationOverview(low, medium, high, |low|, |medium|, |high|))
  }

  /** With known levels only, every product lands in exactly one bucket. */
  lemma {:induction false} BucketsPartition(ps: seq<Product>)
    requires forall p :: p in ps ==> KnownLevel(p.saturationLevel)
    ensures |Bucket(ps, "low")| + |Bucket(ps, "medium")| + |Bucket(ps, "high")| == |ps|
  {
    if |ps| > 0 {
      BucketsPartition(ps[1..]);
    }
  }

  // --------------------------------------------------------------- niches

  /** Python's `round(a / n)` for n > 0: the nearest integer, ties to even. */
  function RoundHalfEven(a: int, n: nat): (r: int)
    requires n > 0
    ensures -(n as int) <= 2 * (a - r * n) <= n
  {
    var q := a / n;
    var m := a % n;
    if 2 * m > n then q + 1
    else if 2 * m < n then q
    else if q % 2 == 0 then q else q + 1
  }

  datatype Niche = Niche(category: string, totalProducts: nat, avgFbAds: int, avgStores: int, saturationScore: int)

  /** The categories of the products, each once, in first-appearance order. */
  function Categories(ps: seq<Product>): (cs: seq<string>)
    ensures NoDuplicates(cs)
    ensures forall c :: c in cs <==> exists p :: p in ps && p.category == c
    decreases |ps|
  {
    if |ps| == 0 then []
    else
      var init := Categories(ps[..|ps| - 1]);
      var last := ps[|ps| - 1];
      assert forall p :: p in ps ==> p in ps[..|ps| - 1] || p == last;
      if last.category in init then init else init + [last.category]
  }

  predicate InCategory(p: Product, c: string) {
    p.category == c
  }

  function CategorySize(ps: seq<Product>, c: string): nat {
    CountIf(ps, (p: Product) => InCategory(p, c))
  }

  function SumAds(ps: seq<Product>, c: string): int {
    if |ps| == 0 then 0 else (if ps[0].category == c then ps[0].activeFbAds else 0) + SumAds(ps[1..], c)
  }

  function SumStores(ps: seq<Product>, c: string): int {
    if |ps| == 0 then 0 else (if ps[0].category == c then ps[0].shopifyStores else 0) + SumStores(ps[1..], c)
  }

  predicate HasCategory(ps: seq<Product>, c: string) {
    exists p :: p in ps && p.category == c
  }

  /** One category's aggregate: count, rounded mean ad and store counts,
      and a score of a third of their sum, capped at 100. */
  function NicheOf(ps: seq<Product>, c: string): (n: Niche)
    requires HasCategory(ps, c)
    ensures n.category == c && n.totalProducts == CategorySize(ps, c) > 0
    ensures -(n.totalProducts as int) <= 2 * (SumAds(ps, c) - n.avgFbAds * n.totalProducts) <= n.totalProducts
    ensures -(n.totalProducts as int) <= 2 * (SumStores(ps, c) - n.avgStores * n.totalProducts) <= n.totalProducts
    ensures n.saturationScore <= 100
    ensures || (n.saturationScore == 100 && 300 <= n.avgFbAds + n.avgStores)
            || (n.saturationScore < 100 && 3 * n.saturationScore <= n.avgFbAds + n.avgStores < 3 * n.saturationScore + 3)
  {
    var p :| p in ps && p.category == c;
    assert p in Filter(ps, (x: Product) => InCategory(x, c));
    var total := CategorySize(ps, c);
    var ads := RoundHalfEven(SumAds(ps, c), total);
    var stores := RoundHalfEven(SumStores(ps, c), total);
    var score := (ads + stores) / 3;
    Niche(c, total, ads, stores, if score < 100 then score else 100)
  }

  function NicheList(ps: seq<Product>, cs: seq<string>): (r: seq<Niche>)
    requires forall c :: c in cs ==> HasCategory(ps, c)
    ensures |r| == |cs|
    ensures forall i :: 0 <= i < |cs| ==> r[i] == NicheOf(ps, cs[i])
  {
    seq(|cs|, i requires 0 <= i < |cs| => NicheOf(ps, cs[i]))
  }

  function TotalOf(ns: seq<Niche>): int {
    if |ns| == 0 then 0 else ns[0].totalProducts + TotalOf(ns[1..])
  }

  /** `GET /saturation/niches` over the first 100 catalog products. */
  function NicheSaturation(catalog: seq<Product>): (r: seq<Niche>)
    ensures forall i, j :: 0 <= i < j < |r| ==> r[i].category != r[j].category
    ensures forall p :: p in Take(catalog, 100) ==> exists i :: 0 <= i < |r| && r[i].category == p.category
    ensures forall i :: 0 <= i < |r| ==> HasCategory(Take(catalog, 100), r[i].category)
    ensures forall i :: 0 <= i < |r| ==> r[i] == NicheOf(Take(catalog, 100), r[i].category)
    ensures TotalOf(r) == |Take(catalog, 100)|
  {
    var ps := Take(catalog, 100);
    var cs := Categories(ps);
    var r := NicheList(ps, cs);
    assert forall p :: p in ps ==> p.category in cs;
    NicheTotals(ps, cs);
    r
  }

  function CountsOver(ps: seq<Product>, cs: seq<string>): int {
    if |cs| == 0 then 0 else CategorySize(ps, cs[0]) + CountsOver(ps, cs[1..])
  }

  lemma {:induction false} TotalIsCounts(ps: seq<Product>, cs: seq<string>)
    requires forall c :: c in cs ==> HasCategory(ps, c)
    ensures TotalOf(NicheList(ps, cs)) == CountsOver(ps, cs)
  {
    if |cs| > 0 {
      assert forall c :: c in cs[1..] ==> c in cs;
      TotalIsCounts(ps, cs[1..]);
      assert NicheList(ps, cs)[1..] == NicheList(ps, cs[1..]);
    }
  }

  /** Over distinct categories, the indicator of one category sums to 1
      when it is listed and to 0 otherwise. */
  function Hits(cs: seq<string>, c: string): nat {
    if |cs| == 0 then 0 else (if cs[0] == c then 1 else 0) + Hits(cs[1..], c)
  }

  lemma {:induction false} HitsOnce(cs: seq<string>, c: string)
    requires NoDuplicates(cs)
    ensures Hits(cs, c) == if c in cs then 1 else 0
  {
    if |cs| > 0 {
      HitsOnce(cs[1..], c);
      if cs[0] == c {
        assert c !in cs[1..] by {
          forall j | 0 <= j < |cs[1..]|
            ensures cs[1..][j] != c
          {
            assert cs[1..][j] == cs[j + 1];
          }
        }
      }
    }
  }

  /** Counting category by category over the product list's front. */
  lemma {:induction false} CountsOverStep(ps: seq<Product>, cs: seq<string>)
    requires |ps| > 0
    ensures CountsOver(ps, cs) == Hits(cs, ps[0].category) + CountsOver(ps[1..], cs)
  {
    if |cs| > 0 {
      CountsOverStep(ps, cs[1..]);
    }
  }

  /** The per-category totals partition the products. */
  lemma {:induction false} NicheTotals(ps: seq<Product>, cs: seq<string>)
    requires NoDuplicates(cs)
    requires forall c :: c in cs ==> HasCategory(ps, c)
    requires forall p :: p in ps ==> p.category in cs
    ensures TotalOf(NicheList(ps, cs)) == |ps|
  {
    TotalIsCounts(ps, cs);
    CountsCover(ps, cs);
  }

  lemma {:induction false} CountsCover(ps: seq<Product>, cs: seq<string>)
    requires NoDuplicates(cs)
    requires forall p :: p in ps ==> p.category in cs
    ensures CountsOver(ps, cs) == |ps|
    decreases |ps|
  {
    if |ps| == 0 {
      CountsZero(cs);
    } else {
      CountsOverStep(ps, cs);
      HitsOnce(cs, ps[0].category);
      CountsCover(ps[1..], cs);
    }
  }

  lemma {:induction false} CountsZero(cs: seq<string>)
    ensures CountsOver([], cs) == 0
  {
    if |cs| > 0 {
      CountsZero(cs[1..]);
    }
  }

  // ---------------------------------------------------------- scan routes

  /** `user.filters if user.filters else {}`. */
  function RouteFilters(user: User): map<string, Json> {
    if user.filters.Some? then user.filters.value else map[]
  }

  /** `GET /scan/sources/{source}`: a key is required (400), the source must
      be one of the four (400), a failed scan is a 500 with its error, and a
      scan that raises (filter values that cannot be joined) is an unhandled
      exception, answered 500 "Internal Server Error". The
      statements after this route's return are never reached and are not
      modelled. */
  function ScanSingleSource(user: User, source: string, call: AiScanner.Prompt -> AiScanner.CallOutcome,
                            loads: string -> Option<seq<Json>>, now: string): (r: Response<AiScanner.SourceResult>)
    ensures !Present(user.openaiApiKey) ==> r.Fail? && r.error.status == 400
    ensures Present(user.openaiApiKey) && source !in ScanSources ==> r.Fail? && r.error.status == 400
    ensures r.Ok? <==> Present(user.openaiApiKey) && source in ScanSources
                       && AiScanner.ScanSource(source, Some(RouteFilters(user)), call, loads, now).Some?
                       && AiScanner.ScanSource(source, Some(RouteFilters(user)), call, loads, now).value.success
    ensures r.Ok? ==> r.value.source == source && r.value.count == |r.value.products|
    ensures r.Fail? && Present(user.openaiApiKey) && source in ScanSources ==> r.error.status == 500
    ensures Present(user.openaiApiKey) && source in ScanSources
            && AiScanner.ScanSource(source, Some(RouteFilters(user)), call, loads, now).None? ==>
      r == Err(500, "Internal Server Error")
  {
    if !Present(user.openaiApiKey) then Err(400, "OpenAI API key required. Add your key in Settings.")
    else if source !in ScanSources then
      Err(400, "Invalid source. Must be one of: ['tiktok', 'amazon', 'aliexpress', 'google_trends']")
    else match AiScanner.ScanSource(source, Some(RouteFilters(user)), call, loads, now)
      case None => Err(500, "Internal Server Error")
      case Some(res) =>
        if res.success then Ok(res)
        else Err(500, res.error.GetOr("Scan failed"))
  }

  /** A row of `daily_products` written by the full-scan route: the three
      route fields, overridden by any the product itself carries. */
  function FullScanRow(product: map<string, Json>, userId: string, today: string): (row: map<string, Json>)
    ensures row.Keys == product.Keys + {"user_id", "scan_date", "is_active"}
    ensures forall k :: k in product ==> row[k] == product[k]
    ensures "is_active" !in product ==> row["is_active"] == JBool(true)
  {
    map["user_id" := JStr(userId), "scan_date" := JStr(today), "is_active" := JBool(true)] + product
  }

  function FullScanRows(products: seq<map<string, Json>>, userId: string, today: string): (rows: seq<map<string, Json>>)
    ensures |rows| == |products|
    ensures forall i :: 0 <= i < |products| ==> rows[i] == FullScanRow(products[i], userId, today)
  {
    seq(|products|, i requires 0 <= i < |products| => FullScanRow(products[i], userId, today))
  }

  /** `POST /scan/full`: a key is required (400). The scan itself reports
      success whenever it returns, so the route's own 500 branch is never
      taken; a scan that raises in its sort is an unhandled exception,
      answered 500 with nothing written. Otherwise one history record and
      one row per product are stored. */
  function RunFullScanRoute(db: Db, user: User, call: AiScanner.Prompt -> AiScanner.CallOutcome,
                            loads: string -> Option<seq<Json>>, today: string, now: int, nowIso: string): (r: Routed<AiScanner.FullScanResult>)
    ensures !Present(user.openaiApiKey) ==> r.response.Fail? && r.response.error.status == 400 && r.db == db
    ensures r.response.Ok? <==> Present(user.openaiApiKey) && AiScanner.RunFullScan(Some(RouteFilters(user)), call, loads, nowIso).Some?
    ensures Present(user.openaiApiKey) && r.response.Fail? ==> r == Routed(Err(500, "Internal Server Error"), db)
    ensures r.response.Ok? ==>
      && r.response.value == AiScanner.RunFullScan(Some(RouteFilters(user)), call, loads, nowIso).value
      && r.db == db.(scanHistory := db.scanHistory + [FullScan(user.id, r.response.value.totalProducts, now)],
                     dailyProducts := db.dailyProducts + FullScanRows(r.response.value.products, user.id, today))
      && r.response.value.totalProducts == |r.response.value.products|
  {
    if !Present(user.openaiApiKey) then
      Routed(Err(400, "OpenAI API key required. Add your key in Settings to enable scanning."), db)
    else match AiScanner.RunFullScan(Some(RouteFilters(user)), call, loads, nowIso)
      case None => Routed(Err(500, "Internal Server Error"), db)
      case Some(res) =>
        Routed(Ok(res), db.(scanHistory := db.scanHistory + [FullScan(user.id, res.totalProducts, now)],
                            dailyProducts := db.dailyProducts + FullScanRows(res.products, user.id, today)))
  }

  /** The module-level import placed before the scanner routes names a
      function the tier module does not define, so `server.py` cannot be
      imported and the application serves no route at all. */
  lemma MissingImport()
    ensures "check_feature_access" !in Tiers.DefinedNames
    ensures "get_tier_limits" in Tiers.DefinedNames
  {
  }
}

=== FILE: sorting.dfy ===
/** Descending sort by an integer key, as the services do with Python's
    `list.sort(key=..., reverse=True)` and Mongo's `.sort(field, -1)`. The
    sort is an insertion sort on sequences that keeps equal keys in their
    input order. */
module Sorting {

  predicate SortedDesc<T>(s: seq<T>, key: T -> int) {
    forall i, j :: 0 <= i < j < |s| ==> key(s[i]) >= key(s[j])
  }

  /** Prepending an element no smaller than the head keeps a sequence sorted. */
  lemma ConsSorted<T>(a: T, s: seq<T>, key: T -> int)
    requires SortedDesc(s, key)
    requires |s| > 0 ==> key(a) >= key(s[0])
    ensures SortedDesc([a] + s, key)
  {
    var r := [a] + s;
    forall i, j | 0 <= i < j < |r|
      ensures key(r[i]) >= key(r[j])
    {
      if i == 0 && j > 1 {
        assert key(s[0]) >= key(s[j - 1]);
      }
    }
  }

  /** Inserts x in front of the first element whose key is not greater. */
  function Insert<T>(x: T, s: seq<T>, key: T -> int): (r: seq<T>)
    requires SortedDesc(s, key)
    ensures SortedDesc(r, key)
    ensures multiset(r) == multiset(s) + multiset{x}
    ensures |r| == |s| + 1
    ensures r[0] == x || (|s| > 0 && r[0] == s[0])
  {
    if |s| == 0 then [x]
    else if key(s[0]) > key(x) then
      var rest := Insert(x, s[1..], key);
      ConsSorted(s[0], rest, key);
      assert s == [s[0]] + s[1..];
      [s[0]] + rest
    else
      ConsSorted(x, s, key);
      [x] + s
  }

  function SortDesc<T>(s: seq<T>, key: T -> int): (r: seq<T>)
    ensures SortedDesc(r, key)
    ensures multiset(r) == multiset(s)
    ensures |r| == |s|
  {
    if |s| == 0 then []
    else
      assert s == [s[0]] + s[1..];
      Insert(s[0], SortDesc(s[1..], key), key)
  }

  /** Taking the first k of a descending sort keeps the k highest keys:
      every kept element scores at least as high as every dropped one, and
      kept plus dropped is exactly the input. */
  lemma TopK<T>(s: seq<T>, key: T -> int, k: nat)
    requires k <= |s|
    ensures var r := SortDesc(s, key);
      && multiset(r[..k]) + multiset(r[k..]) == multiset(s)
      && forall a, b :: a in r[..k] && b in r[k..] ==> key(a) >= key(b)
  {
    var r := SortDesc(s, key);
    assert r == r[..k] + r[k..];
    forall a, b | a in r[..k] && b in r[k..]
      ensures key(a) >= key(b)
    {
      var i :| 0 <= i < k && r[i] == a;
      var j :| 0 <= j < |r| - k && r[k..][j] == b;
      assert r[k + j] == b;
    }
  }

  /** The first n of the descending sort: as many as there are up to n,
      sorted, drawn from the input, and scoring at least as high as
      everything left out. */
  function TopN<T>(s: seq<T>, key: T -> int, n: nat): (top: seq<T>)
    ensures |top| == if |s| < n then |s| else n
    ensures SortedDesc(top, key)
    ensures multiset(top) <= multiset(s)
    ensures forall a, b :: a in top && b in multiset(s) - multiset(top) ==> key(a) >= key(b)
  {
    var sorted := SortDesc(s, key);
    var k := if |s| < n then |s| else n;
    TopK(s, key, k);
    assert sorted[..k] == if n <= |sorted| then sorted[..n] else sorted;
    assert multiset(s) - multiset(sorted[..k]) == multiset(sorted[k..]);
    sorted[..k]
  }
}

=== FILE: store.dfy ===
/** The MongoDB collections the routes and the scheduler read and write,
    held as in-memory sequences in insertion order. A mutating route is a
    function from one `Db` to the next. Documents whose shape the code
    fixes are datatypes; `daily_products`, whose rows carry whatever the
    scan returned, are JSON dictionaries. */
module Database {
  import opened Common
  import opened Models
  import opened CompetitorSpy

  /** A `scan_history` document. The scheduler writes a summary; the
      full-scan route stores the whole result, of which the model keeps the
      count. */
  datatype ScanRecord =
    | ScheduledScan(userId: string, scanDate: string, totalProducts: int,
                    sourceStats: map<string, nat>, rawProductsScraped: int, createdAt: int)
    | FullScan(userId: string, totalProducts: int, createdAt: int)

  /** A `verification_codes` document; `expiresAt` is creation plus ten
      minutes, in seconds. */
  datatype VerificationCode = VerificationCode(email: string, code: string, expiresAt: int, createdAt: int)

  /** A `pending_verifications` document written by a successful check. */
  datatype PendingVerification = PendingVerification(email: string, verified: bool, verifiedAt: int)

  /** A `payment_events` document (only failed payments are recorded). */
  datatype PaymentEvent = PaymentEvent(eventType: string, customerId: Option<string>, createdAt: int)

  /** An `exports` log document. */
  datatype ExportLog = ExportLog(userId: string, platform: string, productCount: nat, createdAt: int)

  datatype Db = Db(
    users: seq<User>,
    products: seq<Product>,
    dailyProducts: seq<map<string, Json>>,
    scanHistory: seq<ScanRecord>,
    boards: seq<ProductBoard>,
    launchKits: seq<LaunchKit>,
    competitors: seq<CompetitorStore>,
    competitorProducts: seq<CompetitorProduct>,
    alerts: seq<CompetitorAlert>,
    verificationCodes: seq<VerificationCode>,
    pendingVerifications: seq<PendingVerification>,
    paymentEvents: seq<PaymentEvent>,
    exports: seq<ExportLog>)

  /** A route's answer together with the collections after it ran. A
      route that raises writes nothing unless its model says otherwise. */
  datatype Routed<+T> = Routed(response: Response<T>, db: Db)

  const EmptyDb := Db([], [], [], [], [], [], [], [], [], [], [], [], [])

  /** `find_one({"id": id})` on users. */
  function UserById(users: seq<User>, id: string): (r: Option<nat>)
    ensures r.Some? ==> r.value < |users| && users[r.value].id == id
    ensures r.None? <==> forall j :: 0 <= j < |users| ==> users[j].id != id
  {
    FirstIndex(users, (u: User) => u.id == id)
  }

  /** `find_one({"email": email})` on users (exact match). */
  function UserByEmail(users: seq<User>, email: string): (r: Option<nat>)
    ensures r.Some? ==> r.value < |users| && users[r.value].email == email
    ensures r.None? <==> forall j :: 0 <= j < |users| ==> users[j].email != email
  {
    FirstIndex(users, (u: User) => u.email == email)
  }

  /** `update_one({"id": id}, ...)` on users: the first user with that id is
      replaced by `f` of itself; no match leaves the users unchanged. */
  function UpdateUser(users: seq<User>, id: string, f: User -> User): (r: seq<User>)
    ensures |r| == |users|
    ensures UserById(users, id).None? ==> r == users
    ensures UserById(users, id).Some? ==>
      var k := UserById(users, id).value;
      r[k] == f(users[k]) && forall j :: 0 <= j < |users| && j != k ==> r[j] == users[j]
  {
    match UserById(users, id)
    case None => users
    case Some(k) => users[k := f(users[k])]
  }
}

=== FILE: strings.dfy ===
/** The Python `str` operations the services use to derive names from URLs
    and search terms: `split`, `replace(pat, "")`, `title()` and `lower()`.
    Case mapping is modelled for ASCII letters; every other character is
    uncased. */
module Strings {

  predicate IsUpper(c: char) { 'A' <= c <= 'Z' }
  predicate IsLower(c: char) { 'a' <= c <= 'z' }
  predicate IsCased(c: char) { IsUpper(c) || IsLower(c) }

  function ToUpper(c: char): char {
    if IsLower(c) then (c as int - 32) as char else c
  }

  function ToLower(c: char): char {
    if IsUpper(c) then (c as int + 32) as char else c
  }

  /** Python `s.lower()`. */
  function Lower(s: string): (r: string)
    ensures |r| == |s|
    ensures forall i :: 0 <= i < |s| ==> r[i] == ToLower(s[i])
  {
    if |s| == 0 then [] else [ToLower(s[0])] + Lower(s[1..])
  }

  /** What `title()` does to the character at index i: the first letter of
      every run of letters is upper-cased, every other letter lower-cased. */
  function TitleChar(s: string, i: nat): char
    requires i < |s|
  {
    if !IsCased(s[i]) then s[i]
    else if i > 0 && IsCased(s[i - 1]) then ToLower(s[i])
    else ToUpper(s[i])
  }

  /** Python's left-to-right `title()` loop, carrying whether the previous
      character was cased. */
  function TitleFrom(s: string, prevCased: bool): (r: string)
    ensures |r| == |s|
    ensures |s| > 0 ==> r[0] == (if !IsCased(s[0]) then s[0] else if prevCased then ToLower(s[0]) else ToUpper(s[0]))
    ensures forall i :: 0 < i < |s| ==> r[i] == TitleChar(s, i)
  {
    if |s| == 0 then []
    else
      var c := if !IsCased(s[0]) then s[0] else if prevCased then ToLower(s[0]) else ToUpper(s[0]);
      var rest := TitleFrom(s[1..], IsCased(s[0]));
      assert forall i :: 0 < i < |s| - 1 ==> TitleChar(s[1..], i) == TitleChar(s, i + 1);
      [c] + rest
  }

  /** Python `s.title()`. */
  function Title(s: string): (r: string)
    ensures |r| == |s|
    ensures forall i :: 0 <= i < |s| ==> r[i] == TitleChar(s, i)
  {
    TitleFrom(s, false)
  }

  predicate StartsWith(s: string, pat: string) {
    |pat| <= |s| && s[..|pat|] == pat
  }

  predicate Contains(s: string, pat: string) {
    exists i :: 0 <= i <= |s| - |pat| && StartsWith(s[i..], pat)
  }

  /** Python `s.replace(pat, "")`: removes the non-overlapping occurrences
      of `pat` found scanning from the left. */
  function RemoveAll(s: string, pat: string): (r: string)
    requires |pat| > 0
    ensures |r| <= |s|
    decreases |s|
  {
    if |s| == 0 then []
    else if StartsWith(s, pat) then RemoveAll(s[|pat|..], pat)
    else [s[0]] + RemoveAll(s[1..], pat)
  }

  lemma {:induction false} RemoveAllAbsent(s: string, pat: string)
    requires |pat| > 0
    requires forall i :: 0 <= i < |s| ==> !StartsWith(s[i..], pat)
    ensures RemoveAll(s, pat) == s
    decreases |s|
  {
    if |s| > 0 {
      assert s[0..] == s;
      assert !StartsWith(s, pat);
      assert forall i :: 0 <= i < |s| - 1 ==> s[1..][i..] == s[i + 1..];
      RemoveAllAbsent(s[1..], pat);
    }
  }

  lemma RemoveAllPrefix(pat: string, t: string)
    requires |pat| > 0
    ensures RemoveAll(pat + t, pat) == RemoveAll(t, pat)
  {
    assert StartsWith(pat + t, pat) by { assert (pat + t)[..|pat|] == pat; }
    assert (pat + t)[|pat|..] == t;
  }

  /** Python `s.split(sep)`: the pieces between the non-overlapping
      occurrences of `sep` found scanning from the left. */
  function Split(s: string, sep: string): (r: seq<string>)
    requires |sep| > 0
    ensures |r| >= 1
    decreases |s|
  {
    if |s| == 0 then [""]
    else if StartsWith(s, sep) then [""] + Split(s[|sep|..], sep)
    else
      var rest := Split(s[1..], sep);
      [[s[0]] + rest[0]] + rest[1..]
  }

  function Join(parts: seq<string>, sep: string): string {
    if |parts| == 0 then ""
    else if |parts| == 1 then parts[0]
    else parts[0] + sep + Join(parts[1..], sep)
  }

  /** Splitting and joining again gives back the original text. */
  lemma {:induction false} SplitJoin(s: string, sep: string)
    requires |sep| > 0
    ensures Join(Split(s, sep), sep) == s
    decreases |s|
  {
    if |s| == 0 {
    } else if StartsWith(s, sep) {
      var rest := Split(s[|sep|..], sep);
      SplitJoin(s[|sep|..], sep);
      assert Split(s, sep) == [""] + rest;
      assert ([""] + rest)[1..] == rest;
      assert Join([""] + rest, sep) == "" + sep + Join(rest, sep);
      assert s == s[..|sep|] + s[|sep|..];
    } else {
      var rest := Split(s[1..], sep);
      SplitJoin(s[1..], sep);
      var r := [[s[0]] + rest[0]] + rest[1..];
      assert Split(s, sep) == r;
      if |rest| == 1 {
        assert Join(r, sep) == [s[0]] + rest[0];
        assert Join(rest, sep) == rest[0];
      } else {
        assert r[1..] == rest[1..];
        assert Join(r, sep) == [s[0]] + rest[0] + sep + Join(rest[1..], sep);
        assert Join(rest, sep) == rest[0] + sep + Join(rest[1..], sep);
      }
      assert s == [s[0]] + s[1..];
    }
  }

  /** The text before the first `c`, or all of `s` when there is none. */
  function BeforeFirst(s: string, c: char): (r: string)
    ensures r <= s
    ensures c !in r
    ensures |r| < |s| ==> s[|r|] == c
  {
    if |s| == 0 || s[0] == c then "" else [s[0]] + BeforeFirst(s[1..], c)
  }

  /** `BeforeFirst` is Python's `s.split(c)[0]` for a one-character `c`. */
  lemma {:induction false} BeforeFirstIsSplit(s: string, c: char)
    ensures BeforeFirst(s, c) == Split(s, [c])[0]
    decreases |s|
  {
    if |s| > 0 {
      if s[0] == c {
        assert StartsWith(s, [c]);
      } else {
        assert !StartsWith(s, [c]);
        BeforeFirstIsSplit(s[1..], c);
      }
    }
  }
}

=== FILE: tiers.dfy ===
/** Tier-based feature gating (`backend/routes/tiers.py`): the tier level
    table, which tier each feature needs, per-tier daily limits where -1
    means unlimited, and the checks built on them. */
module Tiers {
  import opened Common
  import opened Models
  import Strings

  /** The tiers in increasing order of access. */
  const TierOrder: seq<string> := ["free", "sniper", "elite", "agency", "enterprise"]

  /** `TIER_LEVELS.get(tier, 0)`. */
  function TierLevel(tier: string): (level: nat)
    ensures level < |TierOrder|
    ensures forall i :: 0 <= i < |TierOrder| && TierOrder[i] == tier ==> level == i
    ensures tier !in TierOrder ==> level == 0
  {
    match tier
    case "sniper" => 1
    case "elite" => 2
    case "agency" => 3
    case "enterprise" => 4
    case _ => 0
  }

  const FeatureTiers: map<string, string> := map[
    "basic_products" := "free",
    "daily_report" := "free",
    "launch_kit" := "sniper",
    "telegram_alerts" := "elite",
    "competitor_spy" := "elite",
    "saturation_radar" := "elite",
    "export_shopify" := "elite",
    "export_woocommerce" := "elite",
    "google_trends" := "elite",
    "unlimited_products" := "elite",
    "api_access" := "agency",
    "team_seats" := "agency",
    "white_label" := "agency"
  ]

  /** `FEATURE_TIERS.get(feature, default)`. */
  function RequiredTier(feature: string, default: string): string {
    if feature in FeatureTiers then FeatureTiers[feature] else default
  }

  /** `has_feature_access`: the user's level reaches the level of the tier
      the feature needs; an unknown feature needs "free". */
  function HasFeatureAccess(tier: string, feature: string): (ok: bool)
    ensures feature !in FeatureTiers ==> ok
    ensures ok <==> TierLevel(tier) >= TierLevel(RequiredTier(feature, "free"))
  {
    TierLevel(tier) >= TierLevel(RequiredTier(feature, "free"))
  }

  /** Access is monotone in the tier level. */
  lemma AccessMonotone(lower: string, higher: string, feature: string)
    requires TierLevel(lower) <= TierLevel(higher)
    requires HasFeatureAccess(lower, feature)
    ensures HasFeatureAccess(higher, feature)
  {
  }

  /** The tiers of the table that may use a feature are exactly a suffix of
      the tier order, starting at the required tier. */
  lemma {:induction false} AccessIsSuffix(feature: string)
    ensures forall i :: 0 <= i < |TierOrder| ==>
      (HasFeatureAccess(TierOrder[i], feature) <==> i >= TierLevel(RequiredTier(feature, "free")))
  {
    forall i | 0 <= i < |TierOrder|
      ensures HasFeatureAccess(TierOrder[i], feature) <==> i >= TierLevel(RequiredTier(feature, "free"))
    {
      assert TierLevel(TierOrder[i]) == i;
    }
  }

  /** The 403 raised by the `require_feature` checker. */
  datatype Gate =
    | Allowed(user: User)
    | Denied(status: int, feature: string, requiredTier: string, currentTier: string, message: string)

  /** `require_feature(feature)` applied to a user. */
  function RequireFeature(user: User, feature: string): (g: Gate)
    ensures g.Allowed? <==> HasFeatureAccess(user.subscriptionTier, feature)
    ensures g.Allowed? ==> g.user == user
    ensures g.Denied? ==> && g.status == 403
                          && feature in FeatureTiers
                          && g.requiredTier == FeatureTiers[feature]
                          && g.currentTier == user.subscriptionTier
                          && TierLevel(g.currentTier) < TierLevel(g.requiredTier)
  {
    if HasFeatureAccess(user.subscriptionTier, feature) then Allowed(user)
    else
      var required := RequiredTier(feature, "elite");
      Denied(403, feature, required, user.subscriptionTier,
             "Upgrade to " + Strings.Title(required) + " to access this feature")
  }

  datatype TierLimits = TierLimits(productsPerDay: int, scansPerDay: int, competitors: int)

  const FreeLimits := TierLimits(3, 1, 0)

  /** A limit admits `used` items so far and one more: -1 is unlimited. */
  predicate Admits(limit: int, used: nat) {
    limit == -1 || used < limit
  }

  /** `get_tier_limits`: unknown tiers get the free limits. */
  function GetTierLimits(tier: string): (l: TierLimits)
    ensures tier !in TierOrder ==> l == FreeLimits
    ensures l.productsPerDay == -1 || l.productsPerDay > 0
    ensures l.scansPerDay == -1 || l.scansPerDay > 0
    ensures l.competitors >= -1
  {
    match tier
    case "sniper" => TierLimits(10, 3, 2)
    case "elite" => TierLimits(-1, -1, 10)
    case "agency" => TierLimits(-1, -1, -1)
    case "enterprise" => TierLimits(-1, -1, -1)
    case _ => FreeLimits
  }

  /** A higher level never admits less than a lower one, limit by limit. */
  lemma LimitsMonotone(lower: string, higher: string, used: nat)
    requires TierLevel(lower) <= TierLevel(higher)
    ensures Admits(GetTierLimits(lower).productsPerDay, used) ==> Admits(GetTierLimits(higher).productsPerDay, used)
    ensures Admits(GetTierLimits(lower).scansPerDay, used) ==> Admits(GetTierLimits(higher).scansPerDay, used)
    ensures Admits(GetTierLimits(lower).competitors, used) ==> Admits(GetTierLimits(higher).competitors, used)
  {
  }

  datatype FeatureStatus = FeatureStatus(available: bool, requiredTier: string)

  /** `get_all_features_status`: one entry per feature of the table. */
  function GetAllFeaturesStatus(user: User): (m: map<string, FeatureStatus>)
    ensures m.Keys == FeatureTiers.Keys
    ensures forall f :: f in m ==> m[f].requiredTier == FeatureTiers[f]
    ensures forall f :: f in m ==> (m[f].available <==> TierLevel(user.subscriptionTier) >= TierLevel(FeatureTiers[f]))
  {
    map f | f in FeatureTiers :: FeatureStatus(HasFeatureAccess(user.subscriptionTier, f), FeatureTiers[f])
  }

  /** The names `backend/routes/tiers.py` defines at module level. */
  const DefinedNames: set<string> := {
    "TIER_LEVELS", "FEATURE_TIERS", "TIER_LIMITS", "get_tier_level", "has_feature_access",
    "require_feature", "get_tier_limits", "get_all_features_status"
  }
}

=== FILE: trends.dfy ===
/** The Google Trends routes (`backend/routes/trends.py`): trend direction
    from quarter sums, the change-percent classification of the batch
    analysis, the "Breakout" mapping of related queries, the caps on list
    sizes, and the fallback answers that replace every exception. The
    pytrends calls are parameters: what they return, or that they raised.
    Interest values are the integers the code casts them to. */
module Trends {
  import opened Common

  // ------------------------------------------------------- quarter sums

  /** `len(data) // 4`. */
  function Quarter(n: nat): nat {
    n / 4
  }

  /** Where `data[-len(data)//4:]` starts: Python parses the bound as
      `(-len(data)) // 4`, a floor division. */
  function LastSliceStart(n: nat): (start: nat)
    requires n >= 4
    ensures start <= n
  {
    n + (-(n as int)) / 4
  }

  /** The slice that start gives is the last ceil(n/4) items: one longer
      than a quarter unless n is a multiple of 4. */
  lemma LastSliceIsCeiling(n: nat)
    requires n >= 4
    ensures n - LastSliceStart(n) == (n + 3) / 4
    ensures n - LastSliceStart(n) == Quarter(n) <==> n % 4 == 0
  {
  }

  function FirstSum(data: seq<int>): int
    requires |data| >= 4
  {
    Sum(data[..Quarter(|data|)])
  }

  function LastSum(data: seq<int>): int
    requires |data| >= 4
  {
    Sum(data[LastSliceStart(|data|)..])
  }

  /** The direction of `get_keyword_interest`. Both quarter averages divide
      by the same `n // 4`, so `last > first * 1.1` is `10 * lastSum >
      11 * firstSum`, and `last < first * 0.9` is `10 * lastSum < 9 *
      firstSum`. */
  function TrendDirection(data: seq<int>): (dir: string)
    ensures dir == "up" || dir == "down" || dir == "stable"
    ensures |data| < 4 ==> dir == "stable"
    ensures |data| >= 4 ==> (dir == "up" <==> 10 * LastSum(data) > 11 * FirstSum(data))
    ensures |data| >= 4 ==> (dir == "down" <==> 10 * LastSum(data) <= 11 * FirstSum(data) && 10 * LastSum(data) < 9 * FirstSum(data))
  {
    if |data| < 4 then "stable"
    else
      var first := FirstSum(data);
      var last := LastSum(data);
      if 10 * last > 11 * first then "up"
      else if 10 * last < 9 * first then "down"
      else "stable"
  }

  /** A flat series of five points reads as rising: its "last quarter" has
      two points against one in the first. */
  lemma FlatFiveReadsUp()
    ensures TrendDirection([10, 10, 10, 10, 10]) == "up"
  {
    var d := [10, 10, 10, 10, 10];
    assert LastSliceStart(5) == 3;
    assert d[..1] == [10];
    assert d[3..] == [10, 10];
    assert Sum([10]) == 10 by {
      assert [10][..0] == [];
    }
    assert Sum([10, 10]) == 20 by {
      assert [10, 10][..1] == [10];
      assert [10][..0] == [];
    }
  }

  /** The evidently intended direction: the last `n // 4` points against
      the first `n // 4`. */
  function TrendDirectionIntended(data: seq<int>): (dir: string)
    ensures dir == "up" || dir == "down" || dir == "stable"
    ensures |data| < 4 ==> dir == "stable"
    ensures |data| >= 4 ==> (dir == "up" <==> 10 * Sum(LastN(data, Quarter(|data|))) > 11 * FirstSum(data))
  {
    if |data| < 4 then "stable"
    else
      var first := FirstSum(data);
      var last := Sum(LastN(data, Quarter(|data|)));
      if 10 * last > 11 * first then "up"
      else if 10 * last < 9 * first then "down"
      else "stable"
  }

  /** Sum of k copies of c. */
  lemma {:induction false} SumConstant(s: seq<int>, c: int)
    requires forall i :: 0 <= i < |s| ==> s[i] == c
    ensures Sum(s) == |s| * c
  {
    if |s| > 0 {
      SumConstant(s[..|s| - 1], c);
    }
  }

  /** With equal-sized quarters, a flat series of non-negative interest is
      stable whatever its length. */
  lemma FlatIsStableWhenIntended(data: seq<int>, c: nat)
    requires forall i :: 0 <= i < |data| ==> data[i] == c
    ensures TrendDirectionIntended(data) == "stable"
  {
    if |data| >= 4 {
      var q := Quarter(|data|);
      SumConstant(data[..q], c);
      SumConstant(LastN(data, q), c);
    }
  }

  // ------------------------------------------------------------ interest

  datatype InterestResult =
    | NoInterest                                        // empty frame: data [] and average 0
    | Interest(data: seq<int>, average: real, direction: string)
    | InterestFallback(error: string)                   // data [] and fallback true

  /** What pytrends gave for a keyword: the interest series (empty when the
      frame was empty), or the message of the exception it raised. */
  datatype Fetch<T> = Fetched(value: T) | FetchRaised(message: string)

  function Mean(data: seq<int>): real
    requires |data| > 0
  {
    (Sum(data) as real) / (|data| as real)
  }

  /** `GET /trends/interest/{keyword}`. */
  function KeywordInterest(fetch: Fetch<seq<int>>): (r: InterestResult)
    ensures fetch.FetchRaised? <==> r.InterestFallback?
    ensures fetch.Fetched? && |fetch.value| == 0 <==> r.NoInterest?
    ensures r.Interest? ==> && r.data == fetch.value && |r.data| > 0
                            && r.average * (|r.data| as real) == Sum(r.data) as real
                            && r.direction == TrendDirection(r.data)
  {
    match fetch
    case FetchRaised(msg) => InterestFallback(msg)
    case Fetched(data) =>
      if |data| == 0 then NoInterest
      else Interest(data, Mean(data), TrendDirection(data))
  }

  // ------------------------------------------------------- batch analysis

  /** The change in percent between the quarter averages, 0 when the first
      quarter sums to zero or less, or when there are fewer than 4 points. */
  function ChangePercent(values: seq<int>): (c: real)
    ensures |values| < 4 || FirstSum(values) <= 0 ==> c == 0.0
    ensures |values| >= 4 && FirstSum(values) > 0 ==>
      c * (FirstSum(values) as real) == ((LastSum(values) - FirstSum(values)) * 100) as real
  {
    if |values| < 4 then 0.0
    else
      var q := Quarter(|values|) as real;
      var first := FirstSum(values) as real / q;
      var last := LastSum(values) as real / q;
      if first > 0.0 then (last - first) / first * 100.0 else 0.0
  }

  function ChangeTrend(change: real): (t: string)
    ensures t == "up" <==> change > 10.0
    ensures t == "down" <==> change < -10.0
    ensures t == "stable" <==> -10.0 <= change <= 10.0
  {
    if change > 10.0 then "up" else if change < -10.0 then "down" else "stable"
  }

  /** When the first quarter is positive the batch classification agrees
      with the keyword route's direction. */
  lemma ClassificationsAgree(values: seq<int>)
    requires |values| >= 4 && FirstSum(values) > 0
    ensures ChangeTrend(ChangePercent(values)) == TrendDirection(values)
  {
    var f := FirstSum(values);
    var l := LastSum(values);
    var c := ChangePercent(values);
    ScaledThreshold(c, f, (l - f) * 100, 10);
    ScaledThreshold(c, f, (l - f) * 100, -10);
    var d := TrendDirection(values);
    assert d == "up" <==> 10 * l > 11 * f;
    assert d == "down" <==> 10 * l <= 11 * f && 10 * l < 9 * f;
  }

  /** A real `c` with `c * f == a` lies above (below) the threshold `k`
      exactly when `a` lies above (below) `k * f`. */
  lemma ScaledThreshold(c: real, f: int, a: int, k: int)
    requires f > 0 && c * (f as real) == a as real
    ensures c > k as real <==> a > k * f
    ensures c < k as real <==> a < k * f
  {
    ScaledCompare(c, f as real, k as real);
    assert (k as real) * (f as real) == (k * f) as real;
  }

  /** Multiplying by a positive factor keeps the order. */
  lemma ScaledCompare(c: real, f: real, k: real)
    requires f > 0.0
    ensures c > k <==> c * f > k * f
    ensures c < k <==> c * f < k * f
  {
    if c > k {
      assert (c - k) * f > 0.0;
    } else if c < k {
      assert (k - c) * f > 0.0;
    }
  }

  datatype ProductTrend =
    | Measured(product: string, current: int, average: real, changePercent: real, trend: string)
    | Unmeasured(product: string)                      // empty frame: zeros and "unknown"
    | Failed(product: string, error: string)           // trend "error"

  function TrendLabel(t: ProductTrend): string {
    match t
    case Measured(_, _, _, _, trend) => trend
    case Unmeasured(_) => "unknown"
    case Failed(_, _) => "error"
  }

  function AnalyzeOne(name: string, fetch: Fetch<seq<int>>): (t: ProductTrend)
    ensures t.product == name
    ensures t.Failed? <==> fetch.FetchRaised?
    ensures t.Unmeasured? <==> fetch.Fetched? && |fetch.value| == 0
    ensures t.Measured? ==> t.current == fetch.value[|fetch.value| - 1]
                            && t.changePercent == ChangePercent(fetch.value)
                            && t.trend == ChangeTrend(t.changePercent)
  {
    match fetch
    case FetchRaised(msg) => Failed(name, msg)
    case Fetched(values) =>
      if |values| == 0 then Unmeasured(name)
      else
        var change := ChangePercent(values);
        Measured(name, values[|values| - 1], Mean(values), change, ChangeTrend(change))
  }

  const BatchLimit := 5

  /** `POST /trends/analyze-products`: the first five names, one result
      each, in order; a name whose fetch raised gets an error entry and the
      loop goes on. */
  function AnalyzeProducts(names: seq<string>, fetch: string -> Fetch<seq<int>>): (r: seq<ProductTrend>)
    ensures |r| == if |names| < BatchLimit then |names| else BatchLimit
    ensures forall i :: 0 <= i < |r| ==> r[i].product == names[i] && r[i] == AnalyzeOne(names[i], fetch(names[i]))
    ensures forall i :: 0 <= i < |r| ==> TrendLabel(r[i]) in {"up", "down", "stable", "unknown", "error"}
  {
    var handled := Take(names, BatchLimit);
    seq(|handled|, i requires 0 <= i < |handled| => AnalyzeOne(handled[i], fetch(handled[i])))
  }

  // ------------------------------------------------------ related queries

  /** A related-query value: a count, or the "Breakout" marker. */
  datatype RelatedValue = Count(n: int) | Breakout

  datatype RelatedRow = RelatedRow(query: string, value: RelatedValue)

  /** A query and its value, as the route answers it. */
  datatype Query = Query(query: string, value: int)

  /** The frames pytrends returns for the keyword: rising and top, each
      possibly None. */
  datatype RelatedFrames = RelatedFrames(rising: Option<seq<RelatedRow>>, top: Option<seq<RelatedRow>>)

  datatype RelatedResult =
    | Related(rising: seq<Query>, top: seq<Query>)
    | RelatedFallback(error: string)                    // rising and top [], fallback true

  const RelatedLimit := 10

  function RisingValue(v: RelatedValue): int {
    match v
    case Breakout => 1000
    case Count(n) => n
  }

  function RisingQueries(rows: seq<RelatedRow>): (r: seq<Query>)
    ensures |r| == if |rows| < RelatedLimit then |rows| else RelatedLimit
    ensures forall i :: 0 <= i < |r| ==> r[i].query == rows[i].query
    ensures forall i :: 0 <= i < |r| ==> (rows[i].value.Breakout? ==> r[i].value == 1000)
                                          && (rows[i].value.Count? ==> r[i].value == rows[i].value.n)
  {
    var head := Take(rows, RelatedLimit);
    seq(|head|, i requires 0 <= i < |head| => Query(head[i].query, RisingValue(head[i].value)))
  }

  /** The top frame is cast with `int()` alone: a "Breakout" among its
      first ten rows raises. */
  function TopQueries(rows: seq<RelatedRow>): (r: Option<seq<Query>>)
    ensures r.None? <==> exists i :: 0 <= i < |rows| && i < RelatedLimit && rows[i].value.Breakout?
    ensures r.Some? ==> |r.value| == (if |rows| < RelatedLimit then |rows| else RelatedLimit)
                        && forall i :: 0 <= i < |r.value| ==> r.value[i] == Query(rows[i].query, rows[i].value.n)
  {
    var head := Take(rows, RelatedLimit);
    if exists i :: 0 <= i < |head| && head[i].value.Breakout? then None
    else Some(seq(|head|, i requires 0 <= i < |head| => Query(head[i].query, head[i].value.n)))
  }

  /** `GET /trends/related/{keyword}`: `frames` is None when the keyword is
      missing from the answer. */
  function RelatedQueries(fetch: Fetch<Option<RelatedFrames>>): (r: RelatedResult)
    ensures fetch.FetchRaised? ==> r.RelatedFallback?
    ensures r.Related? ==> |r.rising| <= RelatedLimit && |r.top| <= RelatedLimit
    ensures fetch.Fetched? && fetch.value.None? ==> r == Related([], [])
    // no top frame: the rising queries, if that frame was read, and no top queries
    ensures fetch.Fetched? && fetch.value.Some? && fetch.value.value.top.None? ==>
      r == Related(if fetch.value.value.rising.Some? then RisingQueries(fetch.value.value.rising.value) else [], [])
    // both frames read: the top frame's cast decides between the fallback and the answer
    ensures fetch.Fetched? && fetch.value.Some? && fetch.value.value.top.Some? ==>
      var frames := fetch.value.value;
      var rising := if frames.rising.Some? then RisingQueries(frames.rising.value) else [];
      && (r.RelatedFallback? <==> TopQueries(frames.top.value).None?)
      && (TopQueries(frames.top.value).Some? ==> r == Related(rising, TopQueries(frames.top.value).value))
    ensures fetch.Fetched? && fetch.value.Some? && fetch.value.value.rising.None? && r.Related? ==> r.rising == []
  {
    match fetch
    case FetchRaised(msg) => RelatedFallback(msg)
    case Fetched(None) => Related([], [])
    case Fetched(Some(frames)) =>
      var rising := if frames.rising.Some? then RisingQueries(frames.rising.value) else [];
      if frames.top.None? then Related(rising, [])
      else match TopQueries(frames.top.value)
        case None => RelatedFallback("invalid literal for int()")
        case Some(top) => Related(rising, top)
  }

  /** With both frames read, only a "Breakout" among the top frame's first
      ten rows falls back; one in the rising frame is answered as 1000. */
  lemma BreakoutFallsBackOnlyInTop(rising: seq<RelatedRow>, top: seq<RelatedRow>)
    ensures var r := RelatedQueries(Fetched(Some(RelatedFrames(Some(rising), Some(top)))));
      && (r.RelatedFallback? <==> exists i :: 0 <= i < |top| && i < RelatedLimit && top[i].value.Breakout?)
      && (r.Related? ==> forall i :: 0 <= i < |r.rising| && rising[i].value.Breakout? ==> r.rising[i].value == 1000)
  {
  }
  /** A keyword whose rising and top frames are both None is answered
      with two empty lists. */
  lemma NoFramesNoQueries()
    ensures RelatedQueries(Fetched(Some(RelatedFrames(None, None)))) == Related([], [])
  {
  }



  // ---------------------------------------------------- trending searches

  datatype RisingResult = Rising(searches: seq<string>) | RisingFallback(error: string)

  const TrendingLimit := 20

  /** `GET /trends/rising`: at most twenty searches; an exception gives the
      fallback with an empty list. */
  function RisingTrends(fetch: Fetch<seq<string>>): (r: RisingResult)
    ensures r.RisingFallback? <==> fetch.FetchRaised?
    ensures r.Rising? ==> r.searches <= fetch.value
                          && |r.searches| == if |fetch.value| < TrendingLimit then |fetch.value| else TrendingLimit
  {
    match fetch
    case FetchRaised(msg) => RisingFallback(msg)
    case Fetched(searches) => Rising(Take(searches, TrendingLimit))
  }
}

=== FILE: users.dfy ===
/** The user routes (`backend/routes/users.py`): the key status with its
    masks, the partial key update, key deletion, and the tier status, which
    hands a tier name to a function that expects a user. */
module Users {
  import opened Common
  import opened Models
  import opened Database
  import opened Tiers

  // ------------------------------------------------------------ key status

  datatype KeyStatus = KeyStatus(
    hasOpenaiKey: bool,
    hasTelegramToken: bool,
    telegramChatId: Option<string>,
    openaiKeyMasked: Option<string>,
    telegramTokenMasked: Option<string>)

  /** A mask: the prefix followed by the last `n` characters (all of them
      when the secret is shorter), or None for an unset or empty secret. */
  function Mask(secret: Option<string>, prefix: string, n: nat): (m: Option<string>)
    ensures m.Some? <==> Present(secret)
    ensures m.Some? ==> |prefix| <= |m.value| <= |prefix| + n
    ensures m.Some? ==> m.value[..|prefix|] == prefix && m.value[|prefix|..] == LastN(secret.value, n)
  {
    if Present(secret) then Some(prefix + LastN(secret.value, n)) else None
  }

  /** `GET /user/keys`. */
  function GetKeys(user: User): (s: KeyStatus)
    ensures s.hasOpenaiKey <==> s.openaiKeyMasked.Some?
    ensures s.hasTelegramToken <==> s.telegramTokenMasked.Some?
    ensures s.telegramChatId == user.telegramChatId
  {
    KeyStatus(
      Present(user.openaiApiKey),
      Present(user.telegramBotToken),
      user.telegramChatId,
      Mask(user.openaiApiKey, "sk-...", 4),
      Mask(user.telegramBotToken, "...", 6))
  }

  /** A mask shows no more of the secret than its last characters: two keys
      that end alike get the same mask. */
  lemma MaskHidesPrefix(a: string, b: string)
    requires |a| >= 4 && |b| >= 4 && a[|a| - 4..] == b[|b| - 4..]
    ensures Mask(Some(a), "sk-...", 4) == Mask(Some(b), "sk-...", 4)
  {
  }

  // ------------------------------------------------------------ key update

  /** The body of `PUT /user/keys`; an absent field is None. */
  datatype KeysUpdate = KeysUpdate(
    openaiApiKey: Option<string> := None,
    telegramBotToken: Option<string> := None,
    telegramChatId: Option<string> := None)

  /** The value written for a sent field: an empty string clears it. */
  function Cleared(v: string): (r: Option<string>)
    ensures r.None? <==> v == ""
    ensures r.Some? ==> r.value == v
  {
    if v == "" then None else Some(v)
  }

  /** The field after the update: untouched when not sent. */
  function Write(current: Option<string>, sent: Option<string>): Option<string> {
    match sent
    case None => current
    case Some(v) => Cleared(v)
  }

  function ApplyKeys(u: User, upd: KeysUpdate): (r: User)
    ensures r.(openaiApiKey := u.openaiApiKey, telegramBotToken := u.telegramBotToken, telegramChatId := u.telegramChatId) == u
  {
    u.(openaiApiKey := Write(u.openaiApiKey, upd.openaiApiKey),
       telegramBotToken := Write(u.telegramBotToken, upd.telegramBotToken),
       telegramChatId := Write(u.telegramChatId, upd.telegramChatId))
  }

  /** The names of the fields sent, in declaration order. */
  function UpdatedFields(upd: KeysUpdate): (fields: seq<string>)
    ensures "openai_api_key" in fields <==> upd.openaiApiKey.Some?
    ensures "telegram_bot_token" in fields <==> upd.telegramBotToken.Some?
    ensures "telegram_chat_id" in fields <==> upd.telegramChatId.Some?
    ensures |fields| <= 3
  {
    (if upd.openaiApiKey.Some? then ["openai_api_key"] else [])
    + (if upd.telegramBotToken.Some? then ["telegram_bot_token"] else [])
    + (if upd.telegramChatId.Some? then ["telegram_chat_id"] else [])
  }

  /** `PUT /user/keys`: the sent fields are written to the current user's
      document, nothing is written when none was sent. */
  function UpdateKeys(user: User, upd: KeysUpdate, db: Db): (r: Routed<seq<string>>)
    ensures r.response == Ok(UpdatedFields(upd))
    ensures |UpdatedFields(upd)| == 0 ==> r.db == db
    ensures |UpdatedFields(upd)| > 0 ==> r.db == db.(users := UpdateUser(db.users, user.id, u => ApplyKeys(u, upd)))
  {
    var fields := UpdatedFields(upd);
    if |fields| == 0 then Routed(Ok(fields), db)
    else Routed(Ok(fields), db.(users := UpdateUser(db.users, user.id, u => ApplyKeys(u, upd))))
  }

  /** After an update the status reports exactly what was sent: a
      non-empty key is present and masked from its last characters (four of
      the OpenAI key, six of the bot token); an empty one is gone; an unsent
      one is as before. */
  lemma UpdateThenStatus(u: User, upd: KeysUpdate)
    ensures var s := GetKeys(ApplyKeys(u, upd));
      && (upd.openaiApiKey.Some? ==>
            && (s.hasOpenaiKey <==> upd.openaiApiKey.value != "")
            && (s.hasOpenaiKey ==> s.openaiKeyMasked == Some("sk-..." + LastN(upd.openaiApiKey.value, 4))))
      && (upd.openaiApiKey.None? ==>
            s.hasOpenaiKey == GetKeys(u).hasOpenaiKey && s.openaiKeyMasked == GetKeys(u).openaiKeyMasked)
      && (upd.telegramBotToken.Some? ==>
            && (s.hasTelegramToken <==> upd.telegramBotToken.value != "")
            && (s.hasTelegramToken ==> s.telegramTokenMasked == Some("..." + LastN(upd.telegramBotToken.value, 6))))
      && (upd.telegramBotToken.None? ==>
            s.hasTelegramToken == GetKeys(u).hasTelegramToken && s.telegramTokenMasked == GetKeys(u).telegramTokenMasked)
      && (upd.telegramChatId.Some? ==> s.telegramChatId == Cleared(upd.telegramChatId.value))
      && (upd.telegramChatId.None? ==> s.telegramChatId == u.telegramChatId)
  {
  }

  // -------------------------------------------------------------- deletion

  const ValidKeys: seq<string> := ["openai_api_key", "telegram_bot_token", "telegram_chat_id"]

  function ClearKey(u: User, keyType: string): User
    requires keyType in ValidKeys
  {
    if keyType == "openai_api_key" then u.(openaiApiKey := None)
    else if keyType == "telegram_bot_token" then u.(telegramBotToken := None)
    else u.(telegramChatId := None)
  }

  /** `DELETE /user/keys/{key_type}`: 400 for a name outside the three;
      otherwise only that field is set to None. */
  function DeleteKey(user: User, keyType: string, db: Db): (r: Routed<string>)
    ensures keyType !in ValidKeys <==> r.response.Fail?
    ensures r.response.Fail? ==> r.response.error.status == 400 && r.db == db
    ensures r.response.Ok? ==>
      r.response.value == keyType && r.db == db.(users := UpdateUser(db.users, user.id, u => ClearKey(u, keyType)))
  {
    if keyType !in ValidKeys then
      Routed(Err(400, "Invalid key type. Must be one of: ['openai_api_key', 'telegram_bot_token', 'telegram_chat_id']"), db)
    else Routed(Ok(keyType), db.(users := UpdateUser(db.users, user.id, u => ClearKey(u, keyType))))
  }

  /** Deleting a key clears what the status shows for it and leaves the
      other two alone. */
  lemma DeleteThenStatus(u: User, keyType: string)
    requires keyType in ValidKeys
    ensures var s := GetKeys(ClearKey(u, keyType));
      && (keyType == "openai_api_key" ==>
            !s.hasOpenaiKey && s.openaiKeyMasked.None? && s.hasTelegramToken == GetKeys(u).hasTelegramToken && s.telegramChatId == u.telegramChatId)
      && (keyType == "telegram_bot_token" ==>
            !s.hasTelegramToken && s.telegramTokenMasked.None? && s.hasOpenaiKey == GetKeys(u).hasOpenaiKey)
      && (keyType == "telegram_chat_id" ==> s.telegramChatId.None? && s == GetKeys(u).(telegramChatId := None))
  {
  }

  // ----------------------------------------------------------- tier status

  /** What reaches `get_all_features_status`: the route passes the tier
      name, where the function reads `.subscription_tier` off a user. */
  datatype FeatureArg = UserArg(user: User) | TierName(tier: string)

  /** The feature table computed for the argument; None when reading the
      tier off a plain string raises, which happens as soon as one feature
      is checked. */
  function FeaturesFor(arg: FeatureArg): (r: Option<map<string, FeatureStatus>>)
    ensures arg.UserArg? ==> r == Some(GetAllFeaturesStatus(arg.user))
    ensures arg.TierName? && |FeatureTiers| > 0 ==> r.None?
  {
    match arg
    case UserArg(u) => Some(GetAllFeaturesStatus(u))
    case TierName(_) => if |FeatureTiers| == 0 then Some(map[]) else None
  }

  datatype TierStatus = TierStatus(
    currentTier: string,
    tierLevel: nat,
    limits: TierLimits,
    features: map<string, FeatureStatus>)

  function StatusWith(user: User, arg: FeatureArg): (r: Response<TierStatus>)
    ensures FeaturesFor(arg).None? <==> r.Fail?
    ensures r.Fail? ==> r.error.status == 500
    ensures r.Ok? ==> r.value.tierLevel == TierLevel(user.subscriptionTier)
    ensures r.Ok? ==> r.value.limits == GetTierLimits(user.subscriptionTier)
    ensures r.Ok? ==> r.value.features == FeaturesFor(arg).value
  {
    match FeaturesFor(arg)
    case None => Err(500, "'str' object has no attribute 'subscription_tier'")
    case Some(features) =>
      Ok(TierStatus(user.subscriptionTier, TierLevel(user.subscriptionTier),
                    GetTierLimits(user.subscriptionTier), features))
  }

  /** `GET /user/tier-status` as written: the tier name is passed on. */
  function GetTierStatus(user: User): (r: Response<TierStatus>)
    ensures r.Fail? && r.error.status == 500
  {
    assert "basic_products" in FeatureTiers;
    StatusWith(user, TierName(user.subscriptionTier))
  }

  /** As written, the route answers 500 for every user. */
  lemma TierStatusAlwaysFails(user: User)
    ensures GetTierStatus(user).Fail? && GetTierStatus(user).error.status == 500
  {
    assert "basic_products" in FeatureTiers;
  }

  /** The route passing the user itself, as the function's signature asks. */
  function GetTierStatusIntended(user: User): (r: Response<TierStatus>)
    ensures r.Ok? && r.value.features.Keys == FeatureTiers.Keys
    ensures r.Ok? ==> r.value.currentTier == user.subscriptionTier
    ensures r.Ok? ==> r.value.tierLevel == TierLevel(user.subscriptionTier)
    ensures r.Ok? ==> r.value.limits == GetTierLimits(user.subscriptionTier)
  {
    StatusWith(user, UserArg(user))
  }

  /** Passing the user, the route answers with one entry per feature, and
      an unknown tier is reported at level 0 with the free limits. */
  lemma TierStatusIntendedAnswers(user: User)
    ensures GetTierStatusIntended(user).Ok?
    ensures GetTierStatusIntended(user).value.features.Keys == FeatureTiers.Keys
    ensures user.subscriptionTier !in TierOrder ==>
      GetTierStatusIntended(user).value.tierLevel == 0 && GetTierStatusIntended(user).value.limits == FreeLimits
  {
  }
}

=== FILE: verification.dfy ===
/** The email verification routes (`backend/routes/verification.py`): a
    six-digit code per email, stored with a ten-minute expiry, checked in a
    fixed order of failures, and deleted once used. The random digits, the
    clock, whether the mail service is configured and whether sending the
    mail raised are parameters. */
module Verification {
  import opened Common
  import opened Models
  import opened Database

  const CodeLength := 6
  const CodeLifetime := 600     // ten minutes, in seconds

  predicate IsDigit(c: char) {
    '0' <= c <= '9'
  }

  /** `generate_code`: one decimal digit per draw of `randbelow(10)`. */
  function GenerateCode(draws: seq<nat>): (code: string)
    requires |draws| == CodeLength
    requires forall i :: 0 <= i < |draws| ==> draws[i] < 10
    ensures |code| == CodeLength
    ensures forall i :: 0 <= i < |code| ==> IsDigit(code[i])
  {
    seq(|draws|, i requires 0 <= i < |draws| => DigitChar(draws[i]))
  }

  function DigitValue(c: char): nat
    requires IsDigit(c)
  {
    (c - '0') as nat
  }

  /** The code determines the draws: reading its digits back gives them. */
  lemma CodeRecordsDraws(draws: seq<nat>)
    requires |draws| == CodeLength
    requires forall i :: 0 <= i < |draws| ==> draws[i] < 10
    ensures forall i :: 0 <= i < CodeLength ==> DigitValue(GenerateCode(draws)[i]) == draws[i]
  {
  }

  // -------------------------------------------------------------- sending

  /** The stored code of an email: the first document for it. */
  function CodeFor(codes: seq<VerificationCode>, email: string): (r: Option<nat>)
    ensures r.Some? ==> r.value < |codes| && codes[r.value].email == email
    ensures r.None? <==> forall j :: 0 <= j < |codes| ==> codes[j].email != email
  {
    FirstIndex(codes, (c: VerificationCode) => c.email == email)
  }

  /** `update_one({"email": email}, {"$set": ...}, upsert=True)`: the
      email's document is replaced, or one is added when there is none. */
  function UpsertCode(codes: seq<VerificationCode>, doc: VerificationCode): (r: seq<VerificationCode>)
    ensures CodeFor(codes, doc.email).None? ==> r == codes + [doc]
    ensures CodeFor(codes, doc.email).Some? ==> r == codes[CodeFor(codes, doc.email).value := doc]
  {
    match CodeFor(codes, doc.email)
    case None => codes + [doc]
    case Some(k) => codes[k := doc]
  }

  /** At most one code document per email. */
  predicate OneCodePerEmail(codes: seq<VerificationCode>) {
    forall i, j :: 0 <= i < j < |codes| ==> codes[i].email != codes[j].email
  }

  lemma UpsertKeepsOnePerEmail(codes: seq<VerificationCode>, doc: VerificationCode)
    requires OneCodePerEmail(codes)
    ensures OneCodePerEmail(UpsertCode(codes, doc))
  {
  }

  /** After the upsert the email's code is the new one. */
  lemma UpsertThenFind(codes: seq<VerificationCode>, doc: VerificationCode)
    ensures var r := UpsertCode(codes, doc);
      CodeFor(r, doc.email).Some? && r[CodeFor(r, doc.email).value] == doc
  {
    var r := UpsertCode(codes, doc);
    match CodeFor(codes, doc.email)
    case None =>
      FirstIndexAt(r, (c: VerificationCode) => c.email == doc.email, |codes|);
    case Some(k) =>
      FirstIndexAt(r, (c: VerificationCode) => c.email == doc.email, k);
  }

  /** What the caller's environment gives the send route. */
  datatype SendEnv = SendEnv(serviceConfigured: bool, draws: seq<nat>, now: int, mailSent: bool)

  predicate ValidDraws(draws: seq<nat>) {
    |draws| == CodeLength && forall i :: 0 <= i < |draws| ==> draws[i] < 10
  }

  /** A user under that email who is verified. */
  predicate AlreadyVerified(users: seq<User>, email: string) {
    var k := UserByEmail(users, email);
    k.Some? && users[k.value].emailVerified == Some(true)
  }

  /** `POST /verify/send`: 500 when the mail service is not configured, 400
      when the email belongs to a verified user; otherwise the code is
      stored, and a failing mail send answers 500 with the code stored. */
  function SendCode(email: string, env: SendEnv, db: Db): (r: Routed<string>)
    requires ValidDraws(env.draws)
    ensures !env.serviceConfigured ==> r == Routed(Err(500, "Email service not configured"), db)
    ensures env.serviceConfigured && AlreadyVerified(db.users, email) ==>
      r == Routed(Err(400, "Email already registered"), db)
    ensures env.serviceConfigured && !AlreadyVerified(db.users, email) ==>
      && r.db == db.(verificationCodes := UpsertCode(db.verificationCodes,
                       VerificationCode(email, GenerateCode(env.draws), env.now + CodeLifetime, env.now)))
      && (r.response.Ok? <==> env.mailSent)
      && (r.response.Fail? ==> r.response.error.status == 500)
  {
    if !env.serviceConfigured then Routed(Err(500, "Email service not configured"), db)
    else if AlreadyVerified(db.users, email) then Routed(Err(400, "Email already registered"), db)
    else
      var doc := VerificationCode(email, GenerateCode(env.draws), env.now + CodeLifetime, env.now);
      var stored := db.(verificationCodes := UpsertCode(db.verificationCodes, doc));
      if env.mailSent then Routed(Ok("Verification code sent"), stored)
      else Routed(Err(500, "mail delivery failed"), stored)
  }

  /** `POST /verify/resend`: the send route itself. */
  function ResendCode(email: string, env: SendEnv, db: Db): (r: Routed<string>)
    requires ValidDraws(env.draws)
    ensures r == SendCode(email, env, db)
  {
    SendCode(email, env, db)
  }

  // ------------------------------------------------------------- checking

  /** `delete_one({"email": email})`: the first document for it goes. */
  function DeleteCode(codes: seq<VerificationCode>, email: string): (r: seq<VerificationCode>)
    ensures CodeFor(codes, email).None? ==> r == codes
    ensures CodeFor(codes, email).Some? ==>
      var k := CodeFor(codes, email).value;
      r == codes[..k] + codes[k + 1..]
  {
    match CodeFor(codes, email)
    case None => codes
    case Some(k) => codes[..k] + codes[k + 1..]
  }

  /** `update_one({"email": email}, {"$set": {"verified": True, ...}},
      upsert=True)` on pending verifications. */
  function MarkVerified(pending: seq<PendingVerification>, email: string, now: int): (r: seq<PendingVerification>)
    ensures exists k :: 0 <= k < |r| && r[k] == PendingVerification(email, true, now)
    ensures |r| == |pending| || |r| == |pending| + 1
    ensures FirstIndex(pending, (p: PendingVerification) => p.email == email).None? ==>
      r == pending + [PendingVerification(email, true, now)]
    ensures FirstIndex(pending, (p: PendingVerification) => p.email == email).Some? ==>
      r == pending[FirstIndex(pending, (p: PendingVerification) => p.email == email).value := PendingVerification(email, true, now)]
  {
    var doc := PendingVerification(email, true, now);
    match FirstIndex(pending, (p: PendingVerification) => p.email == email)
    case None =>
      assert (pending + [doc])[|pending|] == doc;
      pending + [doc]
    case Some(k) =>
      assert pending[k := doc][k] == doc;
      pending[k := doc]
  }

  /** `POST /verify/check`: fails, in this order, when the email has no
      code, when `now` is strictly past its expiry, and when the code
      differs; a failure writes nothing. Success marks the email verified
      and deletes its code. */
  function CheckCode(email: string, code: string, now: int, db: Db): (r: Routed<string>)
    ensures CodeFor(db.verificationCodes, email).None? ==>
      r == Routed(Err(400, "No verification code found. Please request a new one."), db)
    ensures CodeFor(db.verificationCodes, email).Some? ==>
      var rec := db.verificationCodes[CodeFor(db.verificationCodes, email).value];
      && (now > rec.expiresAt ==> r == Routed(Err(400, "Code expired. Please request a new one."), db))
      && (now <= rec.expiresAt && rec.code != code ==> r == Routed(Err(400, "Invalid code"), db))
      && (now <= rec.expiresAt && rec.code == code ==>
            r == Routed(Ok("Email verified"),
                        db.(pendingVerifications := MarkVerified(db.pendingVerifications, email, now),
                            verificationCodes := DeleteCode(db.verificationCodes, email))))
  {
    match CodeFor(db.verificationCodes, email)
    case None => Routed(Err(400, "No verification code found. Please request a new one."), db)
    case Some(k) =>
      var rec := db.verificationCodes[k];
      if now > rec.expiresAt then Routed(Err(400, "Code expired. Please request a new one."), db)
      else if rec.code != code then Routed(Err(400, "Invalid code"), db)
      else Routed(Ok("Email verified"),
                  db.(pendingVerifications := MarkVerified(db.pendingVerifications, email, now),
                      verificationCodes := DeleteCode(db.verificationCodes, email)))
  }

  /** A code sent at `sent` passes a check with that code up to and
      including the instant of its expiry, and fails one second later. */
  lemma SentCodeChecks(email: string, env: SendEnv, db: Db, checkAt: int)
    requires ValidDraws(env.draws)
    requires env.serviceConfigured && !AlreadyVerified(db.users, email)
    ensures var after := SendCode(email, env, db).db;
      && (env.now <= checkAt <= env.now + CodeLifetime ==> CheckCode(email, GenerateCode(env.draws), checkAt, after).response.Ok?)
      && (checkAt > env.now + CodeLifetime ==> CheckCode(email, GenerateCode(env.draws), checkAt, after).response.Fail?)
  {
    var code := GenerateCode(env.draws);
    var doc := VerificationCode(email, code, env.now + CodeLifetime, env.now);
    var after := SendCode(email, env, db).db;
    assert after.verificationCodes == UpsertCode(db.verificationCodes, doc);
    UpsertThenFind(db.verificationCodes, doc);
    var k := CodeFor(after.verificationCodes, email).value;
    assert after.verificationCodes[k] == doc;
    if checkAt > env.now + CodeLifetime {
      assert CheckCode(email, code, checkAt, after).response == Err(400, "Code expired. Please request a new one.");
    } else if env.now <= checkAt {
      assert CheckCode(email, code, checkAt, after).response == Ok("Email verified");
    }
  }

  /** With one code per email, a used code is gone: the same check again
      finds no code. */
  lemma CodeIsSingleUse(email: string, code: string, now: int, db: Db)
    requires OneCodePerEmail(db.verificationCodes)
    requires CheckCode(email, code, now, db).response.Ok?
    ensures CheckCode(email, code, now, CheckCode(email, code, now, db).db).response ==
      Err(400, "No verification code found. Please request a new one.")
  {
    var codes := db.verificationCodes;
    var k := CodeFor(codes, email).value;
    var rest := codes[..k] + codes[k + 1..];
    forall j | 0 <= j < |rest| ensures rest[j].email != email {
      if j < k {
        assert rest[j] == codes[j];
      } else {
        assert rest[j] == codes[j + 1];
      }
    }
  }

  /** Checking keeps at most one code per email. */
  lemma CheckKeepsOnePerEmail(email: string, code: string, now: int, db: Db)
    requires OneCodePerEmail(db.verificationCodes)
    ensures OneCodePerEmail(CheckCode(email, code, now, db).db.verificationCodes)
  {
    var codes := db.verificationCodes;
    if CodeFor(codes, email).Some? {
      var k := CodeFor(codes, email).value;
      var rest := codes[..k] + codes[k + 1..];
      forall i, j | 0 <= i < j < |rest| ensures rest[i].email != rest[j].email {
        var i' := if i < k then i else i + 1;
        var j' := if j < k then j else j + 1;
        assert rest[i] == codes[i'] && rest[j] == codes[j'];
      }
    }
  }
}
